=== FILE: README.md ===
# archive-diff, modelled in Dafny

archive-diff compares two archives (zip, tar, 7z or a plain directory) and
reports, per path, whether the two sides are `EQUAL`, `DIFFERENT`,
`ONLY_LEFT` or `ONLY_RIGHT`. This project models its diff core as pure
functions over immutable data and proves what that core promises:

- `path_parts`, the POSIX path splitter;
- `HashRecord`, the normalised listing record;
- the format handlers' `check_file`, how they classify members, and the
  first-match dispatcher;
- `find_common_prefix` with its trie, its order-dependent conflicts and its
  exceptions, and `strip_prefix_from_records`;
- `compute_listing_diff`, the sort-then-two-cursor merge;
- `ArchiveDiffer.compute_hash_listing` / `compute_diff`, the pipeline;
- `ArchiveDiff.stats`, `DiffTreeDirNode.all_equal`, `visit` and
  `build_diff_tree`. There are two copies of `diff_data.py`, the `src`
  one and the packaged one. They build the same tree and one model covers
  both; only the `src` copy has `visit`.

Modules, leaves first (one file each):

| module | file | what it holds |
|---|---|---|
| `Wrappers` | wrappers.dfy | `Option` for `Optional[...]`, `Result` for operations that raise |
| `Paths` | paths.dfy | `posixpath.split`, `path_parts`, `'/'.join`, `str.split('/')` |
| `Order` | order.dfy | Python's `<` on strings and on lists of strings |
| `Records` | records.dfy | `HashRecord`, its constructor and its generated equality |
| `Sorting` | sorting.dfy | `list.sort(key=...)` as a stable sort by `path_parts` or by `relpath` |
| `DiffData` | diffdata.dfy | `DiffState`, `DiffRecord`, `ArchiveDiff`, `stats` |
| `Merge` | merge.dfy | `compute_listing_diff` and the corrected merge |
| `Assoc` | assoc.dfy | Python dictionaries as insertion-ordered association lists |
| `Prefix` | prefix.dfy | the prefix trie, `find_common_prefix`, `strip_prefix_from_records` |
| `DiffTree` | difftree.dfy | tree nodes, `all_equal`, `visit`, `build_diff_tree` |
| `Handlers` | handlers.dfy | per-format `check_file`, member classification, dispatch |
| `Differ` | differ.dfy | `compute_hash_listing`, `compute_diff` |

Parameters stand in for what the core cannot see:

- A `Probe` holds the answers of the filesystem and of the format sniffers.
- A `Source` holds the member list that an archive library or `os.walk`
  reports.
- `hasher` is a function parameter standing in for the digest.
- `has7z` says whether `py7zr` imported.

## Model

| member | source | states |
|---|---|---|
| Paths.PathParts | src/archive_diff/utils.py:17-29 | every segment `path_parts` returns is non-empty and free of `/`, since only non-empty tails are kept |
| Paths.AllSepsHasNoParts | src/archive_diff/utils.py:17-29 | the empty string and a path made only of separators give no segments |
| Paths.TrailingSepIgnored | src/archive_diff/utils.py:18-25 | a trailing separator does not change the segments |
| Paths.PartsIgnoreTrailingSeps | src/archive_diff/utils.py:18-25 | any run of trailing separators is ignored |
| Paths.PartsAfterSplit | src/archive_diff/utils.py:19-27 | one loop step: the segments of a path are those of its head followed by its tail, so collecting in reverse and flipping gives left-to-right order |
| Paths.SplitJoinSnoc | src/archive_diff/utils.py:19-25 | splitting a joined path yields the joined head and the last segment, and the head is strictly shorter, so the loop terminates |
| Paths.PartsOfJoin | src/archive_diff/utils.py:17-29 | splitting the `/`-join of non-empty, separator-free segments gives those segments back |
| Paths.SplitOnSep | src/archive_diff/diff_data.py:113 | `str.split('/')` returns at least one piece, no piece holds `/`, and joining the pieces gives the input back |
| Paths.SplitOnSepOfJoin | src/archive_diff/diff_data.py:113 | `str.split('/')` inverts `'/'.join` on separator-free pieces |
| Order.StrLtTotal | src/archive_diff/archive_diff.py:36-46 | any two distinct strings are ordered one way or the other, so the merge always takes one of its three branches |
| Order.PartsLtTransitive | src/archive_diff/archive_diff.py:25-26 | list order on segment lists, the sort key, is transitive |
| Order.OrdersAgree | src/archive_diff/archive_diff.py:25-41 | when every character of every segment sorts above `/`, list order on segments and string order on the joined paths coincide, and so does equality |
| Records.MakeRecord | src/archive_diff/archive_format_handler.py:26-33 | an absent digest stays absent; a present one becomes exactly its `Lower` form, so each ASCII upper-case letter maps to its lower-case letter and everything else is kept; a list path is copied verbatim; a string path becomes its `path_parts`, all proper segments |
| Records.RebuildKeepsRecord | src/archive_diff/archive_format_handler.py:31-33 | rebuilding a record from its own lower-case digest and segments gives the same record |
| Records.StringAndListAgree | src/archive_diff/archive_format_handler.py:32-33 | a record built from the `/`-join of proper segments equals the one built from the segment list, and its `relpath` is that join |
| Records.EqualityIgnoresPaths | src/archive_diff/archive_format_handler.py:18-24 | any two records with the same digest (or both without one) and different single-segment paths compare equal although their parts differ, because the generated `__eq__` sees only `hash` |
| Sorting.SortBy | src/archive_diff/archive_diff.py:25-26 | the sorted listing is a permutation of the input, ordered by the key, and the records sharing a key keep their input order (`list.sort` is stable) |
| Sorting.StableSortUnique | src/archive_diff/archive_diff.py:25-26 | two sorted permutations of one listing that keep each key's records in the same order are equal, so every stable sort gives the same result |
| Sorting.SortStrict | src/archive_diff/archive_diff.py:25-26 | with distinct keys the sorted listing is strictly increasing |
| Sorting.StrictlySortedPermutationsEqual | src/archive_diff/archive_diff.py:25-26 | two strictly sorted permutations of each other are equal |
| Sorting.SortForgetsOrder | src/archive_diff/archive_diff.py:25-26 | with distinct keys the sorted listing does not depend on the input order |
| DiffData.CountsSumToLength | archive_diff/diff_data.py:43-52 | the four per-state counts add up to the number of records |
| DiffData.CountZeroIffAbsent | src/archive_diff/diff_data.py:38-43 | a state's count is zero exactly when no record is in it |
| DiffData.Stats | src/archive_diff/diff_data.py:38-43 | the loop builds a map whose keys are the four states; each maps to its count, and the counts sum to the number of records |
| Merge.PairState | src/archive_diff/archive_diff.py:36-40 | a shared path is `EQUAL` iff the digests are equal, two absent digests included, else `DIFFERENT` |
| Merge.ComputeListingDiff | src/archive_diff/archive_diff.py:15-56 | the method returns the merge of the two listings sorted by `path_parts`; its length lies between the longer listing's length and the sum of both |
| Merge.MergeSorted | src/archive_diff/archive_diff.py:31-56 | the three loops compute the reference merge; every appended record advances a cursor, so max(\|L\|,\|R\|) ≤ \|output\| ≤ \|L\|+\|R\| |
| Merge.DrainAll | src/archive_diff/archive_diff.py:49-54 | the drain loop reports every remaining record with one state, in order |
| Merge.MergeCoversUnion | src/archive_diff/archive_diff.py:31-56 | for any input order the merge reports exactly the paths of both listings |
| Merge.MergeAscending | src/archive_diff/archive_diff.py:31-56 | merging listings strictly sorted by `relpath` gives strictly ascending, duplicate-free paths |
| Merge.MergeStates | src/archive_diff/archive_diff.py:33-54 | on strictly sorted listings each record's state is the one the path's presence and digests call for |
| Merge.ListingDiffCoversUnion | src/archive_diff/archive_diff.py:15-56 | `compute_listing_diff` reports exactly the paths of the union, whatever the listings hold |
| Merge.FixedListingDiffCorrect | src/archive_diff/archive_diff.py:25-56 | the corrected merge, sorting by `relpath`, reports each path of the union once, ascending, with `ONLY_LEFT`/`ONLY_RIGHT` exactly for one-sided paths and `EQUAL` iff digests agree |
| Merge.ListingDiffAgrees | src/archive_diff/archive_diff.py:25-41 | on canonical listings the merge as written equals the corrected merge |
| Merge.CanonicalOrdersAgree | src/archive_diff/archive_diff.py:25-41 | a canonical listing sorted by `path_parts` is strictly sorted by `relpath`, and its paths are distinct |
| Merge.ListingDiffCorrect | src/archive_diff/archive_diff.py:15-56 | `compute_listing_diff` on canonical listings reports one record per path of the union, ascending, with the expected state |
| Merge.ListingDiffIgnoresOrder | src/archive_diff/archive_diff.py:25-26 | with distinct segment lists the result does not depend on the order of either input |
| Merge.SortMergeMismatch | src/archive_diff/archive_diff.py:25-41 | left `[a/b, a.txt]` against right `[a.txt]` reports `a.txt` twice, once as right-only and once as left-only |
| Assoc.KeyIndex | src/archive_diff/archive_diff.py:74-76 | `k in d` holds iff some entry has key `k`, and the index found holds that key |
| Assoc.PutSame | src/archive_diff/archive_diff.py:74-80 | after `d[k] = v` the key is present and holds `v` |
| Assoc.PutOther | src/archive_diff/archive_diff.py:74-80 | `d[k] = v` leaves every other key at its place with its value |
| Prefix.Place | src/archive_diff/archive_diff.py:70-84 | inserting a record fails iff its path descends through a file leaf (`TypeError`), or it is a file whose parent path lands on a file leaf (`ValueError`) |
| Prefix.ConflictsDependOnOrder | src/archive_diff/archive_diff.py:70-84 | for any names `a`, `b` and digest `h`: file `a` then file `a/b` gives `ValueError`; file `a/b` then file `a` silently overwrites; file `a` then directory `a/b` gives `TypeError`; a file without segments gives `IndexError` |
| Prefix.Walk | src/archive_diff/archive_diff.py:86-100 | the walk follows sole directory children and stops at a node without exactly one directory child |
| Prefix.WalkUnique | src/archive_diff/archive_diff.py:86-100 | any chain of sole directory children ending where the walk would stop is the walk's result |
| Prefix.FindCommonPrefix | src/archive_diff/archive_diff.py:59-100 | an empty listing gives `[]`; the finder fails exactly when building the trie fails |
| Prefix.BuildReaches | src/archive_diff/archive_diff.py:68-84 | every record's path is present in the trie built from the listing |
| Prefix.PrefixSound | src/archive_diff/archive_diff.py:59-100 | every record agrees with the prefix on their common length, and every file record is strictly longer than the prefix |
| Prefix.Kept | src/archive_diff/archive_diff.py:118-123 | a record no longer than the prefix is dropped; otherwise the prefix followed by its new segments is its old segments and its digest is kept |
| Prefix.StripAppend | src/archive_diff/archive_diff.py:117-125 | stripping works record by record, so it keeps the listing order |
| Prefix.StripContents | src/archive_diff/archive_diff.py:116-125 | stripping keeps as many records as there are records longer than the prefix; each comes from such a record, its old segments recoverable and its digest present iff the record's is |
| Prefix.KeptIndices | src/archive_diff/archive_diff.py:118-121 | the positions the stripping loop keeps, strictly increasing, are exactly those of the records longer than the prefix |
| Prefix.Rebuilt | src/archive_diff/archive_diff.py:123 | the rebuilt record's segments are the old ones after the prefix; its digest is absent iff the old one is, else the old one lower-cased, hence unchanged when already lower-case |
| Prefix.StripInOrder | src/archive_diff/archive_diff.py:116-125 | the `k`-th stripped record is the rebuilt `k`-th kept record: the kept records appear in input order, each exactly once, with their digests passed on |
| Prefix.StripPrefix | src/archive_diff/archive_diff.py:103-125 | stripping succeeds iff the finder does, and returns the finder's prefix |
| Prefix.StripRoundTrip | src/archive_diff/archive_diff.py:103-125 | the prefix followed by each kept record's segments is an input record's segments; only directories are dropped |
| Prefix.BuildStrip | src/archive_diff/archive_diff.py:68-125 | the trie of the stripped listing is the subtrie at the prefix |
| Prefix.StripIdempotent | src/archive_diff/archive_diff.py:103-125 | finding the prefix of a stripped listing gives `[]` |
| DiffTree.AllEqualIffFilesEqual | src/archive_diff/diff_data.py:59-71 | a consistent forest is all-equal iff every file anywhere below is `EQUAL`; an empty directory is all-equal |
| DiffTree.Visit | src/archive_diff/diff_data.py:73-76 | the visitor is first called on the node itself |
| DiffTree.VisitSubtree | src/archive_diff/diff_data.py:73-76 | pre-order: the call on a directory is followed at once by exactly the calls of its own subtree |
| DiffTree.VisitAllAppend | src/archive_diff/diff_data.py:75-76 | sibling subtrees are visited one after the other, in `children` order |
| DiffTree.VisitCallsEachNode | src/archive_diff/diff_data.py:73-89 | the calls are exactly the nodes of the tree, as a multiset, so each node is called once per occurrence |
| DiffTree.VisitIsPreOrder | src/archive_diff/diff_data.py:73-89 | the file nodes reach the visitor in the order `FilesOf` lists them, left to right |
| DiffTree.EnsureDirs | src/archive_diff/diff_data.py:115-122 | every intermediate part becomes a root-level directory and the entries already there stay a prefix of the result |
| DiffTree.EnsureDirsShape | src/archive_diff/diff_data.py:115-122 | creating the intermediate directories leaves the files untouched, adds only empty directories named by the parts, and keeps the directory names distinct |
| DiffTree.BuildDictBag | src/archive_diff/diff_data.py:111-125 | the record loop yields a flat tree with distinct directory names and exactly one file node per record |
| DiffTree.BuildDictHolds | archive_diff/diff_data.py:150-164 | the root's directories are the intermediate names of the records; each holds the records whose last directory part names it, and the root holds those without one, in record order |
| DiffTree.ToTreeConsistent | archive_diff/diff_data.py:133-147 | every directory node built carries the `all_equal` its constructor computes |
| DiffTree.TreeOfFlat | src/archive_diff/diff_data.py:102-109 | a directory's children are its subdirectories in `dirs` order, then its files |
| DiffTree.BuildDiffTreeShape | archive_diff/diff_data.py:150-167 | the root is `.`; directories come before files; a directory holds only files, so depth is at most two; the file nodes are one per record, named by the last `/`-piece with the record's state |
| DiffTree.BuildDiffTreeDirs | src/archive_diff/diff_data.py:115-122 | the root's directories are exactly the intermediate directory names of the records, each once, and they are the root's first children in first-seen order (dictionary insertion order), the files following |
| DiffTree.Dedup | src/archive_diff/diff_data.py:117-122 | dropping repeats keeps exactly the same names, each once |
| DiffTree.EnsureDirsOrder | src/archive_diff/diff_data.py:115-122 | the lookup loop appends the parts not yet present, in order of first occurrence, to the root's directory keys |
| DiffTree.BuildDictOrder | src/archive_diff/diff_data.py:111-122 | after the record loop the root's directory keys are the records' intermediate names in first-seen order |
| DiffTree.BuildDiffTreeFiles | src/archive_diff/diff_data.py:111-127 | each directory holds, in record order, the records whose last directory part names it; the root holds those without a directory part |
| DiffTree.RootAllEqual | src/archive_diff/diff_data.py:38-127 | the root is all-equal iff every record is `EQUAL`, i.e. iff the `DIFFERENT`, `ONLY_LEFT` and `ONLY_RIGHT` counts are zero |
| DiffTree.FlattenedExample | archive_diff/diff_data.py:154-161 | for distinct separator-free names `a`, `b` and any separator-free `c`, `a/b/c` puts `c` under a root-level `b` and leaves an empty root-level `a` |
| Handlers.HandlerOrder | src/archive_diff/archive_format_handler.py:209-217 | the handler list has no repeats and holds the 7z handler iff `py7zr` imported |
| Handlers.FirstMatch | src/archive_diff/archive_format_handler.py:228-232 | the scan succeeds iff some handler's check holds; it returns one whose check holds and whose predecessors' checks all fail, else `ArchiveFormatError` |
| Handlers.DispatcherCheckIff | src/archive_diff/archive_format_handler.py:234-239 | the dispatcher accepts a path iff zip, tar, directory or (with `py7zr`) 7z accepts it |
| Handlers.DispatchPrefersEarlier | src/archive_diff/archive_format_handler.py:209-232 | a path both zip and tar accept goes to zip; tar is preferred to directory and 7z |
| Handlers.SevenZipNeedsLibrary | src/archive_diff/archive_format_handler.py:171-217 | a path only the 7z sniffer accepts is refused without `py7zr` and handled by 7z with it |
| Handlers.MemberRecord | src/archive_diff/archive_format_handler.py:106-196 | zip and 7z members get a digest iff they are not directories, tar members iff they are regular files; the digest is the lower-cased hash of the bytes and the path is split |
| Handlers.ComputeListing | src/archive_diff/archive_format_handler.py:103-196 | each handler refuses, with its own message, exactly the paths its check rejects |
| Handlers.DirRecordsAt | src/archive_diff/archive_format_handler.py:150-168 | the directory handler yields the directory itself first, without a digest, then one record per walked entry in walk order: directories without a digest, files with their hashed content |
| Handlers.DirRecordsUnderRoot | src/archive_diff/archive_format_handler.py:150-168 | the directory handler emits the directory itself first, without a digest; every later record starts with the directory's name, and is digest-free iff it is a directory |
| Differ.FileRecords | src/archive_diff/archive_diff.py:155-156 | the filter keeps every record with a digest and only those |
| Differ.FileRecordsAppend | src/archive_diff/archive_diff.py:155-156 | the filter works record by record and keeps the listing order |
| Differ.FileRecordsIdempotent | src/archive_diff/archive_diff.py:155-156 | filtering an already filtered listing changes nothing |
| Differ.ComputeHashListing | src/archive_diff/archive_diff.py:143-156 | listing succeeds iff the dispatcher accepts the path, and yields exactly the dispatcher's records that have a digest, in listing order |
| Differ.ComputeDiff | src/archive_diff/archive_diff.py:168-182 | with `keep_prefix` both prefixes are `''`; otherwise it succeeds iff both prefix finders do, each prefix is the `/`-join of its found prefix, and a left failure is reported first |
| Differ.ComputeDiffCoversUnion | src/archive_diff/archive_diff.py:168-182 | the diff reports exactly the paths of the two compared listings: stripped, or as they are with `keep_prefix` |
| Differ.ComputeDiffOnCanonical | src/archive_diff/archive_diff.py:168-182 | on canonical compared listings the diff is the corrected merge: ascending paths, each with its expected state |
| Differ.Diff | src/archive_diff/archive_diff.py:158-182 | a left input no handler accepts fails first, then the right one; once both are listed, the result is exactly the compare step on the two hashed listings: its diff on success, its prefix error (wrapped) on failure; so it succeeds iff both inputs are accepted and, without `keep_prefix`, both prefixes are found |
| Differ.DiffCoversHashedMembers | src/archive_diff/archive_diff.py:155-182 | for either `keep_prefix`, the reported paths are exactly the paths of the hashed members of both inputs, as listed or with each listing's common prefix stripped |
| Differ.OnlyFilesAreCompared | src/archive_diff/archive_diff.py:155-182 | with `keep_prefix` the reported paths are exactly the paths of the hashed members of the two inputs |

## Left out

- Hashing (`file_comparison.py`) is an opaque `hasher` function. Buffered reads and algorithm selection are not modelled.
- Archive reading is not modelled. This covers `zipfile`, `tarfile`, `py7zr`, `os.walk`, `open` and the magic-byte sniffers. Their answers are the `Probe` and `Source` parameters.
- `compute_hash_listing` resolves the input path against the filesystem (`resolve(strict=True)`). The model starts from the resolved path's probe, and the `FileNotFoundError` it can raise is not modelled.
- Console rendering and argument parsing are not modelled: `cli_output.py`, both `__main__.py` files, `setup.py` and `archive_diff/__init__.py`.
- The Windows and drive-letter behaviour of `path_parts` is not modelled. It depends on the host's `os.path`; the model fixes POSIX `/` semantics.
- The `ValueError('Node is not a valid DiffTreeNode.')` branch of `check_equality` has no counterpart. The node datatype is closed, so a node is always a file or a directory.
- `DiffTreeFileNode.left_hash` / `right_hash` are not modelled. They are declared but never set.
- Records.Lower: `str.lower()` is modelled on ASCII letters only, because digests are hexadecimal strings.
- `compute_listing_diff` sorts its arguments in place. The model returns a new sequence; the caller's lists being reordered is not modelled.
- Handlers.DirRecordsUnderRoot: stated for a directory whose own name is one segment. The file-system root, whose name relative to itself is `.`, is not treated separately.
- Handlers.ComputeListing: the generators raise lazily, on first iteration. The model raises at the call, which yields the same records or the same error.
- Merge.ListingDiffCorrect: the union, uniqueness and order theorem needs canonical listings. `Merge.SortMergeMismatch` shows it fails without that.
- Prefix.FindCommonPrefix: the message text of the `ValueError` is not modelled, only which exception escapes.
- Paths are Dafny strings, whose characters are Unicode scalar values. `os.walk` and `tarfile` decode undecodable name bytes with `surrogateescape`, which gives lone surrogates (U+DC80 to U+DCFF). No Dafny `char` holds those, so such names, and where they sort under the `relpath` comparison, are outside the model.

## Findings

| source | as written | input that shows it | evidently intended | confidence | as-written member | corrected member |
|---|---|---|---|---|---|---|
| src/archive_diff/archive_diff.py:25-41 | the listings are sorted by `path_parts` (list order), but the merge advances by comparing `relpath` strings, and the two orders disagree when a segment holds a character below `/` | left `[a/b, a.txt]`, right `[a.txt]`: the result is `a.txt ONLY_RIGHT, a/b ONLY_LEFT, a.txt ONLY_LEFT` | sort by the order the merge compares with, giving one record per path of the union in ascending order, `a.txt EQUAL` here | high; not executed | Merge.SortMergeMismatch | Merge.FixedListingDiffCorrect |

`Differ` composes the merge as written (`Merge.ListingDiff`), so that the
pipeline matches the code. `Differ.ComputeDiffOnCanonical` shows that on
canonical listings this is the corrected merge (`Merge.FixedListingDiff`).

=== FILE: assoc.dfy ===
/** Python dictionaries with string keys, as association lists in insertion
    order: assigning to an existing key keeps its place, a new key goes
    last. */
module Assoc {

  /** Position of key `k` among the entries, or -1 (`k in d`). */
  function KeyIndex<V>(es: seq<(string, V)>, k: string): (i: int)
    ensures -1 <= i < |es|
    ensures i >= 0 ==> es[i].0 == k
    ensures i < 0 <==> forall m :: 0 <= m < |es| ==> es[m].0 != k
  {
    if |es| == 0 then -1
    else if es[0].0 == k then 0
    else
      var j := KeyIndex(es[1..], k);
      if j < 0 then -1 else j + 1
  }

  predicate HasKey<V>(es: seq<(string, V)>, k: string) {
    KeyIndex(es, k) >= 0
  }

  /** No key occurs twice, as in a dictionary. */
  predicate DistinctKeys<V>(es: seq<(string, V)>) {
    forall i, j | 0 <= i < j < |es| :: es[i].0 != es[j].0
  }

  /** `d[k] = v` */
  function Put<V>(es: seq<(string, V)>, k: string, v: V): seq<(string, V)> {
    var i := KeyIndex(es, k);
    if i >= 0 then es[i := (k, v)] else es + [(k, v)]
  }

  /** After `d[k] = v` the key is present and holds `v`. */
  lemma PutSame<V>(es: seq<(string, V)>, k: string, v: V)
    ensures HasKey(Put(es, k, v), k)
    ensures Put(es, k, v)[KeyIndex(Put(es, k, v), k)].1 == v
  {
    var i := KeyIndex(es, k);
    var r := Put(es, k, v);
    if i >= 0 {
      assert KeyIndex(r, k) == i by { KeyIndexOfUpdate(es, i, k, v, k); }
    } else {
      assert forall m :: 0 <= m < |es| ==> r[m] == es[m];
      assert r[|es|] == (k, v);
    }
  }

  /** `d[k] = v` leaves every other key where it was, with its value. */
  lemma PutOther<V>(es: seq<(string, V)>, k: string, v: V, k': string)
    requires k' != k
    ensures KeyIndex(Put(es, k, v), k') == KeyIndex(es, k')
    ensures HasKey(es, k') ==> Put(es, k, v)[KeyIndex(es, k')] == es[KeyIndex(es, k')]
  {
    var i := KeyIndex(es, k);
    if i >= 0 {
      KeyIndexOfUpdate(es, i, k, v, k');
    } else {
      KeyIndexOfAppend(es, (k, v), k');
    }
  }

  lemma {:induction false} KeyIndexOfUpdate<V>(es: seq<(string, V)>, i: nat, k: string, v: V, k': string)
    requires i < |es| && es[i].0 == k
    ensures KeyIndex(es[i := (k, v)], k') == KeyIndex(es, k')
    decreases |es|
  {
    if es[0].0 != k' && i > 0 {
      assert es[i := (k, v)][1..] == es[1..][i - 1 := (k, v)];
      KeyIndexOfUpdate(es[1..], i - 1, k, v, k');
    }
  }

  lemma {:induction false} KeyIndexOfAppend<V>(es: seq<(string, V)>, e: (string, V), k': string)
    requires KeyIndex(es, k') >= 0 || e.0 != k'
    ensures KeyIndex(es + [e], k') == KeyIndex(es, k')
    decreases |es|
  {
    if |es| == 0 {
      assert KeyIndex([e], k') == -1 by {
        assert forall m :: 0 <= m < |[e]| ==> [e][m].0 != k';
      }
    } else if es[0].0 != k' {
      assert (es + [e])[1..] == es[1..] + [e];
      KeyIndexOfAppend(es[1..], e, k');
    }
  }

  /** Extending a dictionary with new entries keeps the place of every key it
      had. */
  lemma {:induction false} KeyIndexOfPrefix<V>(a: seq<(string, V)>, b: seq<(string, V)>, k: string)
    requires a <= b && KeyIndex(a, k) >= 0
    ensures KeyIndex(b, k) == KeyIndex(a, k)
    decreases |a|
  {
    if a[0].0 != k {
      assert a[1..] <= b[1..];
      KeyIndexOfPrefix(a[1..], b[1..], k);
    }
  }
}

=== FILE: diffdata.dfy ===
/** The flat result of a diff: `DiffState`, `DiffRecord`, `ArchiveDiff` and
    its per-state counts (`ArchiveDiff.stats`). Both copies of `diff_data.py`
    define these identically. */
module DiffData {

  datatype DiffState = EQUAL | DIFFERENT | ONLY_LEFT | ONLY_RIGHT

  datatype DiffRecord = DiffRecord(relpath: string, result: DiffState)

  datatype ArchiveDiff = ArchiveDiff(prefixLeft: string, prefixRight: string, records: seq<DiffRecord>)

  /** Number of records in state `s`. */
  function Count(records: seq<DiffRecord>, s: DiffState): nat {
    if |records| == 0 then 0
    else Count(records[..|records| - 1], s) + (if records[|records| - 1].result == s then 1 else 0)
  }

  /** The four counts add up to the number of records. */
  lemma {:induction false} CountsSumToLength(records: seq<DiffRecord>)
    ensures Count(records, EQUAL) + Count(records, DIFFERENT)
          + Count(records, ONLY_LEFT) + Count(records, ONLY_RIGHT) == |records|
    decreases |records|
  {
    if |records| > 0 {
      CountsSumToLength(records[..|records| - 1]);
    }
  }

  /** A state has count zero exactly when no record is in it. */
  lemma {:induction false} CountZeroIffAbsent(records: seq<DiffRecord>, s: DiffState)
    ensures Count(records, s) == 0 <==> forall k :: 0 <= k < |records| ==> records[k].result != s
    decreases |records|
  {
    if |records| > 0 {
      var init := records[..|records| - 1];
      CountZeroIffAbsent(init, s);
      assert forall k :: 0 <= k < |init| ==> init[k] == records[k];
    }
  }

  /** `ArchiveDiff.stats()`: a dictionary holding every state, each mapped to
      the number of records in that state. */
  method Stats(diff: ArchiveDiff) returns (counts: map<DiffState, nat>)
    ensures counts.Keys == {EQUAL, DIFFERENT, ONLY_LEFT, ONLY_RIGHT}
    ensures forall s :: s in counts ==> counts[s] == Count(diff.records, s)
    ensures counts[EQUAL] + counts[DIFFERENT] + counts[ONLY_LEFT] + counts[ONLY_RIGHT]
            == |diff.records|
  {
    counts := map[EQUAL := 0, DIFFERENT := 0, ONLY_LEFT := 0, ONLY_RIGHT := 0];
    var i := 0;
    while i < |diff.records|
      invariant 0 <= i <= |diff.records|
      invariant counts.Keys == {EQUAL, DIFFERENT, ONLY_LEFT, ONLY_RIGHT}
      invariant forall s :: s in counts ==> counts[s] == Count(diff.records[..i], s)
    {
      var r := diff.records[i];
      assert r.result in counts by {
        match r.result
        case EQUAL => case DIFFERENT => case ONLY_LEFT => case ONLY_RIGHT =>
      }
      assert diff.records[..i + 1][..i] == diff.records[..i];
      counts := counts[r.result := counts[r.result] + 1];
      i := i + 1;
    }
    assert diff.records[..i] == diff.records;
    CountsSumToLength(diff.records);
  }
}

=== FILE: differ.dfy ===
/** `ArchiveDiffer`: list both inputs through the dispatching handler, keep
    only the records with a digest, strip the common prefix of each listing
    unless asked to keep it, and merge. */
module Differ {
  import opened Wrappers
  import opened Paths
  import opened Records
  import opened DiffData
  import opened Merge
  import opened Prefix
  import opened Handlers

  /** What `compute_diff` lets escape: the dispatcher's `ArchiveFormatError`
      or one of the prefix finder's exceptions. */
  datatype DiffError = HandlerFailure(handlerError: HandlerError) | PrefixFailure(prefixError: PrefixError)

  /** `filter(lambda x: x.hash is not None, ...)`: the records with a digest,
      in listing order. */
  function FileRecords(listing: seq<HashRecord>): (out: seq<HashRecord>)
    ensures |out| <= |listing|
    ensures forall k | 0 <= k < |out| :: out[k].IsFile() && out[k] in listing
    ensures forall m | 0 <= m < |listing| && listing[m].IsFile() :: listing[m] in out
    decreases |listing|
  {
    if |listing| == 0 then []
    else
      var init := listing[..|listing| - 1];
      var last := listing[|listing| - 1];
      var out := FileRecords(init) + (if last.IsFile() then [last] else []);
      assert forall m | 0 <= m < |init| :: init[m] == listing[m];
      out
  }

  /** The filter works record by record, so it keeps the listing order. */
  lemma {:induction false} FileRecordsAppend(a: seq<HashRecord>, b: seq<HashRecord>)
    ensures FileRecords(a + b) == FileRecords(a) + FileRecords(b)
    decreases |b|
  {
    if |b| == 0 {
      assert a + b == a;
    } else {
      var init := b[..|b| - 1];
      assert (a + b)[..|a + b| - 1] == a + init;
      assert (a + b)[|a + b| - 1] == b[|b| - 1];
      FileRecordsAppend(a, init);
    }
  }

  /** Filtering twice filters nothing more. */
  lemma {:induction false} FileRecordsIdempotent(listing: seq<HashRecord>)
    ensures FileRecords(FileRecords(listing)) == FileRecords(listing)
    decreases |listing|
  {
    if |listing| > 0 {
      var init := listing[..|listing| - 1];
      var last := listing[|listing| - 1];
      FileRecordsIdempotent(init);
      FileRecordsAppend(FileRecords(init), if last.IsFile() then [last] else []);
      if last.IsFile() {
        assert FileRecords([last]) == FileRecords([]) + [last] by {
          assert [last][..0] == [];
        }
      }
    }
  }

  /** `compute_hash_listing(in_file)` on an already resolved path. */
  function ComputeHashListing(has7z: bool, src: Source, hasher: seq<bv8> -> string): (r: Result<seq<HashRecord>, HandlerError>)
    ensures r.Success? <==> DispatcherCheck(has7z, src.probe)
    ensures r.Success? ==> forall k | 0 <= k < |r.value| :: r.value[k].IsFile()
    ensures r.Success? ==> r.value == FileRecords(DispatchListing(has7z, src, hasher).value)
  {
    DispatchListingIff(has7z, src, hasher);
    match DispatchListing(has7z, src, hasher)
    case Failure(e) => Failure(e)
    case Success(listing) => Success(FileRecords(listing))
  }

  /** The part of `compute_diff` after listing: strip each listing's common
      prefix unless `keep_prefix`, then merge. */
  function ComputeDiff(keepPrefix: bool, listing1: seq<HashRecord>, listing2: seq<HashRecord>): (r: Result<ArchiveDiff, PrefixError>)
    ensures r.Success? <==> keepPrefix || (FindCommonPrefix(listing1).Success? && FindCommonPrefix(listing2).Success?)
    ensures r.Success? && keepPrefix ==> r.value.prefixLeft == "" && r.value.prefixRight == ""
    ensures r.Success? && !keepPrefix ==>
              r.value.prefixLeft == Join(FindCommonPrefix(listing1).value)
              && r.value.prefixRight == Join(FindCommonPrefix(listing2).value)
    ensures r.Failure? && FindCommonPrefix(listing1).Failure? ==> r.error == FindCommonPrefix(listing1).error
  {
    if keepPrefix then Success(ArchiveDiff("", "", ListingDiff(listing1, listing2)))
    else
      match StripPrefix(listing1)
      case Failure(e) => Failure(e)
      case Success(s1) =>
        match StripPrefix(listing2)
        case Failure(e) => Failure(e)
        case Success(s2) => Success(ArchiveDiff(Join(s1.0), Join(s2.0), ListingDiff(s1.1, s2.1)))
  }

  /** The listings the merge receives: the filtered listings as they are, or
      with their prefixes stripped. */
  function Compared(keepPrefix: bool, listing: seq<HashRecord>): seq<HashRecord>
    requires keepPrefix || FindCommonPrefix(listing).Success?
  {
    if keepPrefix then listing else StripPrefix(listing).value.1
  }

  /** Whatever the order of the listings, the diff reports exactly the
      paths of the two listings it compares: with `keep_prefix` the
      listings' own paths, otherwise their paths after stripping. */
  lemma ComputeDiffCoversUnion(keepPrefix: bool, listing1: seq<HashRecord>, listing2: seq<HashRecord>)
    requires ComputeDiff(keepPrefix, listing1, listing2).Success?
    ensures PathsOf(ComputeDiff(keepPrefix, listing1, listing2).value.records)
            == Relpaths(Compared(keepPrefix, listing1)) + Relpaths(Compared(keepPrefix, listing2))
  {
    ListingDiffCoversUnion(Compared(keepPrefix, listing1), Compared(keepPrefix, listing2));
  }

  /** When the compared listings are canonical (distinct segment lists,
      every character of every segment above the separator) the diff is
      the corrected merge: every path once, ascending, each with the state
      its presence and digests call for. */
  lemma ComputeDiffOnCanonical(keepPrefix: bool, listing1: seq<HashRecord>, listing2: seq<HashRecord>)
    requires ComputeDiff(keepPrefix, listing1, listing2).Success?
    requires Canonical(Compared(keepPrefix, listing1)) && Canonical(Compared(keepPrefix, listing2))
    ensures var l, r := Compared(keepPrefix, listing1), Compared(keepPrefix, listing2);
            var out := ComputeDiff(keepPrefix, listing1, listing2).value.records;
            out == FixedListingDiff(l, r) && AscendingPaths(out)
            && forall k | 0 <= k < |out| :: out[k].result == ExpectedState(l, r, out[k].relpath)
  {
    var l, r := Compared(keepPrefix, listing1), Compared(keepPrefix, listing2);
    ListingDiffAgrees(l, r);
    ListingDiffCorrect(l, r);
  }

  /** `ArchiveDiffer.compute_diff(left, right)`: list the left input, then
      the right one, then compare; the first exception wins. */
  function Diff(keepPrefix: bool, has7z: bool, left: Source, right: Source, hasher: seq<bv8> -> string): (r: Result<ArchiveDiff, DiffError>)
    ensures !DispatcherCheck(has7z, left.probe) ==> r == Failure(HandlerFailure(ArchiveFormatError(NoHandlerMessage)))
    ensures DispatcherCheck(has7z, left.probe) && !DispatcherCheck(has7z, right.probe) ==>
              r == Failure(HandlerFailure(ArchiveFormatError(NoHandlerMessage)))
    ensures keepPrefix ==> (r.Success? <==> DispatcherCheck(has7z, left.probe) && DispatcherCheck(has7z, right.probe))
    ensures var l1, l2 := ComputeHashListing(has7z, left, hasher), ComputeHashListing(has7z, right, hasher);
            r.Success? <==> l1.Success? && l2.Success? && ComputeDiff(keepPrefix, l1.value, l2.value).Success?
    ensures var l1, l2 := ComputeHashListing(has7z, left, hasher), ComputeHashListing(has7z, right, hasher);
            l1.Success? && l2.Success? ==>
              match ComputeDiff(keepPrefix, l1.value, l2.value)
              case Success(d) => r == Success(d)
              case Failure(e) => r == Failure(PrefixFailure(e))
  {
    DispatchListingIff(has7z, left, hasher);
    DispatchListingIff(has7z, right, hasher);
    match ComputeHashListing(has7z, left, hasher)
    case Failure(e) => Failure(HandlerFailure(e))
    case Success(listing1) =>
      match ComputeHashListing(has7z, right, hasher)
      case Failure(e) => Failure(HandlerFailure(e))
      case Success(listing2) =>
        match ComputeDiff(keepPrefix, listing1, listing2)
        case Failure(e) => Failure(PrefixFailure(e))
        case Success(d) => Success(d)
  }

  /** Whatever `keep_prefix` says, the diff reports exactly the paths of the
      hashed members of the two inputs, as the merge receives them: as
      listed, or with each listing's common prefix stripped. */
  lemma DiffCoversHashedMembers(keepPrefix: bool, has7z: bool, left: Source, right: Source, hasher: seq<bv8> -> string)
    requires Diff(keepPrefix, has7z, left, right, hasher).Success?
    ensures var l1 := FileRecords(DispatchListing(has7z, left, hasher).value);
            var l2 := FileRecords(DispatchListing(has7z, right, hasher).value);
            (keepPrefix || (FindCommonPrefix(l1).Success? && FindCommonPrefix(l2).Success?))
            && PathsOf(Diff(keepPrefix, has7z, left, right, hasher).value.records)
               == Relpaths(Compared(keepPrefix, l1)) + Relpaths(Compared(keepPrefix, l2))
  {
    var l1 := FileRecords(DispatchListing(has7z, left, hasher).value);
    var l2 := FileRecords(DispatchListing(has7z, right, hasher).value);
    assert Diff(keepPrefix, has7z, left, right, hasher).value == ComputeDiff(keepPrefix, l1, l2).value;
    ComputeDiffCoversUnion(keepPrefix, l1, l2);
  }

  /** Only records with a digest enter the diff: with `keep_prefix` the
      reported paths are exactly the paths of the hashed members of the two
      inputs, so a directory member shows up only when a file shares its
      path. */
  lemma OnlyFilesAreCompared(has7z: bool, left: Source, right: Source, hasher: seq<bv8> -> string)
    requires Diff(true, has7z, left, right, hasher).Success?
    ensures var l1 := DispatchListing(has7z, left, hasher).value;
            var l2 := DispatchListing(has7z, right, hasher).value;
            PathsOf(Diff(true, has7z, left, right, hasher).value.records)
              == Relpaths(FileRecords(l1)) + Relpaths(FileRecords(l2))
  {
    var l1 := FileRecords(DispatchListing(has7z, left, hasher).value);
    var l2 := FileRecords(DispatchListing(has7z, right, hasher).value);
    assert Diff(true, has7z, left, right, hasher).value == ComputeDiff(true, l1, l2).value;
    ComputeDiffCoversUnion(true, l1, l2);
  }
}

=== FILE: difftree.dfy ===
/** The diff tree of `diff_data.py` (both copies): directory nodes that
    record whether everything below them is equal, file nodes carrying a
    state, the pre-order `visit`, and `build_diff_tree`, which looks every
    intermediate directory up among the root's directories, so the tree it
    builds is flat. */
module DiffTree {
  import opened Paths
  import opened Assoc
  import opened DiffData

  /** `DiffTreeDirNode` (with its computed `all_equal`) or `DiffTreeFileNode`. */
  datatype DiffTreeNode =
    | DirNode(name: string, allEqual: bool, children: seq<DiffTreeNode>)
    | FileNode(name: string, state: DiffState)

  /** `check_equality` of the directory constructor: a file is equal when its
      state is `EQUAL`, a directory when its `all_equal` holds. */
  predicate NodeEqual(n: DiffTreeNode) {
    match n
    case FileNode(_, s) => s == EQUAL
    case DirNode(_, e, _) => e
  }

  /** Every node of the list is equal (`all(check_equality(...))`). */
  predicate AllNodesEqual(cs: seq<DiffTreeNode>) {
    forall i | 0 <= i < |cs| :: NodeEqual(cs[i])
  }

  /** `DiffTreeDirNode(name, children)`: `all_equal` is `all(...)` over the
      children, true for none. */
  function MakeDir(name: string, children: seq<DiffTreeNode>): DiffTreeNode {
    DirNode(name, AllNodesEqual(children), children)
  }

  /** Every directory node in the forest carries the `all_equal` its
      constructor computes. */
  predicate Consistent(cs: seq<DiffTreeNode>)
    decreases cs
  {
    forall i | 0 <= i < |cs| ::
      cs[i].DirNode? ==> cs[i].allEqual == AllNodesEqual(cs[i].children) && Consistent(cs[i].children)
  }

  /** The file nodes of a forest as `(name, state)` pairs, left to right. */
  function FilesOf(cs: seq<DiffTreeNode>): seq<(string, DiffState)>
    decreases cs
  {
    if |cs| == 0 then []
    else
      (match cs[0]
       case FileNode(n, s) => [(n, s)]
       case DirNode(_, _, ch) => FilesOf(ch))
      + FilesOf(cs[1..])
  }

  lemma {:induction false} FilesOfAppend(a: seq<DiffTreeNode>, b: seq<DiffTreeNode>)
    ensures FilesOf(a + b) == FilesOf(a) + FilesOf(b)
    decreases |a|
  {
    if |a| == 0 {
      assert a + b == b;
    } else {
      assert (a + b)[0] == a[0] && (a + b)[1..] == a[1..] + b;
      FilesOfAppend(a[1..], b);
    }
  }

  /** Every listed file is `EQUAL`. */
  predicate AllStatesEqual(fs: seq<(string, DiffState)>) {
    forall k | 0 <= k < |fs| :: fs[k].1 == EQUAL
  }

  lemma AllStatesEqualAppend(a: seq<(string, DiffState)>, b: seq<(string, DiffState)>)
    ensures AllStatesEqual(a + b) <==> AllStatesEqual(a) && AllStatesEqual(b)
  {
    assert forall k | 0 <= k < |a| :: (a + b)[k] == a[k];
    assert forall k | 0 <= k < |b| :: (a + b)[|a| + k] == b[k];
  }

  lemma ConsistentParts(cs: seq<DiffTreeNode>)
    requires Consistent(cs) && |cs| > 0
    ensures Consistent(cs[1..])
    ensures AllNodesEqual(cs) <==> NodeEqual(cs[0]) && AllNodesEqual(cs[1..])
    ensures cs[0].DirNode? ==> cs[0].allEqual == AllNodesEqual(cs[0].children) && Consistent(cs[0].children)
  {
    assert forall i | 0 <= i < |cs[1..]| :: cs[1..][i] == cs[i + 1];
  }

  /** `all_equal` of a consistent directory holds exactly when every file
      anywhere below it is `EQUAL`; an empty directory is equal. */
  lemma {:induction false} AllEqualIffFilesEqual(cs: seq<DiffTreeNode>)
    requires Consistent(cs)
    ensures AllNodesEqual(cs) <==> AllStatesEqual(FilesOf(cs))
    decreases cs
  {
    if |cs| > 0 {
      ConsistentParts(cs);
      AllEqualIffFilesEqual(cs[1..]);
      match cs[0]
      case FileNode(n, st) =>
        assert FilesOf(cs) == [(n, st)] + FilesOf(cs[1..]);
        assert AllStatesEqual([(n, st)]) <==> st == EQUAL by {
          assert [(n, st)][0].1 == st;
        }
        AllStatesEqualAppend([(n, st)], FilesOf(cs[1..]));
      case DirNode(_, _, ch) =>
        AllEqualIffFilesEqual(ch);
        AllStatesEqualAppend(FilesOf(ch), FilesOf(cs[1..]));
    }
  }

  // ---------------------------------------------------------------------
  // visit

  /** The nodes the visitor is called on, in call order: each node, then the
      visit of each child in turn. */
  function VisitAll(cs: seq<DiffTreeNode>): seq<DiffTreeNode>
    decreases cs
  {
    if |cs| == 0 then []
    else
      [cs[0]]
      + (match cs[0] case FileNode(_, _) => [] case DirNode(_, _, ch) => VisitAll(ch))
      + VisitAll(cs[1..])
  }

  /** `node.visit(visitor)` */
  function Visit(n: DiffTreeNode): (calls: seq<DiffTreeNode>)
    ensures |calls| > 0 && calls[0] == n
  {
    VisitAll([n])
  }

  /** Number of nodes in the forest: one for each node and its descendants. */
  function Size(cs: seq<DiffTreeNode>): nat
    decreases cs
  {
    if |cs| == 0 then 0
    else
      1 + (match cs[0] case FileNode(_, _) => 0 case DirNode(_, _, ch) => Size(ch))
      + Size(cs[1..])
  }

  /** Only the file nodes, as `(name, state)` pairs. */
  function FileCalls(calls: seq<DiffTreeNode>): seq<(string, DiffState)>
    decreases |calls|
  {
    if |calls| == 0 then []
    else
      (if calls[0].FileNode? then [(calls[0].name, calls[0].state)] else [])
      + FileCalls(calls[1..])
  }

  lemma {:induction false} FileCallsAppend(a: seq<DiffTreeNode>, b: seq<DiffTreeNode>)
    ensures FileCalls(a + b) == FileCalls(a) + FileCalls(b)
    decreases |a|
  {
    if |a| == 0 {
      assert a + b == b;
    } else {
      assert (a + b)[0] == a[0] && (a + b)[1..] == a[1..] + b;
      FileCallsAppend(a[1..], b);
    }
  }

  /** Every node of the forest, each of its descendants included, counted
      once per occurrence. */
  function Nodes(cs: seq<DiffTreeNode>): multiset<DiffTreeNode>
    decreases cs
  {
    if |cs| == 0 then multiset{}
    else
      multiset{cs[0]}
      + (match cs[0] case FileNode(_, _) => multiset{} case DirNode(_, _, ch) => Nodes(ch))
      + Nodes(cs[1..])
  }

  /** The visitor is called once per node: the calls are exactly the nodes
      of the forest, each as often as it occurs there. */
  lemma {:induction false} VisitCallsEachNode(cs: seq<DiffTreeNode>)
    ensures |VisitAll(cs)| == Size(cs)
    ensures multiset(VisitAll(cs)) == Nodes(cs)
    decreases cs
  {
    if |cs| > 0 {
      var head := cs[0];
      var below := if head.DirNode? then VisitAll(head.children) else [];
      assert VisitAll(cs) == ([head] + below) + VisitAll(cs[1..]);
      VisitCallsEachNode(cs[1..]);
      if head.DirNode? {
        VisitCallsEachNode(head.children);
      }
    }
  }

  /** The calls below a node: its subtree's, or none for a file. */
  function Below(n: DiffTreeNode): seq<DiffTreeNode> {
    if n.DirNode? then VisitAll(n.children) else []
  }

  lemma VisitAllCons(cs: seq<DiffTreeNode>)
    requires |cs| > 0
    ensures VisitAll(cs) == [cs[0]] + Below(cs[0]) + VisitAll(cs[1..])
  {
  }

  /** The visit is a pre-order: every directory's call is followed at once
      by the calls of its own subtree, and by nothing else in between. */
  lemma {:induction false} VisitSubtree(cs: seq<DiffTreeNode>, k: nat)
    requires k < |VisitAll(cs)| && VisitAll(cs)[k].DirNode?
    ensures k + 1 + |VisitAll(VisitAll(cs)[k].children)| <= |VisitAll(cs)|
    ensures VisitAll(cs)[k + 1..k + 1 + |VisitAll(VisitAll(cs)[k].children)|] == VisitAll(VisitAll(cs)[k].children)
    decreases cs, 1
  {
    assert |cs| > 0;
    VisitAllCons(cs);
    if k == 0 {
      BelowSlice(VisitAll(cs), cs[0], Below(cs[0]), VisitAll(cs[1..]), 0, |Below(cs[0])|);
      assert Below(cs[0])[0..|Below(cs[0])|] == Below(cs[0]);
    } else if k < 1 + |Below(cs[0])| {
      SubtreeInHead(cs, k);
    } else {
      SubtreeInTail(cs, k);
    }
  }

  /** A directory met while visiting the first node's subtree. */
  lemma {:induction false} SubtreeInHead(cs: seq<DiffTreeNode>, k: nat)
    requires |cs| > 0 && 1 <= k <= |Below(cs[0])|
    requires VisitAll(cs)[k].DirNode?
    ensures k + 1 + |VisitAll(VisitAll(cs)[k].children)| <= |VisitAll(cs)|
    ensures VisitAll(cs)[k + 1..k + 1 + |VisitAll(VisitAll(cs)[k].children)|] == VisitAll(VisitAll(cs)[k].children)
    decreases cs, 0
  {
    var head, below, rest := cs[0], Below(cs[0]), VisitAll(cs[1..]);
    VisitAllCons(cs);
    BelowIndex(VisitAll(cs), head, below, rest, k);
    var sub := VisitAll(below[k - 1].children);
    VisitSubtree(head.children, k - 1);
    BelowSlice(VisitAll(cs), head, below, rest, k, |sub|);
  }

  /** A directory met while visiting the remaining nodes. */
  lemma {:induction false} SubtreeInTail(cs: seq<DiffTreeNode>, k: nat)
    requires |cs| > 0 && 1 + |Below(cs[0])| <= k < |VisitAll(cs)|
    requires VisitAll(cs)[k].DirNode?
    ensures k + 1 + |VisitAll(VisitAll(cs)[k].children)| <= |VisitAll(cs)|
    ensures VisitAll(cs)[k + 1..k + 1 + |VisitAll(VisitAll(cs)[k].children)|] == VisitAll(VisitAll(cs)[k].children)
    decreases cs, 0
  {
    var head, below, rest := cs[0], Below(cs[0]), VisitAll(cs[1..]);
    VisitAllCons(cs);
    var j := k - 1 - |below|;
    RestIndex(VisitAll(cs), head, below, rest, k, j);
    var sub := VisitAll(rest[j].children);
    VisitSubtree(cs[1..], j);
    RestSlice(VisitAll(cs), head, below, rest, k, j, |sub|);
  }

  lemma BelowIndex<T>(all: seq<T>, head: T, below: seq<T>, rest: seq<T>, k: nat)
    requires all == [head] + below + rest && 1 <= k <= |below|
    ensures all[k] == below[k - 1]
  {
  }

  lemma BelowSlice<T>(all: seq<T>, head: T, below: seq<T>, rest: seq<T>, k: nat, n: nat)
    requires all == [head] + below + rest && k + n <= |below|
    ensures all[k + 1..k + 1 + n] == below[k..k + n]
  {
  }

  lemma RestIndex<T>(all: seq<T>, head: T, below: seq<T>, rest: seq<T>, k: nat, j: nat)
    requires all == [head] + below + rest && j == k - 1 - |below| && j < |rest|
    ensures all[k] == rest[j]
  {
  }

  lemma RestSlice<T>(all: seq<T>, head: T, below: seq<T>, rest: seq<T>, k: nat, j: nat, n: nat)
    requires all == [head] + below + rest && j == k - 1 - |below| && j + 1 + n <= |rest|
    ensures all[k + 1..k + 1 + n] == rest[j + 1..j + 1 + n]
  {
  }

  /** Sibling forests are visited one after the other. */
  lemma {:induction false} VisitAllAppend(a: seq<DiffTreeNode>, b: seq<DiffTreeNode>)
    ensures VisitAll(a + b) == VisitAll(a) + VisitAll(b)
    decreases |a|
  {
    if |a| == 0 {
      assert a + b == b;
    } else {
      assert (a + b)[0] == a[0] && (a + b)[1..] == a[1..] + b;
      VisitAllCons(a + b);
      VisitAllCons(a);
      VisitAllAppend(a[1..], b);
      SeqAssoc([a[0]] + Below(a[0]), VisitAll(a[1..]), VisitAll(b));
    }
  }


  lemma FileCallsOfOne(n: DiffTreeNode)
    ensures FileCalls([n]) == (if n.FileNode? then [(n.name, n.state)] else [])
  {
    assert [n][1..] == [];
  }

  /** The calls on one node and the nodes below it hold the node's own
      file pair, if any, then the file calls of its descendants. */
  lemma FileCallsOfHead(head: DiffTreeNode, below: seq<DiffTreeNode>)
    requires head.FileNode? ==> below == []
    ensures FileCalls([head] + below) == (if head.FileNode? then [(head.name, head.state)] else FileCalls(below))
  {
    FileCallsAppend([head], below);
    FileCallsOfOne(head);
  }

  /** The file nodes the visitor meets come in the order `FilesOf` lists
      them, left to right. */
  lemma {:induction false} VisitIsPreOrder(cs: seq<DiffTreeNode>)
    ensures FileCalls(VisitAll(cs)) == FilesOf(cs)
    decreases cs
  {
    if |cs| > 0 {
      var head, tail := cs[0], cs[1..];
      var below := if head.DirNode? then VisitAll(head.children) else [];
      var rest := VisitAll(tail);
      assert VisitAll(cs) == ([head] + below) + rest;
      var own := if head.FileNode? then [(head.name, head.state)] else FilesOf(head.children);
      assert FilesOf(cs) == own + FilesOf(tail);
      VisitIsPreOrder(tail);
      FileCallsAppend([head] + below, rest);
      FileCallsOfHead(head, below);
      if head.DirNode? {
        VisitIsPreOrder(head.children);
      }
      assert FileCalls([head] + below) == own;
    }
  }


  // ---------------------------------------------------------------------
  // build_diff_tree

  /** The intermediate `DictNode`: files in record order, directories in
      first-seen order. */
  datatype DictNode = DictNode(files: seq<(string, DiffState)>, dirs: seq<(string, DictNode)>)

  const EmptyDict: DictNode := DictNode([], [])

  /** The file node a record yields: its last `/`-piece and its state. */
  function FileEntry(rec: DiffRecord): (string, DiffState) {
    (LastPiece(rec.relpath), rec.result)
  }

  /** The intermediate directory names of a record. */
  function DirParts(rec: DiffRecord): seq<string> {
    var parts := SplitOnSep(rec.relpath);
    parts[..|parts| - 1]
  }

  /** One lookup of the `while len(parts) > 1` loop: the part is looked up
      among the root's directories and created there when missing. */
  function EnsureDir(root: DictNode, p: string): (r: DictNode)
    ensures HasKey(r.dirs, p)
    ensures r.files == root.files
    ensures root.dirs <= r.dirs
    ensures forall i | |root.dirs| <= i < |r.dirs| :: r.dirs[i] == (p, EmptyDict)
    ensures DistinctKeys(root.dirs) ==> DistinctKeys(r.dirs)
  {
    if HasKey(root.dirs, p) then root
    else
      var r := root.(dirs := root.dirs + [(p, EmptyDict)]);
      assert r.dirs[|root.dirs|].0 == p;
      r
  }

  lemma PrefixTrans<T>(a: seq<T>, b: seq<T>, c: seq<T>)
    requires a <= b && b <= c
    ensures a <= c
  {
    assert forall i | 0 <= i < |a| :: a[i] == b[i] == c[i];
  }

  /** The `while len(parts) > 1` loop: each intermediate part is looked up
      among the root's directories and created there when missing. */
  function EnsureDirs(root: DictNode, ps: seq<string>): (r: DictNode)
    ensures forall k | 0 <= k < |ps| :: HasKey(r.dirs, ps[k])
    ensures root.dirs <= r.dirs
    decreases |ps|
  {
    if |ps| == 0 then root
    else
      var next := EnsureDir(root, ps[0]);
      var r := EnsureDirs(next, ps[1..]);
      assert HasKey(r.dirs, ps[0]) by { KeyIndexOfPrefix(next.dirs, r.dirs, ps[0]); }
      assert forall k | 1 <= k < |ps| :: HasKey(r.dirs, ps[k]) by {
        forall k | 1 <= k < |ps| ensures HasKey(r.dirs, ps[k]) {
          assert ps[k] == ps[1..][k - 1];
        }
      }
      PrefixTrans(root.dirs, next.dirs, r.dirs);
      r
  }

  /** The loop touches no file, keeps the existing directories, adds only
      empty directories named by the parts, and never adds a name twice. */
  lemma {:induction false} EnsureDirsShape(root: DictNode, ps: seq<string>)
    ensures var r := EnsureDirs(root, ps);
            && r.files == root.files
            && (forall i | |root.dirs| <= i < |r.dirs| :: r.dirs[i].1 == EmptyDict && r.dirs[i].0 in ps)
            && (DistinctKeys(root.dirs) ==> DistinctKeys(r.dirs))
    decreases |ps|
  {
    if |ps| > 0 {
      var next := EnsureDir(root, ps[0]);
      var r := EnsureDirs(next, ps[1..]);
      EnsureDirsShape(next, ps[1..]);
      forall i | |root.dirs| <= i < |r.dirs| ensures r.dirs[i].0 in ps {
        if i >= |next.dirs| {
          assert r.dirs[i].0 in ps[1..];
        } else {
          assert r.dirs[i] == next.dirs[i];
        }
      }
    }
  }

  /** One iteration of the record loop: create the missing directories,
      then append the file node to the root when the record has no
      directory part, else to the root-level directory named by its last
      directory part. */
  function AddToDict(root: DictNode, rec: DiffRecord): DictNode {
    var ds := DirParts(rec);
    var r := EnsureDirs(root, ds);
    if |ds| == 0 then r.(files := r.files + [FileEntry(rec)])
    else
      assert HasKey(r.dirs, ds[|ds| - 1]);
      AppendToDir(r, KeyIndex(r.dirs, ds[|ds| - 1]), FileEntry(rec))
  }

  /** `archive_root.dirs[part].files.append(file_node)` for the directory at
      position `i`. */
  function AppendToDir(r: DictNode, i: nat, e: (string, DiffState)): DictNode
    requires i < |r.dirs|
  {
    var d := r.dirs[i].1;
    r.(dirs := r.dirs[i := (r.dirs[i].0, d.(files := d.files + [e]))])
  }

  function BuildDict(records: seq<DiffRecord>): DictNode
    decreases |records|
  {
    if |records| == 0 then EmptyDict
    else AddToDict(BuildDict(records[..|records| - 1]), records[|records| - 1])
  }

  /** `to_tree_node(name, node)`: the directories, converted, followed by the
      files. */
  function ToTree(name: string, node: DictNode): DiffTreeNode
    decreases node
  {
    MakeDir(name,
      seq(|node.dirs|, i requires 0 <= i < |node.dirs| => ToTree(node.dirs[i].0, node.dirs[i].1))
      + FileNodes(node.files))
  }

  function FileNodes(files: seq<(string, DiffState)>): (r: seq<DiffTreeNode>)
    ensures |r| == |files|
    ensures forall i | 0 <= i < |files| :: r[i] == FileNode(files[i].0, files[i].1)
  {
    seq(|files|, i requires 0 <= i < |files| => FileNode(files[i].0, files[i].1))
  }

  /** `build_diff_tree(archive_diff)` */
  function BuildDiffTree(diff: ArchiveDiff): (root: DiffTreeNode)
    ensures root.DirNode? && root.name == "."
  {
    ToTree(".", BuildDict(diff.records))
  }

  // ---------------------------------------------------------------------
  // What build_diff_tree produces

  /** Only the root has subdirectories. */
  predicate Flat(node: DictNode) {
    forall i | 0 <= i < |node.dirs| :: node.dirs[i].1.dirs == []
  }

  /** The files held by the directories, directory by directory. */
  function DirsFiles(ds: seq<(string, DictNode)>): seq<(string, DiffState)>
    decreases |ds|
  {
    if |ds| == 0 then [] else ds[0].1.files + DirsFiles(ds[1..])
  }

  /** Every file node of a flat intermediate tree, in output order. */
  function Bag(node: DictNode): seq<(string, DiffState)> {
    DirsFiles(node.dirs) + node.files
  }

  /** The file node each record should yield, in record order. */
  function Entries(records: seq<DiffRecord>): (es: seq<(string, DiffState)>)
    ensures |es| == |records|
  {
    seq(|records|, i requires 0 <= i < |records| => FileEntry(records[i]))
  }

  lemma {:induction false} DirsFilesAppend(a: seq<(string, DictNode)>, b: seq<(string, DictNode)>)
    ensures DirsFiles(a + b) == DirsFiles(a) + DirsFiles(b)
    decreases |a|
  {
    if |a| == 0 {
      assert a + b == b;
    } else {
      assert (a + b)[0] == a[0] && (a + b)[1..] == a[1..] + b;
      DirsFilesAppend(a[1..], b);
    }
  }

  lemma {:induction false} DirsFilesOfEmpties(c: seq<(string, DictNode)>)
    requires forall i | 0 <= i < |c| :: c[i].1 == EmptyDict
    ensures DirsFiles(c) == []
    decreases |c|
  {
    if |c| > 0 {
      DirsFilesOfEmpties(c[1..]);
    }
  }

  /** Appending to the files of one directory adds exactly that file. */
  lemma {:induction false} DirsFilesUpdate(ds: seq<(string, DictNode)>, i: nat, d: DictNode, e: (string, DiffState))
    requires i < |ds| && d.files == ds[i].1.files + [e]
    ensures multiset(DirsFiles(ds[i := (ds[i].0, d)])) == multiset(DirsFiles(ds)) + multiset{e}
    decreases i
  {
    var ds' := ds[i := (ds[i].0, d)];
    assert DirsFiles(ds') == ds'[0].1.files + DirsFiles(ds'[1..]);
    assert DirsFiles(ds) == ds[0].1.files + DirsFiles(ds[1..]);
    if i == 0 {
      assert ds'[1..] == ds[1..];
      assert multiset(d.files) == multiset(ds[0].1.files) + multiset{e};
    } else {
      assert ds'[0] == ds[0];
      assert ds'[1..] == ds[1..][i - 1 := (ds[i].0, d)];
      DirsFilesUpdate(ds[1..], i - 1, d, e);
    }
  }

  /** Directories appended empty hold no files and no subdirectories. */
  lemma EmptyExtension(a: seq<(string, DictNode)>, b: seq<(string, DictNode)>)
    requires a <= b && forall i | |a| <= i < |b| :: b[i].1 == EmptyDict
    ensures DirsFiles(b) == DirsFiles(a)
    ensures (forall i | 0 <= i < |a| :: a[i].1.dirs == []) ==> forall i | 0 <= i < |b| :: b[i].1.dirs == []
  {
    var c := b[|a|..];
    assert b == a + c;
    forall i | 0 <= i < |c| ensures c[i].1 == EmptyDict {
      assert c[i] == b[|a| + i];
    }
    DirsFilesAppend(a, c);
    DirsFilesOfEmpties(c);
  }

  /** Creating the missing directories adds no files and keeps the tree
      flat. */
  lemma EnsureDirsKeepsBag(root: DictNode, ps: seq<string>)
    requires Flat(root)
    ensures Bag(EnsureDirs(root, ps)) == Bag(root)
    ensures Flat(EnsureDirs(root, ps))
  {
    var r := EnsureDirs(root, ps);
    EnsureDirsShape(root, ps);
    EmptyExtension(root.dirs, r.dirs);
  }

  /** Appending a file node to one root-level directory adds exactly that
      node and keeps the tree flat with the same directory names. */
  lemma AddToDirBag(r: DictNode, i: nat, e: (string, DiffState))
    requires Flat(r) && DistinctKeys(r.dirs) && i < |r.dirs|
    ensures multiset(Bag(AppendToDir(r, i, e))) == multiset(Bag(r)) + multiset{e}
    ensures Flat(AppendToDir(r, i, e)) && DistinctKeys(AppendToDir(r, i, e).dirs)
  {
    var d := r.dirs[i].1;
    var d' := d.(files := d.files + [e]);
    var r' := AppendToDir(r, i, e);
    assert multiset(Bag(r')) == multiset(Bag(r)) + multiset{e} by {
      DirsFilesUpdate(r.dirs, i, d', e);
      assert Bag(r') == DirsFiles(r'.dirs) + r.files;
    }
    assert Flat(r') && DistinctKeys(r'.dirs) by {
      UpdateKeepsShape(r.dirs, i, d');
    }
  }

  /** Replacing one directory's node by one with the same subdirectories
      keeps every name and every directory's subdirectories. */
  lemma UpdateKeepsShape(ds: seq<(string, DictNode)>, i: nat, d: DictNode)
    requires i < |ds| && d.dirs == ds[i].1.dirs
    ensures var ds' := ds[i := (ds[i].0, d)];
            forall k | 0 <= k < |ds'| :: ds'[k].0 == ds[k].0 && ds'[k].1.dirs == ds[k].1.dirs
  {
  }

  /** Appending a file node to the root adds exactly that node. */
  lemma AddToRootBag(r: DictNode, e: (string, DiffState))
    ensures multiset(Bag(r.(files := r.files + [e]))) == multiset(Bag(r)) + multiset{e}
  {
    assert Bag(r.(files := r.files + [e])) == Bag(r) + [e];
  }

  /** One iteration of the record loop adds exactly the record's file node
      and keeps the tree flat with distinct directory names. */
  lemma AddToDictBag(root: DictNode, rec: DiffRecord)
    requires Flat(root) && DistinctKeys(root.dirs)
    ensures multiset(Bag(AddToDict(root, rec))) == multiset(Bag(root)) + multiset{FileEntry(rec)}
    ensures Flat(AddToDict(root, rec)) && DistinctKeys(AddToDict(root, rec).dirs)
  {
    var ds := DirParts(rec);
    var r := EnsureDirs(root, ds);
    EnsureDirsShape(root, ds);
    EnsureDirsKeepsBag(root, ds);
    if |ds| > 0 {
      AddToDirBag(r, KeyIndex(r.dirs, ds[|ds| - 1]), FileEntry(rec));
    } else {
      AddToRootBag(r, FileEntry(rec));
    }
  }

  lemma EntriesSnoc(records: seq<DiffRecord>)
    requires |records| > 0
    ensures Entries(records) == Entries(records[..|records| - 1]) + [FileEntry(records[|records| - 1])]
  {
  }

  /** The record loop: a flat tree holding exactly one file node per
      record, with distinct root-level directory names. */
  lemma {:induction false} BuildDictBag(records: seq<DiffRecord>)
    ensures multiset(Bag(BuildDict(records))) == multiset(Entries(records))
    ensures Flat(BuildDict(records)) && DistinctKeys(BuildDict(records).dirs)
    decreases |records|
  {
    if |records| > 0 {
      var init := records[..|records| - 1];
      var last := records[|records| - 1];
      BuildDictBag(init);
      AddToDictBag(BuildDict(init), last);
      EntriesSnoc(records);
      assert BuildDict(records) == AddToDict(BuildDict(init), last);
    }
  }

  lemma FilesOfFileNodes(files: seq<(string, DiffState)>)
    ensures FilesOf(FileNodes(files)) == files
    decreases |files|
  {
    if |files| > 0 {
      FilesOfFileNodes(files[1..]);
      assert FileNodes(files)[1..] == FileNodes(files[1..]);
    }
  }

  /** The converted directories of a flat tree, in `dirs` order. */
  function DirTrees(ds: seq<(string, DictNode)>): (r: seq<DiffTreeNode>)
    ensures |r| == |ds|
  {
    seq(|ds|, i requires 0 <= i < |ds| => ToTree(ds[i].0, ds[i].1))
  }

  lemma {:induction false} FilesOfDirTrees(ds: seq<(string, DictNode)>)
    requires forall i | 0 <= i < |ds| :: ds[i].1.dirs == []
    ensures FilesOf(DirTrees(ds)) == DirsFiles(ds)
    decreases |ds|
  {
    if |ds| > 0 {
      FilesOfDirTrees(ds[1..]);
      assert DirTrees(ds)[1..] == DirTrees(ds[1..]);
      var t := ToTree(ds[0].0, ds[0].1);
      ToTreeChildren(ds[0].0, ds[0].1);
      assert DirTrees(ds[0].1.dirs) == [];
      assert t.children == FileNodes(ds[0].1.files);
      FilesOfFileNodes(ds[0].1.files);
      assert DirTrees(ds)[0] == t && t.DirNode?;
      assert FilesOf(DirTrees(ds)) == FilesOf(t.children) + FilesOf(DirTrees(ds[1..]));
      assert FilesOf(t.children) == ds[0].1.files;
    }
  }

  /** `to_tree_node` lists the directories first, then the files. */
  lemma ToTreeChildren(name: string, node: DictNode)
    ensures ToTree(name, node).children == DirTrees(node.dirs) + FileNodes(node.files)
  {
  }

  /** Every directory `to_tree_node` builds carries the `all_equal` its
      constructor computes. */
  lemma {:induction false} ToTreeConsistent(name: string, node: DictNode)
    ensures Consistent([ToTree(name, node)])
    decreases node
  {
    var t := ToTree(name, node);
    var ds := DirTrees(node.dirs);
    var fs := FileNodes(node.files);
    ToTreeChildren(name, node);
    forall i | 0 <= i < |ds| ensures Consistent([ds[i]]) {
      ToTreeConsistent(node.dirs[i].0, node.dirs[i].1);
    }
    forall i | 0 <= i < |t.children| ensures
      t.children[i].DirNode? ==> t.children[i].allEqual == AllNodesEqual(t.children[i].children) && Consistent(t.children[i].children)
    {
      if i < |ds| {
        assert t.children[i] == ds[i];
        assert [ds[i]][0] == ds[i];
      } else {
        assert t.children[i] == fs[i - |ds|];
      }
    }
    assert Consistent(t.children);
  }

  /** The shape of `build_diff_tree`'s result: the root is `.`; its children
      are directories followed by files; a directory holds only files, so
      the depth is at most two; each record yields one file node, named by
      the last `/`-piece of its path and carrying its state; and every
      `all_equal` is the one the constructor computes. */
  lemma BuildDiffTreeShape(diff: ArchiveDiff)
    ensures BuildDiffTree(diff).name == "."
    ensures forall i, j | 0 <= i < j < |BuildDiffTree(diff).children| ::
              BuildDiffTree(diff).children[j].DirNode? ==> BuildDiffTree(diff).children[i].DirNode?
    ensures forall i, j | 0 <= i < |BuildDiffTree(diff).children| && BuildDiffTree(diff).children[i].DirNode?
                          && 0 <= j < |BuildDiffTree(diff).children[i].children| ::
              BuildDiffTree(diff).children[i].children[j].FileNode?
    ensures multiset(FilesOf(BuildDiffTree(diff).children)) == multiset(Entries(diff.records))
    ensures Consistent([BuildDiffTree(diff)])
  {
    var node := BuildDict(diff.records);
    BuildDictBag(diff.records);
    FlatTreeFiles(".", node);
    FlatTreeShape(".", node);
    ToTreeConsistent(".", node);
  }

  /** The file nodes of a flat tree, in output order, are its bag. */
  lemma FlatTreeFiles(name: string, node: DictNode)
    requires Flat(node)
    ensures FilesOf(ToTree(name, node).children) == Bag(node)
  {
    ToTreeChildren(name, node);
    var ds := DirTrees(node.dirs);
    var fs := FileNodes(node.files);
    FilesOfAppend(ds, fs);
    FilesOfDirTrees(node.dirs);
    FilesOfFileNodes(node.files);
  }

  /** A flat tree lists its directories before its files, and its
      directories hold files only. */
  lemma FlatTreeShape(name: string, node: DictNode)
    requires Flat(node)
    ensures var cs := ToTree(name, node).children;
            && (forall i, j | 0 <= i < j < |cs| :: cs[j].DirNode? ==> cs[i].DirNode?)
            && (forall i, j | 0 <= i < |cs| && cs[i].DirNode? && 0 <= j < |cs[i].children| :: cs[i].children[j].FileNode?)
  {
    TreeOfFlat(name, node);
  }


  // ---------------------------------------------------------------------
  // Where each record's file node lands

  /** The file nodes of the records that have no directory part, in record
      order: the files placed directly under the root. */
  function TopLevel(records: seq<DiffRecord>): seq<(string, DiffState)>
    decreases |records|
  {
    if |records| == 0 then []
    else
      var last := records[|records| - 1];
      TopLevel(records[..|records| - 1]) + (if |DirParts(last)| == 0 then [FileEntry(last)] else [])
  }

  /** The file nodes of the records whose last directory part is `name`, in
      record order. */
  function InDir(records: seq<DiffRecord>, name: string): seq<(string, DiffState)>
    decreases |records|
  {
    if |records| == 0 then []
    else
      var last := records[|records| - 1];
      var ds := DirParts(last);
      InDir(records[..|records| - 1], name) + (if |ds| > 0 && ds[|ds| - 1] == name then [FileEntry(last)] else [])
  }

  /** Every intermediate directory name of any record. */
  function DirSegments(records: seq<DiffRecord>): set<string>
    decreases |records|
  {
    if |records| == 0 then {}
    else DirSegments(records[..|records| - 1]) + Names(DirParts(records[|records| - 1]))
  }

  /** The names occurring in a list. */
  function Names(ps: seq<string>): set<string> {
    set k | 0 <= k < |ps| :: ps[k]
  }

  /** The names of a list of entries. */
  function Keys<V>(es: seq<(string, V)>): set<string> {
    set i | 0 <= i < |es| :: es[i].0
  }

  /** A directory that receives a file is an intermediate directory of some
      record. */
  lemma {:induction false} InDirSegment(records: seq<DiffRecord>, name: string)
    requires InDir(records, name) != []
    ensures name in DirSegments(records)
    decreases |records|
  {
    var init := records[..|records| - 1];
    var ds := DirParts(records[|records| - 1]);
    if !(|ds| > 0 && ds[|ds| - 1] == name) {
      InDirSegment(init, name);
    }
  }

  lemma EnsureDirsKeys(root: DictNode, ps: seq<string>)
    ensures Keys(EnsureDirs(root, ps).dirs) == Keys(root.dirs) + Names(ps)
  {
    var r := EnsureDirs(root, ps);
    EnsureDirsShape(root, ps);
    forall k | 0 <= k < |ps| ensures ps[k] in Keys(r.dirs) {
      assert HasKey(r.dirs, ps[k]);
      assert r.dirs[KeyIndex(r.dirs, ps[k])].0 == ps[k];
    }
    forall i | 0 <= i < |r.dirs| ensures r.dirs[i].0 in Keys(root.dirs) + Names(ps) {
      if i < |root.dirs| {
        assert r.dirs[i] == root.dirs[i];
      }
    }
    forall i | 0 <= i < |root.dirs| ensures root.dirs[i].0 in Keys(r.dirs) {
      assert r.dirs[i] == root.dirs[i];
    }
  }

  /** The intermediate tree matches the records read so far. */
  predicate Holds(node: DictNode, records: seq<DiffRecord>) {
    && Keys(node.dirs) == DirSegments(records)
    && node.files == TopLevel(records)
    && (forall i | 0 <= i < |node.dirs| :: node.dirs[i].1.files == InDir(records, node.dirs[i].0))
  }

  /** Creating the missing directories for the next record keeps the
      invariant, with the new directories still empty. */
  lemma EnsureDirsHolds(root: DictNode, init: seq<DiffRecord>, ps: seq<string>)
    requires Holds(root, init) && DistinctKeys(EnsureDirs(root, ps).dirs)
    ensures var r := EnsureDirs(root, ps);
            Keys(r.dirs) == DirSegments(init) + Names(ps) && r.files == TopLevel(init)
            && forall i | 0 <= i < |r.dirs| :: r.dirs[i].1.files == InDir(init, r.dirs[i].0)
  {
    var r := EnsureDirs(root, ps);
    EnsureDirsShape(root, ps);
    EnsureDirsKeys(root, ps);
    forall i | 0 <= i < |r.dirs| ensures r.dirs[i].1.files == InDir(init, r.dirs[i].0) {
      if i < |root.dirs| {
        assert r.dirs[i] == root.dirs[i];
      } else {
        assert r.dirs[i].0 !in Keys(root.dirs) by {
          forall m | 0 <= m < |root.dirs| ensures root.dirs[m].0 != r.dirs[i].0 {
            assert r.dirs[m] == root.dirs[m];
          }
        }
        if InDir(init, r.dirs[i].0) != [] {
          InDirSegment(init, r.dirs[i].0);
        }
      }
    }
  }

  /** One iteration of the record loop keeps the invariant. */
  lemma AddToDictHolds(root: DictNode, records: seq<DiffRecord>)
    requires |records| > 0
    requires Holds(root, records[..|records| - 1]) && Flat(root) && DistinctKeys(root.dirs)
    ensures Holds(AddToDict(root, records[|records| - 1]), records)
  {
    var init := records[..|records| - 1];
    var last := records[|records| - 1];
    var ds := DirParts(last);
    var r := EnsureDirs(root, ds);
    EnsureDirsShape(root, ds);
    EnsureDirsHolds(root, init, ds);
    assert DirSegments(records) == DirSegments(init) + Names(ds);
    if |ds| == 0 {
      var out := AddToDict(root, last);
      assert out == r.(files := r.files + [FileEntry(last)]);
      forall i | 0 <= i < |out.dirs| ensures out.dirs[i].1.files == InDir(records, out.dirs[i].0) {
        assert InDir(records, out.dirs[i].0) == InDir(init, out.dirs[i].0) + [];
      }
    } else {
      FileToDirHolds(r, records);
    }
  }

  /** A record with directory parts lands in the root-level directory named
      by its last one. */
  lemma FileToDirHolds(r: DictNode, records: seq<DiffRecord>)
    requires |records| > 0 && |DirParts(records[|records| - 1])| > 0
    requires var init := records[..|records| - 1];
             var ds := DirParts(records[|records| - 1]);
             Keys(r.dirs) == DirSegments(records) && r.files == TopLevel(init)
             && (forall i | 0 <= i < |r.dirs| :: r.dirs[i].1.files == InDir(init, r.dirs[i].0))
             && DistinctKeys(r.dirs) && HasKey(r.dirs, ds[|ds| - 1])
    ensures var last := records[|records| - 1];
            var ds := DirParts(last);
            var j := KeyIndex(r.dirs, ds[|ds| - 1]);
            Holds(AppendToDir(r, j, FileEntry(last)), records)
  {
    var init := records[..|records| - 1];
    var last := records[|records| - 1];
    var ds := DirParts(last);
    var name := ds[|ds| - 1];
    var j := KeyIndex(r.dirs, name);
    var e := FileEntry(last);
    var out := AppendToDir(r, j, e);
    assert out.dirs == r.dirs[j := (r.dirs[j].0, r.dirs[j].1.(files := r.dirs[j].1.files + [e]))];
    assert TopLevel(records) == TopLevel(init) + [];
    assert Keys(out.dirs) == Keys(r.dirs) by {
      forall i | 0 <= i < |r.dirs| ensures out.dirs[i].0 == r.dirs[i].0 {}
    }
    forall i | 0 <= i < |out.dirs| ensures out.dirs[i].1.files == InDir(records, out.dirs[i].0) {
      if i == j {
        assert InDir(records, name) == InDir(init, name) + [e];
      } else {
        assert out.dirs[i] == r.dirs[i];
        assert r.dirs[i].0 != name;
        assert InDir(records, r.dirs[i].0) == InDir(init, r.dirs[i].0) + [];
      }
    }
  }


  /** After the record loop the root-level directories are exactly the
      intermediate directory names, each directory holds the records whose
      last directory part names it, and the root holds the records without
      one, all in record order. */
  lemma {:induction false} BuildDictHolds(records: seq<DiffRecord>)
    ensures Holds(BuildDict(records), records)
    decreases |records|
  {
    if |records| > 0 {
      var init := records[..|records| - 1];
      BuildDictHolds(init);
      BuildDictBag(init);
      AddToDictHolds(BuildDict(init), records);
    }
  }

  lemma {:induction false} FileCallsOfFileNodes(files: seq<(string, DiffState)>)
    ensures FileCalls(FileNodes(files)) == files
    decreases |files|
  {
    if |files| > 0 {
      FileCallsOfFileNodes(files[1..]);
      assert FileNodes(files)[1..] == FileNodes(files[1..]);
    }
  }

  lemma {:induction false} FileCallsOfDirTrees(ds: seq<(string, DictNode)>)
    ensures FileCalls(DirTrees(ds)) == []
    decreases |ds|
  {
    if |ds| > 0 {
      FileCallsOfDirTrees(ds[1..]);
      assert DirTrees(ds)[1..] == DirTrees(ds[1..]);
    }
  }

  /** The names of the directory nodes of a forest. */
  function DirNames(cs: seq<DiffTreeNode>): set<string> {
    set i | 0 <= i < |cs| && cs[i].DirNode? :: cs[i].name
  }

  /** `to_tree_node` on a flat tree: one directory node per entry of
      `dirs`, holding only that directory's files, then the root's files. */
  lemma TreeOfFlat(name: string, node: DictNode)
    requires Flat(node)
    ensures var t := ToTree(name, node);
            && |t.children| == |node.dirs| + |node.files|
            && (forall i | 0 <= i < |node.dirs| ::
                  t.children[i].DirNode? && t.children[i].name == node.dirs[i].0
                  && t.children[i].children == FileNodes(node.dirs[i].1.files))
            && (forall i | |node.dirs| <= i < |t.children| :: t.children[i].FileNode?)
            && FileCalls(t.children) == node.files
  {
    var t := ToTree(name, node);
    var ds := DirTrees(node.dirs);
    var fs := FileNodes(node.files);
    ToTreeChildren(name, node);
    assert t.children == ds + fs;
    forall i | 0 <= i < |node.dirs|
      ensures t.children[i].children == FileNodes(node.dirs[i].1.files)
    {
      assert t.children[i] == ds[i];
      ToTreeChildren(node.dirs[i].0, node.dirs[i].1);
      assert DirTrees(node.dirs[i].1.dirs) == [];
    }
    forall i | |node.dirs| <= i < |t.children| ensures t.children[i].FileNode? {
      assert t.children[i] == fs[i - |ds|];
    }
    FileCallsAppend(ds, fs);
    FileCallsOfDirTrees(node.dirs);
    FileCallsOfFileNodes(node.files);
  }

  /** The directory nodes of a flat tree are named by its `dirs` keys, and
      distinct keys give distinct directory names. */
  lemma DirNamesOfFlat(name: string, node: DictNode)
    requires Flat(node) && DistinctKeys(node.dirs)
    ensures DirNames(ToTree(name, node).children) == Keys(node.dirs)
    ensures var cs := ToTree(name, node).children;
            forall i, j | 0 <= i < j < |cs| && cs[j].DirNode? :: cs[i].name != cs[j].name
  {
    var cs := ToTree(name, node).children;
    TreeOfFlat(name, node);
    forall i | 0 <= i < |node.dirs| ensures node.dirs[i].0 in DirNames(cs) {
      assert cs[i].DirNode?;
    }
  }

  /** The root's directories in `build_diff_tree`'s result are the
      intermediate directory names of the records, each exactly once. */
  lemma BuildDiffTreeDirs(diff: ArchiveDiff)
    ensures DirNames(BuildDiffTree(diff).children) == DirSegments(diff.records)
    ensures forall i, j | 0 <= i < j < |BuildDiffTree(diff).children| && BuildDiffTree(diff).children[j].DirNode? ::
              BuildDiffTree(diff).children[i].name != BuildDiffTree(diff).children[j].name
    ensures var cs, names := BuildDiffTree(diff).children, FirstSeen(diff.records);
            && |names| <= |cs|
            && (forall i | 0 <= i < |names| :: cs[i].DirNode? && cs[i].name == names[i])
            && (forall i | |names| <= i < |cs| :: cs[i].FileNode?)
  {
    var node := BuildDict(diff.records);
    BuildDictBag(diff.records);
    BuildDictHolds(diff.records);
    DirNamesOfFlat(".", node);
    BuildDictOrder(diff.records);
    TreeOfFlat(".", node);
    assert forall i | 0 <= i < |node.dirs| :: KeyList(node.dirs)[i] == node.dirs[i].0;
  }

  // ---------------------------------------------------------------------
  // Order of the root's directories

  /** A list with its repeats dropped: each element is kept at its first
      occurrence only. */
  function Dedup(s: seq<string>): (r: seq<string>)
    ensures forall x :: x in r <==> x in s
    ensures forall i, j | 0 <= i < j < |r| :: r[i] != r[j]
    decreases |s|
  {
    if |s| == 0 then []
    else
      var init := s[..|s| - 1];
      var x := s[|s| - 1];
      assert s == init + [x];
      if x in init then Dedup(init) else Dedup(init) + [x]
  }

  /** The intermediate directory names of all records, record by record. */
  function AllDirParts(records: seq<DiffRecord>): seq<string>
    decreases |records|
  {
    if |records| == 0 then []
    else AllDirParts(records[..|records| - 1]) + DirParts(records[|records| - 1])
  }

  /** The intermediate directory names in the order the record loop first
      meets them: a dictionary's insertion order. */
  function FirstSeen(records: seq<DiffRecord>): seq<string> {
    Dedup(AllDirParts(records))
  }

  /** The keys of a list of entries, in order. */
  function KeyList(ds: seq<(string, DictNode)>): (ks: seq<string>)
    ensures |ks| == |ds|
    ensures forall i | 0 <= i < |ds| :: ks[i] == ds[i].0
  {
    seq(|ds|, i requires 0 <= i < |ds| => ds[i].0)
  }

  lemma DedupSnoc(s: seq<string>, x: string)
    ensures Dedup(s + [x]) == if x in s then Dedup(s) else Dedup(s) + [x]
  {
    assert (s + [x])[..|s|] == s;
  }

  /** One lookup appends the part to the keys exactly when it is new. */
  lemma EnsureDirOrder(root: DictNode, p: string)
    ensures KeyList(EnsureDir(root, p).dirs) == KeyList(root.dirs) + (if p in KeyList(root.dirs) then [] else [p])
  {
    var ks := KeyList(root.dirs);
    if p in ks {
      var m :| 0 <= m < |ks| && ks[m] == p;
      assert root.dirs[m].0 == p;
    }
  }

  lemma MoveHead<T>(s: seq<T>, ps: seq<T>)
    requires |ps| > 0
    ensures (s + [ps[0]]) + ps[1..] == s + ps
  {
    assert [ps[0]] + ps[1..] == ps;
  }

  lemma EnsureDirsCons(root: DictNode, ps: seq<string>)
    requires |ps| > 0
    ensures EnsureDirs(root, ps) == EnsureDirs(EnsureDir(root, ps[0]), ps[1..])
  {
  }

  lemma EnsureDirOrderStep(root: DictNode, p: string, s: seq<string>)
    requires KeyList(root.dirs) == Dedup(s)
    ensures KeyList(EnsureDir(root, p).dirs) == Dedup(s + [p])
  {
    EnsureDirOrder(root, p);
    DedupSnoc(s, p);
  }

  /** The lookup loop continues the first-seen order of the names met so
      far with the names of `ps`. */
  lemma {:induction false} EnsureDirsOrder(root: DictNode, ps: seq<string>, s: seq<string>)
    requires KeyList(root.dirs) == Dedup(s)
    ensures KeyList(EnsureDirs(root, ps).dirs) == Dedup(s + ps)
    decreases |ps|
  {
    if |ps| == 0 {
      assert s + ps == s;
    } else {
      var next := EnsureDir(root, ps[0]);
      EnsureDirsCons(root, ps);
      EnsureDirOrderStep(root, ps[0], s);
      EnsureDirsOrder(next, ps[1..], s + [ps[0]]);
      MoveHead(s, ps);
    }
  }

  /** Appending a file node keeps the keys of the root's directories. */
  lemma AddToDictOrder(root: DictNode, rec: DiffRecord)
    ensures KeyList(AddToDict(root, rec).dirs) == KeyList(EnsureDirs(root, DirParts(rec)).dirs)
  {
  }

  /** The record loop creates the root's directories in first-seen order. */
  lemma {:induction false} BuildDictOrder(records: seq<DiffRecord>)
    ensures KeyList(BuildDict(records).dirs) == FirstSeen(records)
    decreases |records|
  {
    if |records| > 0 {
      var init := records[..|records| - 1];
      var last := records[|records| - 1];
      BuildDictOrder(init);
      EnsureDirsOrder(BuildDict(init), DirParts(last), AllDirParts(init));
      AddToDictOrder(BuildDict(init), last);
    }
  }

  /** Where `build_diff_tree` puts each file node: a directory holds the
      records whose last directory part names it, and the root holds the
      records with no directory part, both in record order. */
  lemma BuildDiffTreeFiles(diff: ArchiveDiff)
    ensures FileCalls(BuildDiffTree(diff).children) == TopLevel(diff.records)
    ensures forall i | 0 <= i < |BuildDiffTree(diff).children| && BuildDiffTree(diff).children[i].DirNode? ::
              FileCalls(BuildDiffTree(diff).children[i].children) == InDir(diff.records, BuildDiffTree(diff).children[i].name)
  {
    var node := BuildDict(diff.records);
    var cs := BuildDiffTree(diff).children;
    BuildDictBag(diff.records);
    BuildDictHolds(diff.records);
    TreeOfFlat(".", node);
    forall i | 0 <= i < |cs| && cs[i].DirNode?
      ensures FileCalls(cs[i].children) == InDir(diff.records, cs[i].name)
    {
      FileCallsOfFileNodes(node.dirs[i].1.files);
    }
  }

  /** The multiset of file nodes decides whether all of them are `EQUAL`. */
  lemma AllStatesEqualOfPermutation(a: seq<(string, DiffState)>, b: seq<(string, DiffState)>)
    requires multiset(a) == multiset(b)
    ensures AllStatesEqual(a) <==> AllStatesEqual(b)
  {
    if AllStatesEqual(a) {
      forall k | 0 <= k < |b| ensures b[k].1 == EQUAL {
        assert b[k] in multiset(a);
      }
    }
    if AllStatesEqual(b) {
      forall k | 0 <= k < |a| ensures a[k].1 == EQUAL {
        assert a[k] in multiset(b);
      }
    }
  }

  /** The root's `all_equal` holds exactly when every record is `EQUAL`,
      that is when the `DIFFERENT`, `ONLY_LEFT` and `ONLY_RIGHT` counts of
      `stats()` are all zero. */
  lemma RootAllEqual(diff: ArchiveDiff)
    ensures BuildDiffTree(diff).allEqual <==> forall k | 0 <= k < |diff.records| :: diff.records[k].result == EQUAL
    ensures BuildDiffTree(diff).allEqual <==>
              Count(diff.records, DIFFERENT) == 0 && Count(diff.records, ONLY_LEFT) == 0 && Count(diff.records, ONLY_RIGHT) == 0
  {
    var rs := diff.records;
    RootAllEqualFiles(diff);
    EntriesAllEqual(rs);
    CountZeroIffAbsent(rs, DIFFERENT);
    CountZeroIffAbsent(rs, ONLY_LEFT);
    CountZeroIffAbsent(rs, ONLY_RIGHT);
  }

  /** The root is all-equal iff every record's file node is `EQUAL`. */
  lemma RootAllEqualFiles(diff: ArchiveDiff)
    ensures BuildDiffTree(diff).allEqual <==> AllStatesEqual(Entries(diff.records))
  {
    var root := BuildDiffTree(diff);
    BuildDiffTreeShape(diff);
    assert root == [root][0];
    assert root.allEqual == AllNodesEqual(root.children) && Consistent(root.children);
    AllEqualIffFilesEqual(root.children);
    AllStatesEqualOfPermutation(FilesOf(root.children), Entries(diff.records));
  }

  lemma EntriesAllEqual(rs: seq<DiffRecord>)
    ensures AllStatesEqual(Entries(rs)) <==> forall k | 0 <= k < |rs| :: rs[k].result == EQUAL
  {
    assert forall k | 0 <= k < |rs| :: Entries(rs)[k].1 == rs[k].result;
  }


  lemma ToTreeOfFilesOnly(name: string, files: seq<(string, DiffState)>)
    ensures ToTree(name, DictNode(files, [])) == MakeDir(name, FileNodes(files))
  {
    ToTreeChildren(name, DictNode(files, []));
    assert DirTrees([]) == [];
    assert [] + FileNodes(files) == FileNodes(files);
  }

  lemma ExampleParts(rec: DiffRecord, a: string, b: string, c: string)
    requires Sep !in a && Sep !in b && Sep !in c
    requires rec == DiffRecord(Join([a, b, c]), EQUAL)
    ensures DirParts(rec) == [a, b] && FileEntry(rec) == (c, EQUAL)
  {
    SplitOnSepOfJoin([a, b, c]);
  }

  lemma ExampleEnsureDirs(a: string, b: string)
    requires a != b
    ensures EnsureDirs(EmptyDict, [a, b]) == DictNode([], [(a, EmptyDict), (b, EmptyDict)])
  {
    var one := DictNode([], [(a, EmptyDict)]);
    var two := DictNode([], [(a, EmptyDict), (b, EmptyDict)]);
    assert !HasKey(EmptyDict.dirs, a);
    assert EnsureDir(EmptyDict, a) == one;
    assert !HasKey(one.dirs, b);
    assert EnsureDir(one, b) == two;
    assert [a, b][0] == a && [a, b][1..] == [b];
    assert [b][0] == b && [b][1..] == [];
    assert EnsureDirs(two, []) == two;
    assert EnsureDirs(one, [b]) == two;
  }

  lemma ExampleDict(rec: DiffRecord, a: string, b: string, c: string)
    requires Sep !in a && Sep !in b && Sep !in c && a != b
    requires rec == DiffRecord(Join([a, b, c]), EQUAL)
    ensures BuildDict([rec]) == DictNode([], [(a, EmptyDict), (b, DictNode([(c, EQUAL)], []))])
  {
    ExampleParts(rec, a, b, c);
    ExampleEnsureDirs(a, b);
    var r1 := DictNode([], [(a, EmptyDict), (b, EmptyDict)]);
    assert KeyIndex(r1.dirs, b) == 1;
    assert [rec][..0] == [];
    assert BuildDict([rec]) == AddToDict(EmptyDict, rec);
    var bd := DictNode([(c, EQUAL)], []);
    assert [] + [(c, EQUAL)] == [(c, EQUAL)];
    assert EmptyDict.(files := [] + [(c, EQUAL)]) == bd;
    var upd := r1.dirs[1 := (b, bd)];
    assert |upd| == 2 && upd[0] == (a, EmptyDict) && upd[1] == (b, bd);
  }

  lemma ExampleLeaves(a: string, b: string, c: string)
    ensures ToTree(a, EmptyDict) == DirNode(a, true, [])
    ensures ToTree(b, DictNode([(c, EQUAL)], [])) == DirNode(b, true, [FileNode(c, EQUAL)])
  {
    ToTreeOfFilesOnly(a, []);
    ToTreeOfFilesOnly(b, [(c, EQUAL)]);
    assert FileNodes([]) == [];
    assert FileNodes([(c, EQUAL)]) == [FileNode(c, EQUAL)];
  }

  /** For distinct directory names `a` and `b`, the single record `a/b/c`
      puts `c` under a root-level `b` and leaves an empty root-level `a`:
      directories are looked up at the root, not nested. */
  lemma FlattenedExample(diff: ArchiveDiff, a: string, b: string, c: string)
    requires Sep !in a && Sep !in b && Sep !in c && a != b
    requires diff.records == [DiffRecord(Join([a, b, c]), EQUAL)]
    ensures BuildDiffTree(diff)
            == DirNode(".", true, [DirNode(a, true, []), DirNode(b, true, [FileNode(c, EQUAL)])])
  {
    var node := DictNode([], [(a, EmptyDict), (b, DictNode([(c, EQUAL)], []))]);
    ExampleDict(diff.records[0], a, b, c);
    ExampleLeaves(a, b, c);
    var ta := DirNode(a, true, []);
    var tb := DirNode(b, true, [FileNode(c, EQUAL)]);
    ToTreeChildren(".", node);
    assert DirTrees(node.dirs) == [ta, tb];
    assert FileNodes([]) == [];
    assert ToTree(".", node).children == [ta, tb];
  }
}

=== FILE: handlers.dfy ===
/** The archive format handlers of `archive_format_handler.py`: each format's
    `check_file`, how each turns the members an archive library reports into
    `HashRecord`s, and the dispatcher that picks the first handler whose
    check holds.

    The filesystem and the format sniffers (`is_file`, `is_dir`,
    `zipfile.is_zipfile`, `tarfile.is_tarfile`, `py7zr.is_7zfile`) are the
    fields of a `Probe`; the members an archive library or `os.walk` lists
    are given as a sequence; the digest is a function parameter. */
module Handlers {
  import opened Wrappers
  import opened Paths
  import opened Records

  /** The concrete handlers. */
  datatype Format = Zip | Tar | Directory | SevenZip

  /** What the filesystem and the sniffers answer for one path. */
  datatype Probe = Probe(isFile: bool, isDir: bool, isZip: bool, isTar: bool, is7z: bool)

  datatype HandlerError = ArchiveFormatError(message: string)

  /** One member as an archive library (or `os.walk`) reports it: its name,
      whether it is a directory (`is_dir()`, `is_directory`), whether it is a
      regular file (tar's `isfile()`), and its bytes. */
  datatype Member = Member(name: string, isDir: bool, isRegularFile: bool, data: seq<bv8>)

  /** Everything the handlers learn about one path: the probe answers, the
      path's own name relative to its parent (what the directory handler
      emits first), and the member list. */
  datatype Source = Source(probe: Probe, baseName: string, members: seq<Member>)

  /** Each handler's `check_file`. */
  predicate CheckFile(f: Format, p: Probe) {
    match f
    case Zip => p.isFile && p.isZip
    case Tar => p.isFile && p.isTar
    case Directory => p.isDir
    case SevenZip => p.isFile && p.is7z
  }

  /** The message each handler raises when asked to list a path it does not
      support. */
  function RefusalMessage(f: Format): string {
    match f
    case Zip => "Not a zip file."
    case Tar => "Not a tar file."
    case Directory => "File is not a directory."
    case SevenZip => "Not a 7z file."
  }

  const NoHandlerMessage: string := "Could not find handler that supports the given archive type."

  /** The dispatcher's handler list: zip, tar, directory, then 7z when
      `py7zr` imported. */
  function HandlerOrder(has7z: bool): (hs: seq<Format>)
    ensures SevenZip in hs <==> has7z
    ensures forall i, j | 0 <= i < j < |hs| :: hs[i] != hs[j]
  {
    [Zip, Tar, Directory] + (if has7z then [SevenZip] else [])
  }

  /** The scan of `_get_handler_for_file`: the first handler whose check
      holds. */
  function FirstMatch(hs: seq<Format>, p: Probe): (r: Result<Format, HandlerError>)
    ensures r.Success? <==> exists f | f in hs :: CheckFile(f, p)
    ensures r.Success? ==> r.value in hs && CheckFile(r.value, p)
    ensures r.Success? ==> exists i | 0 <= i < |hs| :: hs[i] == r.value && forall k | 0 <= k < i :: !CheckFile(hs[k], p)
    ensures r.Failure? ==> r.error == ArchiveFormatError(NoHandlerMessage)
  {
    if |hs| == 0 then Failure(ArchiveFormatError(NoHandlerMessage))
    else if CheckFile(hs[0], p) then Success(hs[0])
    else
      var r := FirstMatch(hs[1..], p);
      assert forall f | f in hs :: f == hs[0] || f in hs[1..];
      if r.Success? then
        var i :| 0 <= i < |hs[1..]| && hs[1..][i] == r.value && forall k | 0 <= k < i :: !CheckFile(hs[1..][k], p);
        assert hs[i + 1] == r.value && forall k | 0 <= k < i + 1 :: !CheckFile(hs[k], p);
        r
      else r
  }

  /** `DispatchingArchiveHandler._get_handler_for_file(path)` */
  function GetHandler(has7z: bool, p: Probe): Result<Format, HandlerError> {
    FirstMatch(HandlerOrder(has7z), p)
  }

  /** `DispatchingArchiveHandler.check_file(path)`: whether a handler was
      found, the `ArchiveFormatError` swallowed. */
  predicate DispatcherCheck(has7z: bool, p: Probe) {
    GetHandler(has7z, p).Success?
  }

  /** The dispatcher accepts a path exactly when one of its handlers does. */
  lemma DispatcherCheckIff(has7z: bool, p: Probe)
    ensures DispatcherCheck(has7z, p) <==>
              CheckFile(Zip, p) || CheckFile(Tar, p) || CheckFile(Directory, p) || (has7z && CheckFile(SevenZip, p))
  {
    var hs := HandlerOrder(has7z);
    assert hs[0] == Zip && hs[1] == Tar && hs[2] == Directory;
    if has7z {
      assert hs[3] == SevenZip;
    }
  }

  /** The handler chosen is the first in list order whose check holds: a
      file that both the zip and tar sniffers accept goes to zip, and tar
      is preferred to the directory and 7z handlers. */
  lemma DispatchPrefersEarlier(has7z: bool, p: Probe)
    ensures CheckFile(Zip, p) ==> GetHandler(has7z, p) == Success(Zip)
    ensures !CheckFile(Zip, p) && CheckFile(Tar, p) ==> GetHandler(has7z, p) == Success(Tar)
    ensures !CheckFile(Zip, p) && !CheckFile(Tar, p) && CheckFile(Directory, p) ==> GetHandler(has7z, p) == Success(Directory)
  {
    var hs := HandlerOrder(has7z);
    assert hs[0] == Zip && hs[1..][0] == Tar && hs[1..][1..][0] == Directory;
  }

  /** Without `py7zr` a 7z archive that no other sniffer accepts is
      refused; with it, the 7z handler takes it. */
  lemma SevenZipNeedsLibrary(p: Probe)
    requires !CheckFile(Zip, p) && !CheckFile(Tar, p) && !CheckFile(Directory, p) && CheckFile(SevenZip, p)
    ensures GetHandler(false, p) == Failure(ArchiveFormatError(NoHandlerMessage))
    ensures GetHandler(true, p) == Success(SevenZip)
  {
    DispatcherCheckIff(false, p);
    DispatcherCheckIff(true, p);
  }

  // ---------------------------------------------------------------------
  // Listings

  /** Whether a member of an archive of the given format is hashed: zip and
      7z hash everything but directories, tar hashes only regular files
      (links, devices and directories get no digest). */
  predicate Hashed(f: Format, m: Member) {
    match f
    case Tar => m.isRegularFile
    case _ => !m.isDir
  }

  /** The record an archive handler yields for one member. */
  function MemberRecord(f: Format, m: Member, hasher: seq<bv8> -> string): (r: HashRecord)
    ensures r.hash.Some? <==> Hashed(f, m)
    ensures r.hash.Some? ==> r.hash.value == Lower(hasher(m.data))
    ensures r.parts == PathParts(m.name)
  {
    MakeRecord(if Hashed(f, m) then Some(hasher(m.data)) else None, PathString(m.name))
  }

  /** The records of an archive (zip, tar or 7z) in member order. */
  function ArchiveRecords(f: Format, ms: seq<Member>, hasher: seq<bv8> -> string): (rs: seq<HashRecord>)
    ensures |rs| == |ms|
    ensures forall k | 0 <= k < |ms| :: rs[k] == MemberRecord(f, ms[k], hasher)
  {
    seq(|ms|, k requires 0 <= k < |ms| => MemberRecord(f, ms[k], hasher))
  }

  /** The record the directory handler yields for one walked entry, named
      relative to the directory's parent. */
  function WalkRecord(base: string, m: Member, hasher: seq<bv8> -> string): HashRecord {
    MakeRecord(if m.isDir then None else Some(hasher(m.data)), PathString(base + [Sep] + m.name))
  }

  /** The records of the walked entries below a directory, in walk order. */
  function WalkRecords(base: string, ms: seq<Member>, hasher: seq<bv8> -> string): (rs: seq<HashRecord>)
    ensures |rs| == |ms|
    ensures forall k | 0 <= k < |ms| :: rs[k] == WalkRecord(base, ms[k], hasher)
  {
    seq(|ms|, k requires 0 <= k < |ms| => WalkRecord(base, ms[k], hasher))
  }

  /** The records of the directory handler: the directory itself, without a
      digest and named relative to its parent, then each walked entry below
      it, directories without a digest and files with one. */
  function DirRecords(base: string, ms: seq<Member>, hasher: seq<bv8> -> string): (rs: seq<HashRecord>)
    ensures |rs| == |ms| + 1
  {
    [MakeRecord(None, PathString(base))] + WalkRecords(base, ms, hasher)
  }

  /** The directory comes first, then each walked entry in walk order. */
  lemma DirRecordsAt(base: string, ms: seq<Member>, hasher: seq<bv8> -> string)
    ensures DirRecords(base, ms, hasher)[0] == MakeRecord(None, PathString(base))
    ensures forall k | 0 <= k < |ms| :: DirRecords(base, ms, hasher)[k + 1] == WalkRecord(base, ms[k], hasher)
  {
    DirRecordsHead(base, ms, hasher);
    DirRecordsTail(base, ms, hasher);
  }

  lemma DirRecordsHead(base: string, ms: seq<Member>, hasher: seq<bv8> -> string)
    ensures DirRecords(base, ms, hasher)[0] == MakeRecord(None, PathString(base))
  {
  }

  lemma DirRecordsTail(base: string, ms: seq<Member>, hasher: seq<bv8> -> string)
    ensures forall k | 0 <= k < |ms| :: DirRecords(base, ms, hasher)[k + 1] == WalkRecord(base, ms[k], hasher)
  {
  }

  /** `handler.compute_listing(path)` for one concrete handler. */
  function ComputeListing(f: Format, src: Source, hasher: seq<bv8> -> string): (r: Result<seq<HashRecord>, HandlerError>)
    ensures r.Failure? <==> !CheckFile(f, src.probe)
    ensures r.Failure? ==> r.error == ArchiveFormatError(RefusalMessage(f))
  {
    if !CheckFile(f, src.probe) then Failure(ArchiveFormatError(RefusalMessage(f)))
    else if f == Directory then Success(DirRecords(src.baseName, src.members, hasher))
    else Success(ArchiveRecords(f, src.members, hasher))
  }

  /** `DispatchingArchiveHandler.compute_listing(path)` */
  function DispatchListing(has7z: bool, src: Source, hasher: seq<bv8> -> string): Result<seq<HashRecord>, HandlerError> {
    match GetHandler(has7z, src.probe)
    case Failure(e) => Failure(e)
    case Success(f) => ComputeListing(f, src, hasher)
  }

  /** The dispatcher lists a path exactly when it accepts it, with the
      listing of the handler it picks; otherwise it raises the no-handler
      error, never a handler's own refusal. */
  lemma DispatchListingIff(has7z: bool, src: Source, hasher: seq<bv8> -> string)
    ensures DispatchListing(has7z, src, hasher).Success? <==> DispatcherCheck(has7z, src.probe)
    ensures DispatchListing(has7z, src, hasher).Failure? ==>
              DispatchListing(has7z, src, hasher).error == ArchiveFormatError(NoHandlerMessage)
    ensures DispatcherCheck(has7z, src.probe) ==>
              DispatchListing(has7z, src, hasher) == ComputeListing(GetHandler(has7z, src.probe).value, src, hasher)
  {
  }

  /** Every record of the directory handler lies under the directory's own
      name: when that name is one segment and each entry is a normalised
      relative path, the name is the first segment of every record and the
      directory itself comes first, as a directory. */
  lemma DirRecordsUnderRoot(base: string, ms: seq<Member>, hasher: seq<bv8> -> string, segs: seq<seq<string>>)
    requires IsSegment(base)
    requires |segs| == |ms|
    requires forall k | 0 <= k < |ms| :: |segs[k]| > 0 && AllSegments(segs[k]) && ms[k].name == Join(segs[k])
    ensures DirRecords(base, ms, hasher)[0] == HashRecord(None, [base])
    ensures forall k | 0 <= k < |ms| :: DirRecords(base, ms, hasher)[k + 1].parts == [base] + segs[k]
    ensures forall k | 0 <= k < |ms| :: DirRecords(base, ms, hasher)[k + 1].hash.None? <==> ms[k].isDir
  {
    DirRecordsAt(base, ms, hasher);
    PartsOfSegment(base);
    forall k | 0 <= k < |ms| ensures PathParts(base + [Sep] + ms[k].name) == [base] + segs[k] {
      PartsOfChild(base, segs[k]);
    }
  }

  /** A segment followed by a normalised relative path splits into that
      segment and the path's own segments. */
  lemma PartsOfChild(base: string, segs: seq<string>)
    requires IsSegment(base) && |segs| > 0 && AllSegments(segs)
    ensures PathParts(base + [Sep] + Join(segs)) == [base] + segs
  {
    var all := [base] + segs;
    assert all[1..] == segs;
    assert Join(all) == base + [Sep] + Join(segs);
    PartsOfJoin(all);
  }
}

=== FILE: merge.dfy ===
/** `compute_listing_diff`: both listings are sorted by `path_parts`, then
    walked with two cursors; at each step the `relpath` strings of the two
    current records are compared and one diff record is emitted. */
module Merge {
  import opened Wrappers
  import opened Paths
  import opened Order
  import opened Records
  import opened Sorting
  import opened DiffData

  /** State of a path present on both sides: `EQUAL` iff the digests are
      equal, two absent digests (two directories) included. */
  function PairState(left: HashRecord, right: HashRecord): (s: DiffState)
    ensures s == EQUAL || s == DIFFERENT
    ensures s == EQUAL <==> left.hash == right.hash
  {
    if left.hash == right.hash then EQUAL else DIFFERENT
  }

  /** Every record of `t` reported with state `s`. */
  function Drain(t: seq<HashRecord>, s: DiffState): (out: seq<DiffRecord>)
    ensures |out| == |t|
    ensures forall k :: 0 <= k < |t| ==> out[k] == DiffRecord(t[k].Relpath(), s)
  {
    if |t| == 0 then [] else [DiffRecord(t[0].Relpath(), s)] + Drain(t[1..], s)
  }

  /** The records the merge emits for two listings in their current order:
      the reference the loops of `ComputeListingDiff` are proved against. */
  function MergeRecords(left: seq<HashRecord>, right: seq<HashRecord>): seq<DiffRecord>
    decreases |left| + |right|
  {
    if |left| == 0 then Drain(right, ONLY_RIGHT)
    else if |right| == 0 then Drain(left, ONLY_LEFT)
    else if left[0].Relpath() == right[0].Relpath() then
      [DiffRecord(left[0].Relpath(), PairState(left[0], right[0]))] + MergeRecords(left[1..], right[1..])
    else if StrLt(left[0].Relpath(), right[0].Relpath()) then
      [DiffRecord(left[0].Relpath(), ONLY_LEFT)] + MergeRecords(left[1..], right)
    else
      [DiffRecord(right[0].Relpath(), ONLY_RIGHT)] + MergeRecords(left, right[1..])
  }

  /** `compute_listing_diff(listing1, listing2)` as a function. */
  function ListingDiff(left: seq<HashRecord>, right: seq<HashRecord>): seq<DiffRecord> {
    MergeRecords(SortBy(ByParts, left), SortBy(ByParts, right))
  }

  function Max(a: int, b: int): int {
    if a < b then b else a
  }

  /** `compute_listing_diff`: sort both listings, merge while both cursors are
      valid, then drain the left and the right remainder. Every appended
      record advances at least one cursor, so the output is at least as long
      as the longer listing and at most as long as both together. */
  method ComputeListingDiff(listing1: seq<HashRecord>, listing2: seq<HashRecord>)
    returns (records: seq<DiffRecord>)
    ensures records == ListingDiff(listing1, listing2)
    ensures Max(|listing1|, |listing2|) <= |records| <= |listing1| + |listing2|
  {
    var left := SortBy(ByParts, listing1);
    var right := SortBy(ByParts, listing2);
    assert |left| == |multiset(left)| == |listing1|;
    assert |right| == |multiset(right)| == |listing2|;
    records := MergeSorted(left, right);
  }

  /** The two-cursor walk of `compute_listing_diff` over already sorted
      listings. */
  method MergeSorted(left: seq<HashRecord>, right: seq<HashRecord>)
    returns (records: seq<DiffRecord>)
    ensures records == MergeRecords(left, right)
    ensures Max(|left|, |right|) <= |records| <= |left| + |right|
  {
    records := [];
    var i, j := 0, 0;
    while i < |left| && j < |right|
      invariant 0 <= i <= |left| && 0 <= j <= |right|
      invariant records + MergeRecords(left[i..], right[j..]) == MergeRecords(left, right)
      invariant Max(i, j) <= |records| <= i + j
      decreases |left| - i + |right| - j
    {
      var l, r := left[i], right[j];
      MergeAt(left, right, i, j);
      var d: DiffRecord;
      var i', j' := i, j;
      if l.Relpath() == r.Relpath() {
        d := DiffRecord(l.Relpath(), PairState(l, r));
        i', j' := i + 1, j + 1;
      } else if StrLt(l.Relpath(), r.Relpath()) {
        d := DiffRecord(l.Relpath(), ONLY_LEFT);
        i' := i + 1;
      } else {
        d := DiffRecord(r.Relpath(), ONLY_RIGHT);
        j' := j + 1;
      }
      AppendStep(records, d, MergeRecords(left[i'..], right[j'..]));
      records, i, j := records + [d], i', j';
    }
    DrainUnfoldAll(left[i..], right[j..]);
    var tail;
    if i < |left| {
      tail := DrainAll(left[i..], ONLY_LEFT);
    } else {
      tail := DrainAll(right[j..], ONLY_RIGHT);
    }
    records := records + tail;
  }

  /** The loop that reports every remaining record of one listing with the
      same state. */
  method DrainAll(t: seq<HashRecord>, s: DiffState) returns (out: seq<DiffRecord>)
    ensures out == Drain(t, s)
  {
    out := [];
    var k := 0;
    while k < |t|
      invariant 0 <= k <= |t| && |out| == k
      invariant forall m :: 0 <= m < k ==> out[m] == DiffRecord(t[m].Relpath(), s)
    {
      out := out + [DiffRecord(t[k].Relpath(), s)];
      k := k + 1;
    }
  }

  /** One step of the merge at cursors `i` and `j`. */
  lemma MergeAt(left: seq<HashRecord>, right: seq<HashRecord>, i: nat, j: nat)
    requires i < |left| && j < |right|
    ensures var l, r := left[i], right[j];
      && (l.Relpath() == r.Relpath() ==>
            MergeRecords(left[i..], right[j..]) == [DiffRecord(l.Relpath(), PairState(l, r))] + MergeRecords(left[i + 1..], right[j + 1..]))
      && (l.Relpath() != r.Relpath() && StrLt(l.Relpath(), r.Relpath()) ==>
            MergeRecords(left[i..], right[j..]) == [DiffRecord(l.Relpath(), ONLY_LEFT)] + MergeRecords(left[i + 1..], right[j..]))
      && (l.Relpath() != r.Relpath() && !StrLt(l.Relpath(), r.Relpath()) ==>
            MergeRecords(left[i..], right[j..]) == [DiffRecord(r.Relpath(), ONLY_RIGHT)] + MergeRecords(left[i..], right[j + 1..]))
  {
    var ls, rs := left[i..], right[j..];
    MergeUnfold(ls, rs);
    assert ls[1..] == left[i + 1..] && rs[1..] == right[j + 1..];
    assert ls[0] == left[i] && rs[0] == right[j];
  }

  lemma AppendStep(records: seq<DiffRecord>, d: DiffRecord, rest: seq<DiffRecord>)
    ensures (records + [d]) + rest == records + ([d] + rest)
  {
  }

  /** Once either listing is exhausted the merge reports the other one. */
  lemma DrainUnfoldAll(left: seq<HashRecord>, right: seq<HashRecord>)
    requires |left| == 0 || |right| == 0
    ensures |left| > 0 ==> MergeRecords(left, right) == Drain(left, ONLY_LEFT)
    ensures |left| == 0 ==> MergeRecords(left, right) == Drain(right, ONLY_RIGHT)
  {
  }

  /** One step of the merge while both listings are non-empty. */
  lemma MergeUnfold(left: seq<HashRecord>, right: seq<HashRecord>)
    requires |left| > 0 && |right| > 0
    ensures left[0].Relpath() == right[0].Relpath() ==>
      MergeRecords(left, right) == [DiffRecord(left[0].Relpath(), PairState(left[0], right[0]))] + MergeRecords(left[1..], right[1..])
    ensures left[0].Relpath() != right[0].Relpath() && StrLt(left[0].Relpath(), right[0].Relpath()) ==>
      MergeRecords(left, right) == [DiffRecord(left[0].Relpath(), ONLY_LEFT)] + MergeRecords(left[1..], right)
    ensures left[0].Relpath() != right[0].Relpath() && !StrLt(left[0].Relpath(), right[0].Relpath()) ==>
      MergeRecords(left, right) == [DiffRecord(right[0].Relpath(), ONLY_RIGHT)] + MergeRecords(left, right[1..])
  {
  }

  // ---------------------------------------------------------------------
  // Coverage, order and states of the merge

  function Relpaths(t: seq<HashRecord>): set<string> {
    set k | 0 <= k < |t| :: t[k].Relpath()
  }

  function PathsOf(out: seq<DiffRecord>): set<string> {
    set k | 0 <= k < |out| :: out[k].relpath
  }

  predicate AscendingPaths(out: seq<DiffRecord>) {
    forall i, j :: 0 <= i < j < |out| ==> StrLt(out[i].relpath, out[j].relpath)
  }

  lemma RelpathsCons(t: seq<HashRecord>)
    requires |t| > 0
    ensures Relpaths(t) == {t[0].Relpath()} + Relpaths(t[1..])
  {
    forall p | p in Relpaths(t)
      ensures p in {t[0].Relpath()} + Relpaths(t[1..])
    {
      var k :| 0 <= k < |t| && t[k].Relpath() == p;
      if k > 0 {
        assert t[1..][k - 1] == t[k];
      }
    }
    forall p | p in Relpaths(t[1..])
      ensures p in Relpaths(t)
    {
      var k :| 0 <= k < |t[1..]| && t[1..][k].Relpath() == p;
      assert t[k + 1] == t[1..][k];
    }
  }

  lemma PathsOfCons(d: DiffRecord, rest: seq<DiffRecord>)
    ensures PathsOf([d] + rest) == {d.relpath} + PathsOf(rest)
  {
    var out := [d] + rest;
    assert out[0] == d;
    forall p | p in PathsOf(out)
      ensures p in {d.relpath} + PathsOf(rest)
    {
      var k :| 0 <= k < |out| && out[k].relpath == p;
      if k > 0 {
        assert out[k] == rest[k - 1];
      }
    }
    forall p | p in PathsOf(rest)
      ensures p in PathsOf(out)
    {
      var k :| 0 <= k < |rest| && rest[k].relpath == p;
      assert out[k + 1] == rest[k];
    }
  }

  lemma DrainPaths(t: seq<HashRecord>, s: DiffState)
    ensures PathsOf(Drain(t, s)) == Relpaths(t)
  {
    var out := Drain(t, s);
    forall p | p in PathsOf(out)
      ensures p in Relpaths(t)
    {
      var k :| 0 <= k < |out| && out[k].relpath == p;
      assert t[k].Relpath() == p;
    }
    forall p | p in Relpaths(t)
      ensures p in PathsOf(out)
    {
      var k :| 0 <= k < |t| && t[k].Relpath() == p;
      assert out[k].relpath == p;
    }
  }

  /** The merge reports exactly the paths of the two listings, whatever
      their order. */
  lemma {:induction false} MergeCoversUnion(left: seq<HashRecord>, right: seq<HashRecord>)
    ensures PathsOf(MergeRecords(left, right)) == Relpaths(left) + Relpaths(right)
    decreases |left| + |right|
  {
    if |left| == 0 {
      DrainPaths(right, ONLY_RIGHT);
      assert Relpaths(left) == {};
    } else if |right| == 0 {
      DrainPaths(left, ONLY_LEFT);
      assert Relpaths(right) == {};
    } else {
      var l, r := left[0], right[0];
      RelpathsCons(left);
      RelpathsCons(right);
      if l.Relpath() == r.Relpath() {
        MergeCoversUnion(left[1..], right[1..]);
        PathsOfCons(DiffRecord(l.Relpath(), PairState(l, r)), MergeRecords(left[1..], right[1..]));
      } else if StrLt(l.Relpath(), r.Relpath()) {
        MergeCoversUnion(left[1..], right);
        PathsOfCons(DiffRecord(l.Relpath(), ONLY_LEFT), MergeRecords(left[1..], right));
      } else {
        MergeCoversUnion(left, right[1..]);
        PathsOfCons(DiffRecord(r.Relpath(), ONLY_RIGHT), MergeRecords(left, right[1..]));
      }
    }
  }

  /** In an ascending listing every path sorts at or after the first. */
  lemma AfterHead(t: seq<HashRecord>, p: string)
    requires StrictlySorted(ByRelpath, t) && |t| > 0 && p in Relpaths(t)
    ensures p == t[0].Relpath() || StrLt(t[0].Relpath(), p)
  {
  }

  /** In an ascending listing the rest sorts strictly after the first. */
  lemma TailAfterHead(t: seq<HashRecord>, p: string)
    requires StrictlySorted(ByRelpath, t) && |t| > 0 && p in Relpaths(t[1..])
    ensures StrLt(t[0].Relpath(), p)
  {
    var k :| 0 <= k < |t[1..]| && t[1..][k].Relpath() == p;
    assert t[k + 1] == t[1..][k];
  }

  lemma AscendingCons(d: DiffRecord, rest: seq<DiffRecord>)
    requires AscendingPaths(rest)
    requires forall p :: p in PathsOf(rest) ==> StrLt(d.relpath, p)
    ensures AscendingPaths([d] + rest)
  {
    var out := [d] + rest;
    forall i, j | 0 <= i < j < |out|
      ensures StrLt(out[i].relpath, out[j].relpath)
    {
      assert out[j] == rest[j - 1];
      if i == 0 {
        assert rest[j - 1].relpath in PathsOf(rest);
      } else {
        assert out[i] == rest[i - 1];
      }
    }
  }

  /** Merging two ascending listings gives strictly ascending, hence
      duplicate-free, paths. */
  lemma {:induction false} MergeAscending(left: seq<HashRecord>, right: seq<HashRecord>)
    requires StrictlySorted(ByRelpath, left) && StrictlySorted(ByRelpath, right)
    ensures AscendingPaths(MergeRecords(left, right))
    decreases |left| + |right|
  {
    if |left| == 0 || |right| == 0 {
    } else {
      var l, r := left[0], right[0];
      if l.Relpath() == r.Relpath() {
        var rest := MergeRecords(left[1..], right[1..]);
        MergeAscending(left[1..], right[1..]);
        MergeCoversUnion(left[1..], right[1..]);
        forall p | p in PathsOf(rest)
          ensures StrLt(l.Relpath(), p)
        {
          if p in Relpaths(left[1..]) {
            TailAfterHead(left, p);
          } else {
            TailAfterHead(right, p);
          }
        }
        AscendingCons(DiffRecord(l.Relpath(), PairState(l, r)), rest);
      } else if StrLt(l.Relpath(), r.Relpath()) {
        var rest := MergeRecords(left[1..], right);
        MergeAscending(left[1..], right);
        MergeCoversUnion(left[1..], right);
        forall p | p in PathsOf(rest)
          ensures StrLt(l.Relpath(), p)
        {
          if p in Relpaths(left[1..]) {
            TailAfterHead(left, p);
          } else {
            AfterHead(right, p);
            if p != r.Relpath() {
              StrLtTransitive(l.Relpath(), r.Relpath(), p);
            }
          }
        }
        AscendingCons(DiffRecord(l.Relpath(), ONLY_LEFT), rest);
      } else {
        StrLtTotal(l.Relpath(), r.Relpath());
        var rest := MergeRecords(left, right[1..]);
        MergeAscending(left, right[1..]);
        MergeCoversUnion(left, right[1..]);
        forall p | p in PathsOf(rest)
          ensures StrLt(r.Relpath(), p)
        {
          if p in Relpaths(right[1..]) {
            TailAfterHead(right, p);
          } else {
            AfterHead(left, p);
            if p != l.Relpath() {
              StrLtTransitive(r.Relpath(), l.Relpath(), p);
            }
          }
        }
        AscendingCons(DiffRecord(r.Relpath(), ONLY_RIGHT), rest);
      }
    }
  }

  /** The first record of `t` with path `p`. */
  function Find(t: seq<HashRecord>, p: string): (found: Option<HashRecord>)
    ensures found.Some? ==> found.value in t && found.value.Relpath() == p
    ensures found.None? <==> p !in Relpaths(t)
  {
    if |t| == 0 then None
    else if t[0].Relpath() == p then Some(t[0])
    else
      RelpathsCons(t);
      Find(t[1..], p)
  }

  /** The state a path of the union must get: present on both sides gives
      `EQUAL` or `DIFFERENT` by digest, present on one side gives the
      matching `ONLY_` state. */
  function ExpectedState(left: seq<HashRecord>, right: seq<HashRecord>, p: string): DiffState {
    match (Find(left, p), Find(right, p))
    case (Some(l), Some(r)) => PairState(l, r)
    case (Some(_), None) => ONLY_LEFT
    case (None, _) => ONLY_RIGHT
  }

  /** What the expected state says about a path of the union. */
  lemma ExpectedStateMeaning(left: seq<HashRecord>, right: seq<HashRecord>, p: string)
    requires p in Relpaths(left) + Relpaths(right)
    ensures ExpectedState(left, right, p) == ONLY_LEFT <==> p in Relpaths(left) && p !in Relpaths(right)
    ensures ExpectedState(left, right, p) == ONLY_RIGHT <==> p !in Relpaths(left) && p in Relpaths(right)
    ensures ExpectedState(left, right, p) == EQUAL <==>
      p in Relpaths(left) && p in Relpaths(right) && Find(left, p).value.hash == Find(right, p).value.hash
    ensures ExpectedState(left, right, p) == DIFFERENT <==>
      p in Relpaths(left) && p in Relpaths(right) && Find(left, p).value.hash != Find(right, p).value.hash
  {
  }

  lemma ExpectedAfterDroppingLeft(left: seq<HashRecord>, right: seq<HashRecord>, p: string)
    requires |left| > 0 && p != left[0].Relpath()
    ensures ExpectedState(left, right, p) == ExpectedState(left[1..], right, p)
  {
  }

  lemma ExpectedAfterDroppingRight(left: seq<HashRecord>, right: seq<HashRecord>, p: string)
    requires |right| > 0 && p != right[0].Relpath()
    ensures ExpectedState(left, right, p) == ExpectedState(left, right[1..], p)
  {
  }

  lemma DrainStates(left: seq<HashRecord>, right: seq<HashRecord>)
    requires |left| == 0 || |right| == 0
    ensures forall k :: 0 <= k < |MergeRecords(left, right)| ==>
      MergeRecords(left, right)[k].result == ExpectedState(left, right, MergeRecords(left, right)[k].relpath)
  {
    var out := MergeRecords(left, right);
    forall k | 0 <= k < |out|
      ensures out[k].result == ExpectedState(left, right, out[k].relpath)
    {
      if |left| == 0 {
        assert out[k].relpath == right[k].Relpath();
        assert Find(left, out[k].relpath) == None;
      } else {
        assert out[k].relpath == left[k].Relpath();
        assert Find(left, out[k].relpath).Some?;
        assert Find(right, out[k].relpath) == None;
      }
    }
  }

  /** Every reported state is the expected one: `ONLY_LEFT` exactly for
      left-only paths, `ONLY_RIGHT` exactly for right-only paths, and for a
      shared path `EQUAL` iff the digests agree. */
  lemma {:induction false} MergeStates(left: seq<HashRecord>, right: seq<HashRecord>)
    requires StrictlySorted(ByRelpath, left) && StrictlySorted(ByRelpath, right)
    ensures forall k :: 0 <= k < |MergeRecords(left, right)| ==>
      MergeRecords(left, right)[k].result == ExpectedState(left, right, MergeRecords(left, right)[k].relpath)
    decreases |left| + |right|
  {
    var out := MergeRecords(left, right);
    if |left| == 0 || |right| == 0 {
      DrainStates(left, right);
    } else {
      var l, r := left[0], right[0];
      MergeAscending(left, right);
      if l.Relpath() == r.Relpath() {
        var rest := MergeRecords(left[1..], right[1..]);
        MergeStates(left[1..], right[1..]);
        forall k | 0 <= k < |out|
          ensures out[k].result == ExpectedState(left, right, out[k].relpath)
        {
          if k > 0 {
            assert out[k] == rest[k - 1];
            assert StrLt(out[0].relpath, out[k].relpath);
            StrLtIrreflexive(out[k].relpath);
            ExpectedAfterDroppingLeft(left, right, out[k].relpath);
            ExpectedAfterDroppingRight(left[1..], right, out[k].relpath);
          }
        }
      } else if StrLt(l.Relpath(), r.Relpath()) {
        var rest := MergeRecords(left[1..], right);
        MergeStates(left[1..], right);
        forall k | 0 <= k < |out|
          ensures out[k].result == ExpectedState(left, right, out[k].relpath)
        {
          if k > 0 {
            assert out[k] == rest[k - 1];
            assert StrLt(out[0].relpath, out[k].relpath);
            StrLtIrreflexive(out[k].relpath);
            ExpectedAfterDroppingLeft(left, right, out[k].relpath);
          } else {
            NotInLaterListing(l.Relpath(), right);
          }
        }
      } else {
        StrLtTotal(l.Relpath(), r.Relpath());
        var rest := MergeRecords(left, right[1..]);
        MergeStates(left, right[1..]);
        forall k | 0 <= k < |out|
          ensures out[k].result == ExpectedState(left, right, out[k].relpath)
        {
          if k > 0 {
            assert out[k] == rest[k - 1];
            assert StrLt(out[0].relpath, out[k].relpath);
            StrLtIrreflexive(out[k].relpath);
            ExpectedAfterDroppingRight(left, right, out[k].relpath);
          } else {
            NotInLaterListing(r.Relpath(), left);
          }
        }
      }
    }
  }

  /** A path sorting before the first record of an ascending listing is not
      in it. */
  lemma NotInLaterListing(p: string, t: seq<HashRecord>)
    requires StrictlySorted(ByRelpath, t) && |t| > 0 && StrLt(p, t[0].Relpath())
    ensures p !in Relpaths(t)
  {
    if p in Relpaths(t) {
      AfterHead(t, p);
      if p == t[0].Relpath() {
        StrLtIrreflexive(p);
      } else {
        StrLtAsymmetric(p, t[0].Relpath());
      }
      assert false;
    }
  }

  // ---------------------------------------------------------------------
  // The whole of `compute_listing_diff`

  /** Each listing's records share no `relpath`. */
  predicate UniqueRelpaths(t: seq<HashRecord>) {
    UniqueKeys(ByRelpath, t)
  }

  /** The listings on which sorting by `path_parts` and comparing `relpath`
      agree: distinct segment lists, and every segment non-empty with all its
      characters above the separator. */
  predicate Canonical(t: seq<HashRecord>) {
    UniqueKeys(ByParts, t) && forall k :: 0 <= k < |t| ==> AllAboveSep(t[k].parts)
  }

  /** The merge as the comments above the loop describe it: both listings
      sorted by the very order the merge compares with. */
  function FixedListingDiff(left: seq<HashRecord>, right: seq<HashRecord>): seq<DiffRecord> {
    MergeRecords(SortBy(ByRelpath, left), SortBy(ByRelpath, right))
  }

  lemma RelpathsOfPermutation(s: seq<HashRecord>, t: seq<HashRecord>)
    requires multiset(s) == multiset(t)
    ensures Relpaths(s) == Relpaths(t)
  {
    forall p | p in Relpaths(s)
      ensures p in Relpaths(t)
    {
      var k :| 0 <= k < |s| && s[k].Relpath() == p;
      assert s[k] in multiset(t);
      var m :| 0 <= m < |t| && t[m] == s[k];
    }
    forall p | p in Relpaths(t)
      ensures p in Relpaths(s)
    {
      var k :| 0 <= k < |t| && t[k].Relpath() == p;
      assert t[k] in multiset(s);
      var m :| 0 <= m < |s| && s[m] == t[k];
    }
  }

  /** With distinct paths, the record found for a path is the only one. */
  lemma FindUnique(t: seq<HashRecord>, k: nat)
    requires UniqueRelpaths(t) && k < |t|
    ensures Find(t, t[k].Relpath()) == Some(t[k])
  {
    var p := t[k].Relpath();
    var f := Find(t, p);
    forall m | 0 <= m < |t| && m != k
      ensures t[m].Relpath() != p
    {
      if m < k {
        assert !SameKey(ByRelpath, t[m], t[k]);
      } else {
        assert !SameKey(ByRelpath, t[k], t[m]);
      }
    }
    var m :| 0 <= m < |t| && t[m] == f.value;
  }

  /** With distinct paths, finding a path does not depend on the order. */
  lemma FindOfPermutation(s: seq<HashRecord>, t: seq<HashRecord>, p: string)
    requires multiset(s) == multiset(t) && UniqueRelpaths(s) && UniqueRelpaths(t)
    ensures Find(s, p) == Find(t, p)
  {
    RelpathsOfPermutation(s, t);
    if p in Relpaths(s) {
      var k :| 0 <= k < |s| && s[k].Relpath() == p;
      assert s[k] in multiset(t);
      var m :| 0 <= m < |t| && t[m] == s[k];
      FindUnique(s, k);
      FindUnique(t, m);
    }
  }

  /** The corrected merge reports every path of either listing once, in
      ascending order, with the state its presence and digests call for. */
  lemma FixedListingDiffCorrect(left: seq<HashRecord>, right: seq<HashRecord>)
    requires UniqueRelpaths(left) && UniqueRelpaths(right)
    ensures PathsOf(FixedListingDiff(left, right)) == Relpaths(left) + Relpaths(right)
    ensures AscendingPaths(FixedListingDiff(left, right))
    ensures forall k :: 0 <= k < |FixedListingDiff(left, right)| ==>
      FixedListingDiff(left, right)[k].result == ExpectedState(left, right, FixedListingDiff(left, right)[k].relpath)
  {
    var l, r := SortBy(ByRelpath, left), SortBy(ByRelpath, right);
    SortStrict(ByRelpath, left);
    SortStrict(ByRelpath, right);
    RelpathsOfPermutation(l, left);
    RelpathsOfPermutation(r, right);
    MergeCoversUnion(l, r);
    MergeAscending(l, r);
    MergeStates(l, r);
    var out := FixedListingDiff(left, right);
    forall k | 0 <= k < |out|
      ensures out[k].result == ExpectedState(left, right, out[k].relpath)
    {
      FindOfPermutation(l, left, out[k].relpath);
      FindOfPermutation(r, right, out[k].relpath);
    }
  }

  /** A canonical listing sorted by `path_parts` is sorted by `relpath` too,
      and its paths are distinct. */
  lemma CanonicalOrdersAgree(s: seq<HashRecord>)
    requires Canonical(s)
    ensures UniqueRelpaths(s)
    ensures StrictlySorted(ByRelpath, SortBy(ByParts, s))
  {
    forall i, j | 0 <= i < j < |s|
      ensures s[i].Relpath() != s[j].Relpath()
    {
      OrdersAgree(s[i].parts, s[j].parts);
    }
    SortStrict(ByParts, s);
    var t := SortBy(ByParts, s);
    forall i, j | 0 <= i < j < |t|
      ensures StrLt(t[i].Relpath(), t[j].Relpath())
    {
      assert t[i] in multiset(s) && t[j] in multiset(s);
      var a :| 0 <= a < |s| && s[a] == t[i];
      var b :| 0 <= b < |s| && s[b] == t[j];
      OrdersAgree(t[i].parts, t[j].parts);
    }
  }

  /** On canonical listings the code as written and the corrected merge give
      the same records. */
  lemma ListingDiffAgrees(left: seq<HashRecord>, right: seq<HashRecord>)
    requires Canonical(left) && Canonical(right)
    ensures ListingDiff(left, right) == FixedListingDiff(left, right)
  {
    CanonicalOrdersAgree(left);
    CanonicalOrdersAgree(right);
    SortStrict(ByRelpath, left);
    SortStrict(ByRelpath, right);
    StrictlySortedPermutationsEqual(ByRelpath, SortBy(ByParts, left), SortBy(ByRelpath, left));
    StrictlySortedPermutationsEqual(ByRelpath, SortBy(ByParts, right), SortBy(ByRelpath, right));
  }

  /** `compute_listing_diff` on canonical listings: one record per path of the
      union, in strictly ascending order, `ONLY_LEFT` exactly for left-only
      paths, `ONLY_RIGHT` exactly for right-only paths, and for a shared path
      `EQUAL` iff the digests agree. */
  lemma ListingDiffCorrect(left: seq<HashRecord>, right: seq<HashRecord>)
    requires Canonical(left) && Canonical(right)
    ensures PathsOf(ListingDiff(left, right)) == Relpaths(left) + Relpaths(right)
    ensures AscendingPaths(ListingDiff(left, right))
    ensures forall k :: 0 <= k < |ListingDiff(left, right)| ==>
      ListingDiff(left, right)[k].result == ExpectedState(left, right, ListingDiff(left, right)[k].relpath)
  {
    ListingDiffAgrees(left, right);
    CanonicalOrdersAgree(left);
    CanonicalOrdersAgree(right);
    FixedListingDiffCorrect(left, right);
  }

  /** Because the listings are sorted first, the result does not depend on
      the order in which the records were listed. */
  lemma ListingDiffIgnoresOrder(left: seq<HashRecord>, left': seq<HashRecord>,
                                right: seq<HashRecord>, right': seq<HashRecord>)
    requires multiset(left) == multiset(left') && multiset(right) == multiset(right')
    requires UniqueKeys(ByParts, left) && UniqueKeys(ByParts, left')
    requires UniqueKeys(ByParts, right) && UniqueKeys(ByParts, right')
    ensures ListingDiff(left, right) == ListingDiff(left', right')
  {
    SortForgetsOrder(ByParts, left, left');
    SortForgetsOrder(ByParts, right, right');
  }

  /** Whatever the listings hold, the paths reported are exactly the paths
      of the two listings; only the uniqueness and the order of the records
      need canonical input. */
  lemma ListingDiffCoversUnion(left: seq<HashRecord>, right: seq<HashRecord>)
    ensures PathsOf(ListingDiff(left, right)) == Relpaths(left) + Relpaths(right)
  {
    var l, r := SortBy(ByParts, left), SortBy(ByParts, right);
    MergeCoversUnion(l, r);
    RelpathsOfPermutation(l, left);
    RelpathsOfPermutation(r, right);
  }

  /** Sorting by `path_parts` but comparing `relpath` goes wrong as soon as a
      segment holds a character below the separator: with a directory `a`
      holding `b` next to a file `a.txt` on the left and only `a.txt` on the
      right, `a.txt` is reported twice, as right-only and as left-only,
      although both sides hold it. */
  lemma SortMergeMismatch()
    ensures var inDir, txt := HashRecord(Some("1"), ["a", "b"]), HashRecord(Some("2"), ["a.txt"]);
      UniqueKeys(ByParts, [inDir, txt]) &&
      ListingDiff([inDir, txt], [txt])
        == [DiffRecord("a.txt", ONLY_RIGHT), DiffRecord("a/b", ONLY_LEFT), DiffRecord("a.txt", ONLY_LEFT)]
  {
    var inDir, txt := HashRecord(Some("1"), ["a", "b"]), HashRecord(Some("2"), ["a.txt"]);
    MismatchSorted(inDir, txt);
    MismatchMerge(inDir, txt);
  }

  /** `["a", "b"] < ["a.txt"]`, because `"a" < "a.txt"`: the sort puts the
      record inside `a` first. */
  lemma MismatchSorted(inDir: HashRecord, txt: HashRecord)
    requires inDir == HashRecord(Some("1"), ["a", "b"]) && txt == HashRecord(Some("2"), ["a.txt"])
    ensures UniqueKeys(ByParts, [inDir, txt])
    ensures SortBy(ByParts, [inDir, txt]) == [inDir, txt] && SortBy(ByParts, [txt]) == [txt]
  {
    assert StrLt("", ".txt");
    assert StrLt("a", "a.txt");
    assert PartsLt(inDir.parts, txt.parts);
    assert UniqueKeys(ByParts, [inDir, txt]);
    SortStrict(ByParts, [inDir, txt]);
    StrictlySortedPermutationsEqual(ByParts, SortBy(ByParts, [inDir, txt]), [inDir, txt]);
    assert |multiset(SortBy(ByParts, [txt]))| == 1;
  }

  /** `"a/b" > "a.txt"`, because `"/" > "."`: the merge sees the sorted
      left listing out of its own order. */
  lemma MismatchMerge(inDir: HashRecord, txt: HashRecord)
    requires inDir == HashRecord(Some("1"), ["a", "b"]) && txt == HashRecord(Some("2"), ["a.txt"])
    ensures MergeRecords([inDir, txt], [txt])
        == [DiffRecord("a.txt", ONLY_RIGHT), DiffRecord("a/b", ONLY_LEFT), DiffRecord("a.txt", ONLY_LEFT)]
  {
    assert inDir.Relpath() == "a/b";
    assert txt.Relpath() == "a.txt";
    assert !StrLt("/b", ".txt");
    assert !StrLt("a/b", "a.txt");
    assert [inDir, txt][1..] == [txt] && [txt][1..] == [];
    assert MergeRecords([inDir, txt], []) == Drain([inDir, txt], ONLY_LEFT);
  }
}

=== FILE: order.dfy ===
/** Python's built-in orders used by the diff: `str < str` (lexicographic by
    code point) and `list < list` of strings (lexicographic by element, a
    proper prefix being smaller). The sort of `compute_listing_diff` uses the
    second on `path_parts`; its merge uses the first on `relpath`. */
module Order {
  import opened Paths

  /** `a < b` for Python strings. */
  predicate StrLt(a: string, b: string)
    decreases |a|
  {
    if |a| == 0 then |b| > 0
    else if |b| == 0 then false
    else if a[0] == b[0] then StrLt(a[1..], b[1..])
    else a[0] < b[0]
  }

  /** `a < b` for Python lists of strings. */
  predicate PartsLt(a: seq<string>, b: seq<string>)
    decreases |a|
  {
    if |a| == 0 then |b| > 0
    else if |b| == 0 then false
    else if a[0] == b[0] then PartsLt(a[1..], b[1..])
    else StrLt(a[0], b[0])
  }

  predicate PartsLe(a: seq<string>, b: seq<string>) {
    a == b || PartsLt(a, b)
  }

  lemma {:induction false} StrLtIrreflexive(a: string)
    ensures !StrLt(a, a)
    decreases |a|
  {
    if |a| > 0 {
      StrLtIrreflexive(a[1..]);
    }
  }

  lemma {:induction false} StrLtTransitive(a: string, b: string, c: string)
    requires StrLt(a, b) && StrLt(b, c)
    ensures StrLt(a, c)
    decreases |a|
  {
    if |a| > 0 && |b| > 0 && |c| > 0 && a[0] == b[0] && b[0] == c[0] {
      StrLtTransitive(a[1..], b[1..], c[1..]);
    }
  }

  /** Distinct strings are ordered one way or the other. */
  lemma {:induction false} StrLtTotal(a: string, b: string)
    ensures a == b || StrLt(a, b) || StrLt(b, a)
    decreases |a|
  {
    if |a| > 0 && |b| > 0 && a[0] == b[0] {
      StrLtTotal(a[1..], b[1..]);
      if a[1..] == b[1..] {
        assert a == [a[0]] + a[1..] && b == [b[0]] + b[1..];
      }
    }
  }

  lemma {:induction false} StrLtAsymmetric(a: string, b: string)
    requires StrLt(a, b)
    ensures !StrLt(b, a)
    decreases |a|
  {
    if |a| > 0 && |b| > 0 && a[0] == b[0] {
      StrLtAsymmetric(a[1..], b[1..]);
    }
  }

  lemma {:induction false} PartsLtIrreflexive(a: seq<string>)
    ensures !PartsLt(a, a)
    decreases |a|
  {
    if |a| > 0 {
      PartsLtIrreflexive(a[1..]);
    }
  }

  lemma {:induction false} PartsLtTransitive(a: seq<string>, b: seq<string>, c: seq<string>)
    requires PartsLt(a, b) && PartsLt(b, c)
    ensures PartsLt(a, c)
    decreases |a|
  {
    if |a| > 0 && |b| > 0 && |c| > 0 {
      if a[0] == b[0] && b[0] == c[0] {
        PartsLtTransitive(a[1..], b[1..], c[1..]);
      } else if a[0] != b[0] && b[0] != c[0] {
        StrLtTransitive(a[0], b[0], c[0]);
        if a[0] == c[0] {
          StrLtAsymmetric(a[0], b[0]);
        }
      }
    }
  }

  lemma {:induction false} PartsLtTotal(a: seq<string>, b: seq<string>)
    ensures a == b || PartsLt(a, b) || PartsLt(b, a)
    decreases |a|
  {
    if |a| > 0 && |b| > 0 {
      if a[0] == b[0] {
        PartsLtTotal(a[1..], b[1..]);
        if a[1..] == b[1..] {
          assert a == [a[0]] + a[1..] && b == [b[0]] + b[1..];
        }
      } else {
        StrLtTotal(a[0], b[0]);
      }
    }
  }

  lemma {:induction false} PartsLtAsymmetric(a: seq<string>, b: seq<string>)
    requires PartsLt(a, b)
    ensures !PartsLt(b, a)
    decreases |a|
  {
    if |a| > 0 && |b| > 0 {
      if a[0] == b[0] {
        PartsLtAsymmetric(a[1..], b[1..]);
      } else {
        StrLtAsymmetric(a[0], b[0]);
      }
    }
  }

  /** A segment on which the two orders agree: non-empty, and every character
      sorts above the separator (so neither `/` nor `.`, `-` or a space). */
  predicate AboveSep(s: string) {
    |s| > 0 && forall k :: 0 <= k < |s| ==> s[k] > Sep
  }

  predicate AllAboveSep(parts: seq<string>) {
    forall k :: 0 <= k < |parts| ==> AboveSep(parts[k])
  }

  /** Empty, or starting with the separator: what follows a segment inside a
      joined path. */
  predicate SepOrEnd(u: string) {
    |u| == 0 || u[0] == Sep
  }

  /** Comparing two different segments, each followed by the rest of its path,
      is decided by the segments alone when both sort above the separator. */
  lemma {:induction false} StrLtAfterSegments(x: string, u: string, y: string, v: string)
    requires x != y
    requires forall k :: 0 <= k < |x| ==> x[k] > Sep
    requires forall k :: 0 <= k < |y| ==> y[k] > Sep
    requires SepOrEnd(u) && SepOrEnd(v)
    ensures StrLt(x + u, y + v) <==> StrLt(x, y)
    ensures x + u != y + v
    decreases |x|
  {
    if |x| == 0 {
      assert (y + v)[0] == y[0];
    } else if |y| == 0 {
      assert (x + u)[0] == x[0];
    } else if x[0] == y[0] {
      assert (x + u)[1..] == x[1..] + u;
      assert (y + v)[1..] == y[1..] + v;
      assert x == [x[0]] + x[1..] && y == [y[0]] + y[1..];
      StrLtAfterSegments(x[1..], u, y[1..], v);
    } else {
      assert (x + u)[0] == x[0] && (y + v)[0] == y[0];
    }
  }

  /** A common prefix does not change the comparison. */
  lemma {:induction false} StrLtCommonPrefix(x: string, u: string, v: string)
    ensures StrLt(x + u, x + v) <==> StrLt(u, v)
    decreases |x|
  {
    if |x| > 0 {
      assert (x + u)[1..] == x[1..] + u;
      assert (x + v)[1..] == x[1..] + v;
      StrLtCommonPrefix(x[1..], u, v);
    } else {
      assert x + u == u && x + v == v;
    }
  }

  /** The rest of a joined path after its first segment. */
  function JoinTail(parts: seq<string>): string
    requires |parts| > 0
  {
    if |parts| == 1 then "" else [Sep] + Join(parts[1..])
  }

  /** When no segment holds a character at or below the separator, comparing
      segment lists (`path_parts`) and comparing their joins (`relpath`)
      agree, and the join is injective. */
  lemma {:induction false} OrdersAgree(a: seq<string>, b: seq<string>)
    requires AllAboveSep(a) && AllAboveSep(b)
    ensures PartsLt(a, b) <==> StrLt(Join(a), Join(b))
    ensures a == b <==> Join(a) == Join(b)
    decreases |a|
  {
    if |a| == 0 || |b| == 0 {
      if |a| > 0 {
        assert |Join(a)| > 0 by { JoinOfFirst(a); }
      }
      if |b| > 0 {
        assert |Join(b)| > 0 by { JoinOfFirst(b); }
      }
    } else {
      JoinOfFirst(a);
      JoinOfFirst(b);
      var ta := JoinTail(a);
      var tb := JoinTail(b);
      if a[0] == b[0] {
        StrLtCommonPrefix(a[0], ta, tb);
        if |a| > 1 && |b| > 1 {
          StrLtCommonPrefix([Sep], Join(a[1..]), Join(b[1..]));
          OrdersAgree(a[1..], b[1..]);
          assert a == [a[0]] + a[1..] && b == [b[0]] + b[1..];
          assert Join(a)[|a[0]| + 1..] == Join(a[1..]);
          assert Join(b)[|b[0]| + 1..] == Join(b[1..]);
        } else if |a| > 1 {
          assert a[1..] != [];
        } else if |b| > 1 {
          assert b[1..] != [];
        } else {
          assert a == [a[0]] && b == [b[0]];
        }
      } else {
        StrLtAfterSegments(a[0], ta, b[0], tb);
      }
    }
  }

  /** A joined path is its first segment followed by `JoinTail`. */
  lemma JoinOfFirst(parts: seq<string>)
    requires |parts| > 0
    ensures Join(parts) == parts[0] + JoinTail(parts)
    ensures SepOrEnd(JoinTail(parts))
  {
  }
}

=== FILE: paths.dfy ===
/** Path strings and path segments, with POSIX `/` semantics.

    `PathParts` models `utils.path_parts`, which repeatedly applies
    `os.path.split` (here: `posixpath.split`) and collects the non-empty tails.
    `Join` is `'/'.join(parts)` and `SplitOnSep` is `str.split('/')`. */
module Paths {

  /** The POSIX path separator. */
  const Sep: char := '/'

  /** True when every character of `s` is the separator (vacuously for ""). */
  predicate AllSeps(s: string) {
    forall k :: 0 <= k < |s| ==> s[k] == Sep
  }

  /** A segment that `path_parts` can produce: non-empty, separator-free. */
  predicate IsSegment(s: string) {
    |s| > 0 && Sep !in s
  }

  predicate AllSegments(parts: seq<string>) {
    forall k :: 0 <= k < |parts| ==> IsSegment(parts[k])
  }

  /** `'/'.join(parts)` */
  function Join(parts: seq<string>): string {
    if |parts| == 0 then ""
    else if |parts| == 1 then parts[0]
    else parts[0] + [Sep] + Join(parts[1..])
  }

  /** Index of the last separator in `p`, or -1 (`p.rfind('/')`). */
  function LastSep(p: string): (i: int)
    ensures -1 <= i < |p|
    ensures i >= 0 ==> p[i] == Sep
    ensures forall k :: i < k < |p| ==> p[k] != Sep
  {
    if |p| == 0 then -1
    else if p[|p| - 1] == Sep then |p| - 1
    else LastSep(p[..|p| - 1])
  }

  /** `s.rstrip('/')` */
  function RStripSeps(s: string): (r: string)
    ensures r <= s
    ensures |r| == 0 || r[|r| - 1] != Sep
    ensures forall k :: |r| <= k < |s| ==> s[k] == Sep
  {
    if |s| > 0 && s[|s| - 1] == Sep then RStripSeps(s[..|s| - 1]) else s
  }

  /** `posixpath.split(p)`: the head up to the last separator (with trailing
      separators removed unless the head consists of separators only) and the
      tail after it. */
  function SplitPath(p: string): (r: (string, string))
    ensures r.0 <= p
    ensures r.0 == p || |r.0| < |p|
    ensures Sep !in r.1
    ensures r.0 == p ==> r.1 == ""
  {
    var i := LastSep(p) + 1;
    var head := p[..i];
    var tail := p[i..];
    assert forall k :: 0 <= k < |tail| ==> tail[k] == p[i + k];
    if head != "" && !AllSeps(head) then (RStripSeps(head), tail) else (head, tail)
  }

  /** `utils.path_parts(path)`: split off tails until `os.path.split` reaches a
      fixed point; empty tails are skipped. The tails are collected last-first
      and reversed, so the recursion appends the current tail after the parts
      of the remaining head. Each step either stops or shortens the path. */
  function PathParts(path: string): (parts: seq<string>)
    ensures AllSegments(parts)
    decreases |path|
  {
    var (rest, part) := SplitPath(path);
    var found := if part != "" then [part] else [];
    assert AllSegments(found);
    if path == rest then found
    else
      var init := PathParts(rest);
      AllSegmentsAppend(init, found);
      init + found
  }

  lemma AllSegmentsAppend(a: seq<string>, b: seq<string>)
    requires AllSegments(a) && AllSegments(b)
    ensures AllSegments(a + b)
  {
    forall k | 0 <= k < |a + b| ensures IsSegment((a + b)[k]) {
      if k < |a| {
        assert (a + b)[k] == a[k];
      } else {
        assert (a + b)[k] == b[k - |a|];
      }
    }
  }

  /** Concatenation is associative; stated for the proofs that regroup
      sequences built from pieces. */
  lemma SeqAssoc<T>(p: seq<T>, q: seq<T>, r: seq<T>)
    ensures p + (q + r) == (p + q) + r
  {
  }

  /** Index of the first separator in `s`, or `|s|` when there is none. */
  function FirstSep(s: string): (i: nat)
    ensures i <= |s|
    ensures i < |s| ==> s[i] == Sep
    ensures Sep !in s[..i]
    ensures forall k :: 0 <= k < i ==> s[k] != Sep
  {
    if |s| == 0 || s[0] == Sep then 0
    else
      var j := FirstSep(s[1..]);
      assert s[..j + 1] == [s[0]] + s[1..][..j];
      j + 1
  }

  /** `s.split('/')`: the pieces between separators, empty pieces included. */
  function SplitOnSep(s: string): (parts: seq<string>)
    ensures |parts| >= 1
    ensures Join(parts) == s
    ensures forall k :: 0 <= k < |parts| ==> Sep !in parts[k]
    decreases |s|
  {
    var i := FirstSep(s);
    if i == |s| then [s]
    else
      var rest := SplitOnSep(s[i + 1..]);
      assert s == s[..i] + [Sep] + s[i + 1..];
      [s[..i]] + rest
  }

  /** The last `/`-separated piece of `s` (`s.split('/')[-1]`). */
  function LastPiece(s: string): string {
    var parts := SplitOnSep(s);
    parts[|parts| - 1]
  }

  /** Appending one segment to a non-empty list extends the joined string by
      a separator and that segment. */
  lemma {:induction false} JoinSnoc(init: seq<string>, s: string)
    requires |init| > 0
    ensures Join(init + [s]) == Join(init) + [Sep] + s
    decreases |init|
  {
    if |init| == 1 {
      assert init + [s] == [init[0], s];
      assert (init + [s])[1..] == [s];
    } else {
      assert (init + [s])[1..] == init[1..] + [s];
      JoinSnoc(init[1..], s);
    }
  }

  /** Joining segments adds no separator at the end: the joined string is
      non-empty and ends with the last character of the last segment. */
  lemma {:induction false} JoinEndsInSegment(parts: seq<string>)
    requires |parts| > 0 && AllSegments(parts)
    ensures |Join(parts)| > 0 && Join(parts)[|Join(parts)| - 1] != Sep
    decreases |parts|
  {
    var last := parts[|parts| - 1];
    if |parts| > 1 {
      var init := parts[..|parts| - 1];
      assert parts == init + [last];
      JoinSnoc(init, last);
      assert Join(parts)[|Join(parts)| - 1] == last[|last| - 1];
    }
    assert last[|last| - 1] in last;
  }

  /** The last separator of `a + "/" + s` is the one just before `s`
      when `s` has none. */
  lemma {:induction false} LastSepBeforeSegment(a: string, s: string)
    requires Sep !in s
    ensures LastSep(a + [Sep] + s) == |a|
    decreases |s|
  {
    var p := a + [Sep] + s;
    if |s| > 0 {
      var s' := s[..|s| - 1];
      assert p[..|p| - 1] == a + [Sep] + s';
      assert p[|p| - 1] == s[|s| - 1];
      assert s[|s| - 1] in s;
      assert forall k | 0 <= k < |s'| :: s'[k] == s[k];
      LastSepBeforeSegment(a, s');
    }
  }

  /** A path made of separators only (including "") has no parts. */
  lemma AllSepsHasNoParts(p: string)
    requires AllSeps(p)
    ensures PathParts(p) == []
  {
    var (rest, part) := SplitPath(p);
    var i := LastSep(p) + 1;
    if |p| > 0 {
      assert p[|p| - 1] == Sep;
      assert i == |p|;
    }
    assert p[..i] == p;
  }

  /** Trailing separators do not change the parts of a path that has any
      other character. */
  lemma {:induction false} PartsIgnoreTrailingSeps(p: string)
    requires !AllSeps(p)
    ensures PathParts(p) == PathParts(RStripSeps(p))
    decreases |p|
  {
    if |p| > 0 && p[|p| - 1] == Sep {
      var q := p[..|p| - 1];
      assert LastSep(p) == |p| - 1;
      assert p[..|p|] == p;
      assert p[|p|..] == "";
      assert SplitPath(p) == (RStripSeps(p), "");
      assert RStripSeps(p) == RStripSeps(q);
      var k :| 0 <= k < |p| && p[k] != Sep;
      assert q[k] == p[k];
      PartsIgnoreTrailingSeps(q);
    }
  }

  /** A trailing separator is ignored: `path_parts('/hello/world/')` equals
      `path_parts('/hello/world')`. */
  lemma TrailingSepIgnored(p: string)
    ensures PathParts(p + [Sep]) == PathParts(p)
  {
    var q := p + [Sep];
    if AllSeps(p) {
      assert AllSeps(q);
      AllSepsHasNoParts(p);
      AllSepsHasNoParts(q);
    } else {
      var k :| 0 <= k < |p| && p[k] != Sep;
      assert q[k] == p[k];
      assert q[..|q| - 1] == p;
      PartsIgnoreTrailingSeps(q);
      assert RStripSeps(q) == RStripSeps(p);
      PartsIgnoreTrailingSeps(p);
    }
  }

  /** Splitting the join of at least two segments separates the last one. */
  lemma SplitJoinSnoc(init: seq<string>, s: string)
    requires |init| > 0 && AllSegments(init) && IsSegment(s)
    ensures SplitPath(Join(init + [s])) == (Join(init), s)
    ensures |Join(init)| < |Join(init + [s])|
  {
    JoinSnoc(init, s);
    var a := Join(init);
    var p := a + [Sep] + s;
    LastSepBeforeSegment(a, s);
    JoinEndsInSegment(init);
    var head := p[..|a| + 1];
    assert head == a + [Sep];
    assert head[|a| - 1] != Sep;
    assert RStripSeps(head) == RStripSeps(a);
    assert p[|a| + 1..] == s;
  }

  /** A single segment is its own only part. */
  lemma PartsOfSegment(s: string)
    requires IsSegment(s)
    ensures PathParts(s) == [s]
  {
    assert LastSep(s) == -1;
    assert s[..0] == "" && s[0..] == s;
    assert SplitPath(s) == ("", s);
    AllSepsHasNoParts("");
  }

  /** Round trip: splitting the `/`-join of proper segments gives them back.
      This is what keeps records built from a string and from a list of
      segments consistent. */
  lemma {:induction false} PartsOfJoin(segs: seq<string>)
    requires AllSegments(segs)
    ensures PathParts(Join(segs)) == segs
    decreases |segs|
  {
    if |segs| == 0 {
      AllSepsHasNoParts("");
    } else if |segs| == 1 {
      PartsOfSegment(segs[0]);
    } else {
      var init := segs[..|segs| - 1];
      var s := segs[|segs| - 1];
      assert segs == init + [s];
      SplitJoinSnoc(init, s);
      PartsOfJoin(init);
      PartsAfterSplit(Join(segs), Join(init), s);
    }
  }

  /** One step of `path_parts`: when the head differs from the path, the
      parts are those of the head followed by the non-empty tail. */
  lemma PartsAfterSplit(p: string, head: string, tail: string)
    requires SplitPath(p) == (head, tail) && head != p && tail != ""
    ensures PathParts(p) == PathParts(head) + [tail]
  {
  }

  /** Splitting a `/`-join on the separator gives back the pieces, provided
      no piece holds a separator. */
  lemma {:induction false} SplitOnSepOfJoin(parts: seq<string>)
    requires |parts| >= 1
    requires forall k :: 0 <= k < |parts| ==> Sep !in parts[k]
    ensures SplitOnSep(Join(parts)) == parts
    decreases |parts|
  {
    if |parts| > 1 {
      var first, rest := parts[0], Join(parts[1..]);
      assert Join(parts) == first + [Sep] + rest;
      SplitOnSepAt(first, rest);
      SplitOnSepOfJoin(parts[1..]);
      assert parts == [first] + parts[1..];
    }
  }

  /** `str.split('/')` cuts at the first separator. */
  lemma SplitOnSepAt(first: string, rest: string)
    requires Sep !in first
    ensures SplitOnSep(first + [Sep] + rest) == [first] + SplitOnSep(rest)
  {
    var s := first + [Sep] + rest;
    assert s[|first|] == Sep;
    assert forall k :: 0 <= k < |first| ==> s[k] == first[k];
    assert FirstSep(s) == |first|;
    assert s[..|first|] == first;
    assert s[|first| + 1..] == rest;
  }

}

=== FILE: prefix.dfy ===
/** `find_common_prefix` and `strip_prefix_from_records`: the records are
    inserted into a trie of nested dictionaries (`'__file__'` marking a file
    leaf), then the walk descends while the current node has exactly one
    entry and that entry is a directory. */
module Prefix {
  import opened Wrappers
  import opened Records
  import opened Assoc

  /** A trie node: a file leaf (`'__file__'`), or a dictionary whose entries
      keep Python's insertion order. */
  datatype Trie = FileLeaf | Dir(entries: seq<(string, Trie)>)

  /** The exceptions the prefix finder lets escape: `ValueError` when a file
      is placed inside a file, `TypeError` when a path descends through a
      file, `IndexError` for a file record without segments. */
  datatype PrefixError = ValueError | TypeError | IndexError

  /** The entry under `k`, or the fresh `{}` the walk inserts when it is
      missing. */
  function ChildOr(es: seq<(string, Trie)>, k: string): Trie {
    var i := KeyIndex(es, k);
    if i >= 0 then es[i].1 else Dir([])
  }

  /** After `tree[k] = v` the key is present and holds `v`. */
  lemma ChildPutSame(es: seq<(string, Trie)>, k: string, v: Trie)
    ensures HasKey(Put(es, k, v), k) && ChildOr(Put(es, k, v), k) == v
  {
    PutSame(es, k, v);
  }

  /** `tree[k] = v` leaves every other key as it was. */
  lemma ChildPutOther(es: seq<(string, Trie)>, k: string, v: Trie, k': string)
    requires k' != k
    ensures HasKey(Put(es, k, v), k') == HasKey(es, k')
    ensures ChildOr(Put(es, k, v), k') == ChildOr(es, k')
  {
    PutOther(es, k, v, k');
  }

  // ---------------------------------------------------------------------
  // Placing one record

  /** Following `ps` from `t` meets a file leaf before the last segment has
      been consumed: the descent `tree = tree[part]` then fails. */
  predicate HitsLeaf(t: Trie, ps: seq<string>)
    decreases |ps|
  {
    |ps| > 0 && (t.FileLeaf? || (HasKey(t.entries, ps[0]) && HitsLeaf(ChildOr(t.entries, ps[0]), ps[1..])))
  }

  /** Following `ps` from `t` through directories ends exactly on a file
      leaf. */
  predicate LandsOnLeaf(t: Trie, ps: seq<string>)
    decreases |ps|
  {
    if |ps| == 0 then t.FileLeaf?
    else t.Dir? && HasKey(t.entries, ps[0]) && LandsOnLeaf(ChildOr(t.entries, ps[0]), ps[1..])
  }

  /** The loop body of `find_common_prefix` for one record: descend along
      `ps`, creating missing directories, then, for a file, set the entry
      `name` to a file leaf. Descending through a file leaf is a
      `TypeError`; a file whose parent is a file leaf is a `ValueError`
      (the `TypeError` of the assignment, re-raised); a file over an existing
      directory replaces it silently. */
  function Place(t: Trie, ps: seq<string>, file: Option<string>): (r: Result<Trie, PrefixError>)
    ensures r.Failure? <==> HitsLeaf(t, ps) || (file.Some? && LandsOnLeaf(t, ps))
    ensures r.Failure? ==> r.error != IndexError && (r.error == TypeError <==> HitsLeaf(t, ps))
    ensures r.Success? && t.Dir? ==> r.value.Dir?
    decreases |ps|
  {
    if |ps| == 0 then
      match file
      case None => Success(t)
      case Some(name) =>
        if t.FileLeaf? then Failure(ValueError) else Success(Dir(Put(t.entries, name, FileLeaf)))
    else if t.FileLeaf? then Failure(TypeError)
    else
      match Place(ChildOr(t.entries, ps[0]), ps[1..], file)
      case Failure(e) => Failure(e)
      case Success(c) => Success(Dir(Put(t.entries, ps[0], c)))
  }

  /** One iteration of the record loop: a directory record places its whole
      path, a file record its parent path and then its last segment. */
  function AddRecord(t: Trie, rec: HashRecord): Result<Trie, PrefixError> {
    if rec.hash.None? then Place(t, rec.parts, None)
    else if |rec.parts| == 0 then Failure(IndexError)
    else Place(t, rec.parts[..|rec.parts| - 1], Some(rec.parts[|rec.parts| - 1]))
  }

  /** The trie after the whole record loop, or the first exception. */
  function Build(lst: seq<HashRecord>): (r: Result<Trie, PrefixError>)
    ensures r.Success? ==> r.value.Dir?
    decreases |lst|
  {
    if |lst| == 0 then Success(Dir([]))
    else
      match Build(lst[..|lst| - 1])
      case Failure(e) => Failure(e)
      case Success(t) => AddRecord(t, lst[|lst| - 1])
  }

  // ---------------------------------------------------------------------
  // The walk

  /** The walk may step down from `t`: one entry, and it is a directory. */
  predicate OneDirChild(t: Trie) {
    t.Dir? && |t.entries| == 1 && t.entries[0].1.Dir?
  }

  /** The node reached by following `p`, a missing entry read as `{}`. */
  function At(t: Trie, p: seq<string>): Trie
    decreases |p|
  {
    if |p| == 0 then t
    else if t.FileLeaf? then FileLeaf
    else At(ChildOr(t.entries, p[0]), p[1..])
  }

  /** `p` leads from `t` through nodes that each have a single directory
      entry, the one `p` names. */
  predicate SingleChain(t: Trie, p: seq<string>)
    decreases |p|
  {
    |p| == 0 || (OneDirChild(t) && t.entries[0].0 == p[0] && SingleChain(t.entries[0].1, p[1..]))
  }

  /** Every node along `p`, `t` and the last included, is a directory
      (entries not yet present count as the `{}` they would become). */
  predicate DirsAlong(t: Trie, p: seq<string>)
    decreases |p|
  {
    t.Dir? && (|p| == 0 || DirsAlong(ChildOr(t.entries, p[0]), p[1..]))
  }

  /** The `while True` loop: append the only key while it names a
      directory. It ends on a single-directory chain whose last node has
      no entry, several entries, or a single file entry. */
  function Walk(t: Trie): (p: seq<string>)
    ensures SingleChain(t, p)
    ensures !OneDirChild(At(t, p))
    ensures t.Dir? ==> DirsAlong(t, p)
    decreases t
  {
    if OneDirChild(t) then
      var key := t.entries[0].0;
      assert KeyIndex(t.entries, key) == 0;
      [key] + Walk(t.entries[0].1)
    else []
  }

  /** The walk is the only single-directory chain on which no further step
      is possible. */
  lemma {:induction false} WalkUnique(t: Trie, p: seq<string>)
    requires SingleChain(t, p) && !OneDirChild(At(t, p))
    ensures p == Walk(t)
    decreases |p|
  {
    if |p| > 0 {
      assert KeyIndex(t.entries, p[0]) == 0;
      WalkUnique(t.entries[0].1, p[1..]);
    }
  }

  /** `find_common_prefix(lst)`, with its exceptions as failures. */
  function FindCommonPrefix(lst: seq<HashRecord>): (r: Result<seq<string>, PrefixError>)
    ensures |lst| == 0 ==> r == Success([])
    ensures r.Success? <==> Build(lst).Success?
  {
    match Build(lst)
    case Failure(e) => Failure(e)
    case Success(t) => Success(Walk(t))
  }

  // ---------------------------------------------------------------------
  // Soundness of the prefix

  /** Following `q` from `t` consumes it through present entries, or stops
      early at a file leaf that overwrote a directory; a file path must end
      on a file leaf. */
  predicate Reach(t: Trie, q: seq<string>, isFile: bool)
    decreases |q|
  {
    if |q| == 0 then !isFile
    else
      t.Dir? && HasKey(t.entries, q[0]) &&
      (ChildOr(t.entries, q[0]).FileLeaf? || Reach(ChildOr(t.entries, q[0]), q[1..], isFile))
  }

  /** The path a record occupies in the trie. */
  predicate Occupies(t: Trie, rec: HashRecord) {
    Reach(t, rec.parts, rec.hash.Some?)
  }

  /** A successful placement makes its own path reachable. */
  lemma {:induction false} PlaceReaches(t: Trie, ps: seq<string>, file: Option<string>)
    requires Place(t, ps, file).Success?
    ensures file.None? ==> Reach(Place(t, ps, file).value, ps, false)
    ensures file.Some? ==> Reach(Place(t, ps, file).value, ps + [file.value], true)
    decreases |ps|
  {
    var t' := Place(t, ps, file).value;
    if |ps| == 0 {
      if file.Some? {
        ChildPutSame(t.entries, file.value, FileLeaf);
        assert ps + [file.value] == [file.value];
      }
    } else {
      var c := Place(ChildOr(t.entries, ps[0]), ps[1..], file).value;
      ChildPutSame(t.entries, ps[0], c);
      PlaceReaches(ChildOr(t.entries, ps[0]), ps[1..], file);
      if file.Some? {
        assert (ps + [file.value])[1..] == ps[1..] + [file.value];
      }
    }
  }

  /** A successful placement keeps every earlier path reachable: entries are
      only added, or overwritten by a file leaf. */
  lemma {:induction false} PlaceKeepsReach(t: Trie, ps: seq<string>, file: Option<string>, q: seq<string>, isFile: bool)
    requires Place(t, ps, file).Success? && Reach(t, q, isFile)
    ensures Reach(Place(t, ps, file).value, q, isFile)
    decreases |ps|
  {
    if |q| > 0 {
      var t' := Place(t, ps, file).value;
      if |ps| == 0 {
        if file.Some? {
          if file.value == q[0] {
            ChildPutSame(t.entries, q[0], FileLeaf);
          } else {
            ChildPutOther(t.entries, file.value, FileLeaf, q[0]);
          }
        }
      } else {
        var child := ChildOr(t.entries, ps[0]);
        var c := Place(child, ps[1..], file).value;
        if ps[0] == q[0] {
          ChildPutSame(t.entries, ps[0], c);
          if !c.FileLeaf? {
            PlaceKeepsReach(child, ps[1..], file, q[1..], isFile);
          }
        } else {
          ChildPutOther(t.entries, ps[0], c, q[0]);
        }
      }
    }
  }

  lemma AddRecordReaches(t: Trie, rec: HashRecord)
    requires AddRecord(t, rec).Success?
    ensures Occupies(AddRecord(t, rec).value, rec)
  {
    if rec.hash.None? {
      PlaceReaches(t, rec.parts, None);
    } else {
      var n := |rec.parts|;
      var init, name := rec.parts[..n - 1], rec.parts[n - 1];
      assert AddRecord(t, rec) == Place(t, init, Some(name));
      PlaceReaches(t, init, Some(name));
      assert init + [name] == rec.parts;
    }
  }

  lemma AddRecordKeepsReach(t: Trie, rec: HashRecord, q: seq<string>, isFile: bool)
    requires AddRecord(t, rec).Success? && Reach(t, q, isFile)
    ensures Reach(AddRecord(t, rec).value, q, isFile)
  {
    if rec.hash.None? {
      PlaceKeepsReach(t, rec.parts, None, q, isFile);
    } else {
      var n := |rec.parts|;
      PlaceKeepsReach(t, rec.parts[..n - 1], Some(rec.parts[n - 1]), q, isFile);
    }
  }

  /** After the record loop every record occupies its path. */
  lemma {:induction false} BuildReaches(lst: seq<HashRecord>)
    requires Build(lst).Success?
    ensures forall m :: 0 <= m < |lst| ==> Occupies(Build(lst).value, lst[m])
    decreases |lst|
  {
    if |lst| > 0 {
      var init := lst[..|lst| - 1];
      var t := Build(init).value;
      var last := lst[|lst| - 1];
      BuildReaches(init);
      AddRecordReaches(t, last);
      forall m | 0 <= m < |lst|
        ensures Occupies(Build(lst).value, lst[m])
      {
        if m < |lst| - 1 {
          assert lst[m] == init[m];
          AddRecordKeepsReach(t, last, lst[m].parts, lst[m].hash.Some?);
        }
      }
    }
  }

  /** `q` and `p` agree on their common length. */
  predicate Agree(q: seq<string>, p: seq<string>) {
    forall k :: 0 <= k < |q| && k < |p| ==> q[k] == p[k]
  }

  /** Every reachable path agrees with the walk, and a file path runs past
      its end. */
  lemma {:induction false} WalkAgrees(t: Trie, q: seq<string>, isFile: bool)
    requires t.Dir? && Reach(t, q, isFile)
    ensures Agree(q, Walk(t))
    ensures isFile ==> |q| > |Walk(t)|
    decreases t
  {
    if OneDirChild(t) && |q| > 0 {
      var child := t.entries[0].1;
      assert KeyIndex(t.entries, q[0]) == 0;
      WalkAgrees(child, q[1..], isFile);
      assert Walk(t) == [q[0]] + Walk(child);
    }
  }

  /** What `find_common_prefix` promises when it returns: every record
      agrees with the prefix on their common length, and every file record
      is strictly longer than the prefix. */
  lemma PrefixSound(lst: seq<HashRecord>)
    requires FindCommonPrefix(lst).Success?
    ensures forall m :: 0 <= m < |lst| ==> Agree(lst[m].parts, FindCommonPrefix(lst).value)
    ensures forall m :: 0 <= m < |lst| && lst[m].hash.Some? ==>
      |lst[m].parts| > |FindCommonPrefix(lst).value|
  {
    var t := Build(lst).value;
    BuildReaches(lst);
    forall m | 0 <= m < |lst|
      ensures Agree(lst[m].parts, Walk(t))
      ensures lst[m].hash.Some? ==> |lst[m].parts| > |Walk(t)|
    {
      WalkAgrees(t, lst[m].parts, lst[m].hash.Some?);
    }
  }

  // ---------------------------------------------------------------------
  // Stripping the prefix

  /** What the stripping loop keeps of one record: nothing when the record
      is no longer than the prefix (a directory on the prefix path), else
      the record rebuilt with the prefix segments cut off. */
  function Kept(p: seq<string>, rec: HashRecord): (r: seq<HashRecord>)
    ensures |r| == 0 <==> |rec.parts| <= |p|
    ensures |r| <= 1
    ensures |r| == 1 && Agree(rec.parts, p) ==> p + r[0].parts == rec.parts
    ensures |r| == 1 ==> (r[0].hash.Some? <==> rec.hash.Some?)
    ensures |r| == 1 && (rec.hash.Some? ==> NoUpper(rec.hash.value)) ==> r[0].hash == rec.hash
  {
    if |rec.parts| <= |p| then []
    else
      var r := MakeRecord(rec.hash, PathList(rec.parts[|p|..]));
      assert Agree(rec.parts, p) ==> p + r.parts == rec.parts;
      assert rec.hash.Some? && NoUpper(rec.hash.value) ==> Lower(rec.hash.value) == rec.hash.value;
      [r]
  }

  /** The loop of `strip_prefix_from_records` after the prefix is known. */
  function Strip(p: seq<string>, lst: seq<HashRecord>): (out: seq<HashRecord>)
    ensures |out| <= |lst|
    decreases |lst|
  {
    if |lst| == 0 then []
    else Strip(p, lst[..|lst| - 1]) + Kept(p, lst[|lst| - 1])
  }

  /** Stripping works record by record and keeps the input order. */
  lemma {:induction false} StripAppend(p: seq<string>, a: seq<HashRecord>, b: seq<HashRecord>)
    ensures Strip(p, a + b) == Strip(p, a) + Strip(p, b)
    decreases |b|
  {
    if |b| == 0 {
      assert a + b == a;
    } else {
      var init := b[..|b| - 1];
      assert (a + b)[..|a + b| - 1] == a + init;
      assert (a + b)[|a + b| - 1] == b[|b| - 1];
      StripAppend(p, a, init);
    }
  }

  /** Number of records longer than the prefix. */
  function LongerCount(p: seq<string>, lst: seq<HashRecord>): nat
    decreases |lst|
  {
    if |lst| == 0 then 0
    else LongerCount(p, lst[..|lst| - 1]) + (if |lst[|lst| - 1].parts| > |p| then 1 else 0)
  }

  /** Stripping keeps exactly the records longer than the prefix, each
      rebuilt so that the prefix followed by its new segments gives back its
      old segments, with its digest (present or absent) kept. */
  lemma {:induction false} StripContents(p: seq<string>, lst: seq<HashRecord>)
    requires forall m :: 0 <= m < |lst| ==> Agree(lst[m].parts, p)
    ensures |Strip(p, lst)| == LongerCount(p, lst)
    ensures forall k :: 0 <= k < |Strip(p, lst)| ==>
      exists m :: 0 <= m < |lst| && |lst[m].parts| > |p| && p + Strip(p, lst)[k].parts == lst[m].parts
                  && (Strip(p, lst)[k].hash.Some? <==> lst[m].hash.Some?)
    decreases |lst|
  {
    if |lst| > 0 {
      var init := lst[..|lst| - 1];
      var last := lst[|lst| - 1];
      assert forall m :: 0 <= m < |init| ==> init[m] == lst[m];
      StripContents(p, init);
      var out := Strip(p, lst);
      forall k | 0 <= k < |out|
        ensures exists m :: 0 <= m < |lst| && |lst[m].parts| > |p| && p + out[k].parts == lst[m].parts
                  && (out[k].hash.Some? <==> lst[m].hash.Some?)
      {
        if k < |Strip(p, init)| {
          assert out[k] == Strip(p, init)[k];
          var m :| 0 <= m < |init| && |init[m].parts| > |p| && p + out[k].parts == init[m].parts
                  && (out[k].hash.Some? <==> init[m].hash.Some?);
          assert init[m] == lst[m];
        } else {
          assert out[k] == Kept(p, last)[0];
          assert lst[|lst| - 1] == last;
        }
      }
    }
  }

  /** Positions of the records longer than the prefix, in increasing
      order: the records the stripping loop keeps. */
  function KeptIndices(p: seq<string>, lst: seq<HashRecord>): (idx: seq<nat>)
    ensures forall k | 0 <= k < |idx| :: idx[k] < |lst| && |lst[idx[k]].parts| > |p|
    ensures forall j, k | 0 <= j < k < |idx| :: idx[j] < idx[k]
    ensures forall m | 0 <= m < |lst| && |lst[m].parts| > |p| :: m in idx
    decreases |lst|
  {
    if |lst| == 0 then []
    else
      var init := KeptIndices(p, lst[..|lst| - 1]);
      if |lst[|lst| - 1].parts| > |p| then init + [|lst| - 1] else init
  }

  /** `HashRecord(record.hash, record.path_parts[prefix_len:])`: the record
      the stripping loop appends for a record longer than the prefix. */
  function Rebuilt(p: seq<string>, rec: HashRecord): (r: HashRecord)
    requires |p| < |rec.parts|
    ensures r.parts == rec.parts[|p|..]
    ensures r.hash.None? <==> rec.hash.None?
    ensures rec.hash.Some? ==> r.hash == Some(Lower(rec.hash.value))
    ensures (rec.hash.Some? ==> NoUpper(rec.hash.value)) ==> r.hash == rec.hash
  {
    var r := MakeRecord(rec.hash, PathList(rec.parts[|p|..]));
    assert rec.hash.Some? && NoUpper(rec.hash.value) ==> Lower(rec.hash.value) == rec.hash.value;
    r
  }

  /** Stripping rebuilds, in input order and each exactly once, the records
      longer than the prefix: the `k`-th output record is the `k`-th such
      input record with the prefix segments cut off. */
  lemma {:induction false} StripInOrder(p: seq<string>, lst: seq<HashRecord>)
    ensures var out, idx := Strip(p, lst), KeptIndices(p, lst);
            && |out| == |idx|
            && forall k | 0 <= k < |out| :: out[k] == Rebuilt(p, lst[idx[k]])
    decreases |lst|
  {
    if |lst| > 0 {
      var init := lst[..|lst| - 1];
      StripInOrder(p, init);
      StripLastKept(p, lst);
      var out, idx := Strip(p, lst), KeptIndices(p, lst);
      forall k | 0 <= k < |out| ensures out[k] == Rebuilt(p, lst[idx[k]]) {
        if k < |Strip(p, init)| {
          StripInitKept(p, lst, k);
        }
      }
    }
  }

  /** The last record, when kept, is the last output record and the last
      kept position. */
  lemma StripLastKept(p: seq<string>, lst: seq<HashRecord>)
    requires |lst| > 0
    requires |Strip(p, lst[..|lst| - 1])| == |KeptIndices(p, lst[..|lst| - 1])|
    ensures |Strip(p, lst)| == |KeptIndices(p, lst)|
    ensures forall k | |Strip(p, lst[..|lst| - 1])| <= k < |Strip(p, lst)| ::
              KeptIndices(p, lst)[k] == |lst| - 1 && Strip(p, lst)[k] == Rebuilt(p, lst[|lst| - 1])
  {
  }

  /** An output record from the earlier records keeps its place and its
      position once the last record is read. */
  lemma StripInitKept(p: seq<string>, lst: seq<HashRecord>, k: nat)
    requires |lst| > 0
    requires k < |Strip(p, lst[..|lst| - 1])| && k < |KeptIndices(p, lst[..|lst| - 1])|
    requires Strip(p, lst[..|lst| - 1])[k] == Rebuilt(p, lst[..|lst| - 1][KeptIndices(p, lst[..|lst| - 1])[k]])
    ensures k < |Strip(p, lst)| && k < |KeptIndices(p, lst)|
    ensures Strip(p, lst)[k] == Rebuilt(p, lst[KeptIndices(p, lst)[k]])
  {
  }

  /** `strip_prefix_from_records(lst)`: the prefix and the stripped
      listing, or the exception of the prefix finder. */
  function StripPrefix(lst: seq<HashRecord>): (r: Result<(seq<string>, seq<HashRecord>), PrefixError>)
    ensures r.Success? <==> FindCommonPrefix(lst).Success?
    ensures r.Success? ==> r.value.0 == FindCommonPrefix(lst).value
  {
    match FindCommonPrefix(lst)
    case Failure(e) => Failure(e)
    case Success(p) => Success((p, Strip(p, lst)))
  }

  /** The round trip of stripping: every kept record is some input record
      with the prefix cut off, and the records dropped are exactly those no
      longer than the prefix; only directories can be dropped. */
  lemma StripRoundTrip(lst: seq<HashRecord>)
    requires StripPrefix(lst).Success?
    ensures var (p, out) := StripPrefix(lst).value;
      |out| == LongerCount(p, lst) &&
      (forall m :: 0 <= m < |lst| && |lst[m].parts| <= |p| ==> lst[m].hash.None?) &&
      forall k :: 0 <= k < |out| ==>
        exists m :: 0 <= m < |lst| && p + out[k].parts == lst[m].parts
                    && (out[k].hash.Some? <==> lst[m].hash.Some?)
  {
    PrefixSound(lst);
    var p := StripPrefix(lst).value.0;
    StripContents(p, lst);
  }

  // ---------------------------------------------------------------------
  // Idempotence

  lemma {:induction false} PlaceSplit(t: Trie, p: seq<string>, rest: seq<string>, file: Option<string>)
    requires DirsAlong(t, p)
    ensures Place(t, p + rest, file).Success? <==> Place(At(t, p), rest, file).Success?
    ensures Place(t, p + rest, file).Success? ==>
      At(Place(t, p + rest, file).value, p) == Place(At(t, p), rest, file).value
      && DirsAlong(Place(t, p + rest, file).value, p)
    decreases |p|
  {
    if |p| == 0 {
      assert p + rest == rest;
    } else {
      var child := ChildOr(t.entries, p[0]);
      assert (p + rest)[0] == p[0] && (p + rest)[1..] == p[1..] + rest;
      PlaceSplit(child, p[1..], rest, file);
      var r := Place(child, p[1..] + rest, file);
      if r.Success? {
        ChildPutSame(t.entries, p[0], r.value);
      }
    }
  }

  lemma {:induction false} PlacePrefixDir(t: Trie, q: seq<string>, p: seq<string>)
    requires DirsAlong(t, p) && |q| <= |p| && q == p[..|q|]
    ensures Place(t, q, None).Success?
    ensures At(Place(t, q, None).value, p) == At(t, p)
    ensures DirsAlong(Place(t, q, None).value, p)
    decreases |q|
  {
    if |q| > 0 {
      var child := ChildOr(t.entries, p[0]);
      assert q[1..] == p[1..][..|q| - 1];
      PlacePrefixDir(child, q[1..], p[1..]);
      ChildPutSame(t.entries, p[0], Place(child, q[1..], None).value);
    }
  }

  /** A file leaf, once set, never goes away, so a path free of file leaves
      at the end was free of them before. */
  lemma {:induction false} PlaceKeepsLeaves(t: Trie, ps: seq<string>, file: Option<string>, p: seq<string>)
    requires Place(t, ps, file).Success? && DirsAlong(Place(t, ps, file).value, p)
    ensures DirsAlong(t, p)
    decreases |p|, |ps|
  {
    var t' := Place(t, ps, file).value;
    if |p| > 0 && t.Dir? {
      if |ps| == 0 {
        if file.Some? {
          if file.value == p[0] {
            ChildPutSame(t.entries, p[0], FileLeaf);
          } else {
            ChildPutOther(t.entries, file.value, FileLeaf, p[0]);
          }
        }
      } else {
        var child := ChildOr(t.entries, ps[0]);
        var c := Place(child, ps[1..], file).value;
        if ps[0] == p[0] {
          ChildPutSame(t.entries, p[0], c);
          PlaceKeepsLeaves(child, ps[1..], file, p[1..]);
        } else {
          ChildPutOther(t.entries, ps[0], c, p[0]);
        }
      }
    }
  }

  lemma AddRecordKeepsLeaves(t: Trie, rec: HashRecord, p: seq<string>)
    requires AddRecord(t, rec).Success? && DirsAlong(AddRecord(t, rec).value, p)
    ensures DirsAlong(t, p)
  {
    if rec.hash.None? {
      PlaceKeepsLeaves(t, rec.parts, None, p);
    } else {
      var n := |rec.parts|;
      PlaceKeepsLeaves(t, rec.parts[..n - 1], Some(rec.parts[n - 1]), p);
    }
  }

  /** Adding a record agreeing with `p` acts on the subtree at `p` as adding
      its stripped form acts on that subtree taken as a root. */
  lemma AddStripped(t: Trie, rec: HashRecord, p: seq<string>)
    requires DirsAlong(t, p) && Agree(rec.parts, p)
    requires rec.hash.Some? ==> |rec.parts| > |p|
    requires AddRecord(t, rec).Success?
    ensures DirsAlong(AddRecord(t, rec).value, p)
    ensures |rec.parts| <= |p| ==> At(AddRecord(t, rec).value, p) == At(t, p)
    ensures |rec.parts| > |p| ==>
      AddRecord(At(t, p), Kept(p, rec)[0]) == Success(At(AddRecord(t, rec).value, p))
  {
    var n := |rec.parts|;
    if n <= |p| {
      assert rec.parts == p[..n];
      PlacePrefixDir(t, rec.parts, p);
    } else if rec.hash.None? {
      AddStrippedDir(t, rec, p);
    } else {
      AddStrippedFile(t, rec, p);
    }
  }

  lemma AddStrippedDir(t: Trie, rec: HashRecord, p: seq<string>)
    requires DirsAlong(t, p) && Agree(rec.parts, p) && |rec.parts| > |p| && rec.hash.None?
    requires AddRecord(t, rec).Success?
    ensures DirsAlong(AddRecord(t, rec).value, p)
    ensures AddRecord(At(t, p), Kept(p, rec)[0]) == Success(At(AddRecord(t, rec).value, p))
  {
    var rest := rec.parts[|p|..];
    var s := Kept(p, rec)[0];
    assert rec.parts == p + rest;
    assert s.parts == rest && s.hash.None?;
    assert AddRecord(t, rec) == Place(t, p + rest, None);
    assert AddRecord(At(t, p), s) == Place(At(t, p), rest, None);
    PlaceSplit(t, p, rest, None);
  }

  lemma AddStrippedFile(t: Trie, rec: HashRecord, p: seq<string>)
    requires DirsAlong(t, p) && Agree(rec.parts, p) && |rec.parts| > |p| && rec.hash.Some?
    requires AddRecord(t, rec).Success?
    ensures DirsAlong(AddRecord(t, rec).value, p)
    ensures AddRecord(At(t, p), Kept(p, rec)[0]) == Success(At(AddRecord(t, rec).value, p))
  {
    var n := |rec.parts|;
    var rest := rec.parts[|p|..];
    var s := Kept(p, rec)[0];
    var name := rec.parts[n - 1];
    assert rec.parts == p + rest;
    assert s.parts == rest && s.hash.Some?;
    assert rec.parts[..n - 1] == p + rest[..|rest| - 1];
    assert rest[|rest| - 1] == name;
    assert AddRecord(t, rec) == Place(t, p + rest[..|rest| - 1], Some(name));
    assert AddRecord(At(t, p), s) == Place(At(t, p), rest[..|rest| - 1], Some(name));
    PlaceSplit(t, p, rest[..|rest| - 1], Some(name));
  }

  /** Building from the stripped records gives the subtree at the prefix of
      the original trie. */
  lemma {:induction false} BuildStrip(lst: seq<HashRecord>, p: seq<string>)
    requires Build(lst).Success? && DirsAlong(Build(lst).value, p)
    requires forall m :: 0 <= m < |lst| ==> Agree(lst[m].parts, p)
    requires forall m :: 0 <= m < |lst| && lst[m].hash.Some? ==> |lst[m].parts| > |p|
    ensures Build(Strip(p, lst)) == Success(At(Build(lst).value, p))
    decreases |lst|
  {
    if |lst| > 0 {
      var init := lst[..|lst| - 1];
      var last := lst[|lst| - 1];
      var t := Build(init).value;
      AddRecordKeepsLeaves(t, last, p);
      assert forall m :: 0 <= m < |init| ==> init[m] == lst[m];
      BuildStrip(init, p);
      AddStripped(t, last, p);
      var k := Kept(p, last);
      var si := Strip(p, init);
      var tEnd := AddRecord(t, last).value;
      assert Build(lst) == Success(tEnd);
      if |k| == 1 {
        var u := si + [k[0]];
        assert Strip(p, lst) == u;
        assert u[..|u| - 1] == si && u[|u| - 1] == k[0];
        assert Build(u) == AddRecord(At(t, p), k[0]);
        assert Build(u) == Success(At(tEnd, p));
      } else {
        assert Strip(p, lst) == si;
        assert Build(si) == Success(At(t, p));
        assert At(tEnd, p) == At(t, p);
      }
    } else {
      EmptyAt(p);
    }
  }

  /** Below a fresh `{}` every node is a fresh `{}`. */
  lemma {:induction false} EmptyAt(p: seq<string>)
    ensures At(Dir([]), p) == Dir([])
    decreases |p|
  {
    if |p| > 0 {
      EmptyAt(p[1..]);
    }
  }

  /** Stripping is idempotent: the stripped listing has no common prefix
      left. */
  lemma StripIdempotent(lst: seq<HashRecord>)
    requires StripPrefix(lst).Success?
    ensures FindCommonPrefix(StripPrefix(lst).value.1) == Success([])
  {
    var t := Build(lst).value;
    var p := Walk(t);
    PrefixSound(lst);
    BuildStrip(lst, p);
    var sub := At(t, p);
    assert !OneDirChild(sub);
  }

  // ---------------------------------------------------------------------
  // Conflicts

  /** The outcome of a conflict depends on the order of the records: a file
      inside a file is a `ValueError`, but the same two files in the other
      order let the outer file silently replace the directory; a directory
      through a file is a `TypeError`, a directory ending on a file is
      accepted, and a file record without segments is an `IndexError`. */
  lemma ConflictsDependOnOrder(h: string, a: string, b: string)
    ensures Build([HashRecord(Some(h), [a]), HashRecord(Some(h), [a, b])]) == Failure(ValueError)
    ensures FindCommonPrefix([HashRecord(Some(h), [a, b]), HashRecord(Some(h), [a])]) == Success([])
    ensures Build([HashRecord(Some(h), [a]), HashRecord(None, [a, b])]) == Failure(TypeError)
    ensures Build([HashRecord(Some(h), [a]), HashRecord(None, [a])]).Success?
    ensures Build([HashRecord(Some(h), [])]) == Failure(IndexError)
  {
    var fa, fab := HashRecord(Some(h), [a]), HashRecord(Some(h), [a, b]);
    var da, dab := HashRecord(None, [a]), HashRecord(None, [a, b]);
    BuildOneFile(fa, a);
    BuildPair(fa, fab);
    BuildPair(fa, dab);
    BuildPair(fa, da);
    FileInsideFile(a, b);
    DirThroughFile(a, b);
    DirOnFile(a);
    FileOverDir(fab, fa, a, b);
    assert [HashRecord(Some(h), [])][..0] == [];
  }

  /** A single file record `a` builds the trie `{a: '__file__'}`. */
  lemma BuildOneFile(fa: HashRecord, a: string)
    requires fa.hash.Some? && fa.parts == [a]
    ensures Build([fa]) == Success(Dir([(a, FileLeaf)]))
  {
    assert [fa][..0] == [];
    assert fa.parts[..0] == [] && fa.parts[0] == a;
    assert Put([], a, FileLeaf) == [(a, FileLeaf)];
  }

  /** Two records are built one after the other. */
  lemma BuildPair(x: HashRecord, y: HashRecord)
    ensures Build([x, y]) == (match Build([x]) case Failure(e) => Failure(e) case Success(t) => AddRecord(t, y))
  {
    assert [x, y][..1] == [x];
  }

  lemma FileInsideFile(a: string, b: string)
    ensures Place(Dir([(a, FileLeaf)]), [a], Some(b)) == Failure(ValueError)
  {
    var one := Dir([(a, FileLeaf)]);
    assert KeyIndex(one.entries, a) == 0;
    assert [a][1..] == [];
    assert LandsOnLeaf(one, [a]);
  }

  lemma DirThroughFile(a: string, b: string)
    ensures Place(Dir([(a, FileLeaf)]), [a, b], None) == Failure(TypeError)
  {
    var one := Dir([(a, FileLeaf)]);
    assert KeyIndex(one.entries, a) == 0;
    assert [a, b][0] == a && [a, b][1..] == [b];
    assert HitsLeaf(one, [a, b]);
  }

  lemma DirOnFile(a: string)
    ensures Place(Dir([(a, FileLeaf)]), [a], None).Success?
  {
    var one := Dir([(a, FileLeaf)]);
    assert KeyIndex(one.entries, a) == 0;
    assert [a][1..] == [];
    assert !HitsLeaf(one, [a]);
  }

  /** File `a/b` then file `a`: the file overwrites the directory, and the
      prefix is empty because the only entry is a file. */
  lemma FileOverDir(fab: HashRecord, fa: HashRecord, a: string, b: string)
    requires fab.hash.Some? && fab.parts == [a, b] && fa.hash.Some? && fa.parts == [a]
    ensures FindCommonPrefix([fab, fa]) == Success([])
  {
    var one := Dir([(a, FileLeaf)]);
    var two := Dir([(a, Dir([(b, FileLeaf)]))]);
    assert Build([fab]) == Success(two) by {
      assert [fab][..0] == [];
      assert fab.parts[..1] == [a] && fab.parts[1] == b;
      assert [a][0] == a && [a][1..] == [];
      assert Put([], b, FileLeaf) == [(b, FileLeaf)];
      assert Place(Dir([]), [], Some(b)) == Success(Dir([(b, FileLeaf)]));
      assert ChildOr([], a) == Dir([]);
      assert Put([], a, Dir([(b, FileLeaf)])) == two.entries;
      assert Place(Dir([]), [a], Some(b)) == Success(two);
    }
    BuildPair(fab, fa);
    assert KeyIndex(two.entries, a) == 0;
    assert fa.parts[..0] == [] && fa.parts[0] == a;
    assert Put(two.entries, a, FileLeaf) == one.entries;
    assert Build([fab, fa]) == Success(one);
    assert Walk(one) == [];
  }
}

=== FILE: records.dfy ===
/** `HashRecord`: one archive member with its path segments and an optional
    content digest (`None` for a directory). */
module Records {
  import opened Wrappers
  import opened Paths

  /** A record as constructed: the digest already lower-cased and the path
      already split into segments. The `relpath` property is `Relpath`. */
  datatype HashRecord = HashRecord(hash: Option<string>, parts: seq<string>) {

    /** `'/'.join(path_parts)` */
    function Relpath(): string {
      Join(parts)
    }

    predicate IsFile() {
      hash.Some?
    }
  }

  /** The two ways the constructor accepts a path: a string to be split by
      `path_parts`, or a list of segments copied as they are. */
  datatype PathArg = PathString(path: string) | PathList(segments: seq<string>)

  /** `str.lower()` on one character, for the ASCII letters a hex digest may
      hold. */
  function LowerChar(c: char): (d: char)
    ensures 'A' <= c <= 'Z' ==> d as int == c as int + 32
    ensures !('A' <= c <= 'Z') ==> d == c
  {
    if 'A' <= c <= 'Z' then (c as int + 32) as char else c
  }

  /** `str.lower()` on a digest. */
  function Lower(s: string): (r: string)
    ensures |r| == |s|
    ensures forall k :: 0 <= k < |s| ==> r[k] == LowerChar(s[k])
  {
    if |s| == 0 then "" else [LowerChar(s[0])] + Lower(s[1..])
  }

  predicate NoUpper(s: string) {
    forall k :: 0 <= k < |s| ==> !('A' <= s[k] <= 'Z')
  }

  /** `HashRecord(hash_value, relpath)`: the digest is lower-cased when
      present and stays absent otherwise; a string path is split, a list is
      copied verbatim. */
  function MakeRecord(hashValue: Option<string>, relpath: PathArg): (r: HashRecord)
    ensures hashValue.None? <==> r.hash.None?
    ensures hashValue.Some? ==> |r.hash.value| == |hashValue.value| && NoUpper(r.hash.value)
    ensures hashValue.Some? ==> forall k :: 0 <= k < |hashValue.value| ==>
              (r.hash.value[k] == hashValue.value[k] || 'A' <= hashValue.value[k] <= 'Z')
    ensures hashValue.Some? ==> r.hash == Some(Lower(hashValue.value))
    ensures relpath.PathList? ==> r.parts == relpath.segments
    ensures relpath.PathString? ==> AllSegments(r.parts)
    ensures relpath.PathString? ==> r.parts == PathParts(relpath.path)
  {
    var h := match hashValue
      case None => None
      case Some(v) => Some(Lower(v));
    var ps := match relpath
      case PathString(p) => PathParts(p)
      case PathList(segs) => segs;
    HashRecord(h, ps)
  }

  /** Lower-casing is idempotent, so rebuilding a record from its own digest
      keeps the digest. */
  lemma LowerIdempotent(s: string)
    ensures Lower(Lower(s)) == Lower(s)
  {
  }

  /** A record rebuilt from its own digest and segments is the same record:
      the digest is already lower-case. */
  lemma RebuildKeepsRecord(r: HashRecord)
    requires r.hash.Some? ==> NoUpper(r.hash.value)
    ensures MakeRecord(r.hash, PathList(r.parts)) == r
  {
    if r.hash.Some? {
      assert Lower(r.hash.value) == r.hash.value;
    }
  }

  /** Building from a path string and from its segment list agree whenever
      the list holds proper segments. */
  lemma StringAndListAgree(h: Option<string>, segs: seq<string>)
    requires AllSegments(segs)
    ensures MakeRecord(h, PathString(Join(segs))) == MakeRecord(h, PathList(segs))
    ensures MakeRecord(h, PathList(segs)).Relpath() == Join(segs)
  {
    PartsOfJoin(segs);
  }

  /** The `__eq__` that `@dataclass` generates: only the annotated `hash`
      field takes part, so paths are never compared. */
  predicate RecordEq(a: HashRecord, b: HashRecord) {
    a.hash == b.hash
  }

  /** Two records with different paths compare equal under the generated
      equality: path-level assertions that rely on it check digests only. */
  lemma EqualityIgnoresPaths(h: Option<string>, p: string, q: string)
    requires IsSegment(p) && IsSegment(q) && p != q
    ensures RecordEq(MakeRecord(h, PathString(p)), MakeRecord(h, PathString(q)))
    ensures MakeRecord(h, PathString(p)).parts != MakeRecord(h, PathString(q)).parts
  {
    PartsOfSegment(p);
    PartsOfSegment(q);
  }

  /** Equality of two listings under the generated record equality. */
  predicate ListingsEq(a: seq<HashRecord>, b: seq<HashRecord>) {
    |a| == |b| && forall k :: 0 <= k < |a| ==> RecordEq(a[k], b[k])
  }
}

=== FILE: sorting.dfy ===
/** `listing.sort(key=...)`: a stable sort of records by a key under Python's
    order. The source sorts by `path_parts` (list order); the corrected merge
    sorts by `relpath` (string order). Any stable sort yields the same list
    (`StableSortUnique`), so it is modelled as insertion sort. */
module Sorting {
  import opened Order
  import opened Paths
  import opened Records

  /** The sort key: `path_parts` compared as lists, or `relpath` compared as
      strings. */
  datatype SortKey = ByParts | ByRelpath

  /** `x` sorts strictly before `y` under `key`. */
  predicate Before(key: SortKey, x: HashRecord, y: HashRecord) {
    match key
    case ByParts => PartsLt(x.parts, y.parts)
    case ByRelpath => StrLt(x.Relpath(), y.Relpath())
  }

  /** `x` and `y` have the same key. */
  predicate SameKey(key: SortKey, x: HashRecord, y: HashRecord) {
    match key
    case ByParts => x.parts == y.parts
    case ByRelpath => x.Relpath() == y.Relpath()
  }

  predicate NotAfter(key: SortKey, x: HashRecord, y: HashRecord) {
    SameKey(key, x, y) || Before(key, x, y)
  }

  lemma BeforeIrreflexive(key: SortKey, x: HashRecord, y: HashRecord)
    requires SameKey(key, x, y)
    ensures !Before(key, x, y)
  {
    match key
    case ByParts => PartsLtIrreflexive(x.parts);
    case ByRelpath => StrLtIrreflexive(x.Relpath());
  }

  lemma BeforeTransitive(key: SortKey, x: HashRecord, y: HashRecord, z: HashRecord)
    requires Before(key, x, y) && Before(key, y, z)
    ensures Before(key, x, z)
  {
    match key
    case ByParts => PartsLtTransitive(x.parts, y.parts, z.parts);
    case ByRelpath => StrLtTransitive(x.Relpath(), y.Relpath(), z.Relpath());
  }

  lemma BeforeTotal(key: SortKey, x: HashRecord, y: HashRecord)
    ensures SameKey(key, x, y) || Before(key, x, y) || Before(key, y, x)
  {
    match key
    case ByParts => PartsLtTotal(x.parts, y.parts);
    case ByRelpath => StrLtTotal(x.Relpath(), y.Relpath());
  }

  lemma BeforeAsymmetric(key: SortKey, x: HashRecord, y: HashRecord)
    requires Before(key, x, y)
    ensures !Before(key, y, x)
  {
    match key
    case ByParts => PartsLtAsymmetric(x.parts, y.parts);
    case ByRelpath => StrLtAsymmetric(x.Relpath(), y.Relpath());
  }

  lemma NotAfterTransitive(key: SortKey, x: HashRecord, y: HashRecord, z: HashRecord)
    requires NotAfter(key, x, y) && NotAfter(key, y, z)
    ensures NotAfter(key, x, z)
  {
    match key
    case ByParts =>
      if x.parts != y.parts && y.parts != z.parts {
        PartsLtTransitive(x.parts, y.parts, z.parts);
      }
    case ByRelpath =>
      if x.Relpath() != y.Relpath() && y.Relpath() != z.Relpath() {
        StrLtTransitive(x.Relpath(), y.Relpath(), z.Relpath());
      }
  }

  /** Non-decreasing under `key`. */
  predicate Sorted(key: SortKey, t: seq<HashRecord>) {
    forall i, j :: 0 <= i < j < |t| ==> NotAfter(key, t[i], t[j])
  }

  /** Strictly increasing under `key`. */
  predicate StrictlySorted(key: SortKey, t: seq<HashRecord>) {
    forall i, j :: 0 <= i < j < |t| ==> Before(key, t[i], t[j])
  }

  /** No two records share a key. */
  predicate UniqueKeys(key: SortKey, t: seq<HashRecord>) {
    forall i, j :: 0 <= i < j < |t| ==> !SameKey(key, t[i], t[j])
  }

  /** Where a stable insertion puts `x`: after every element it does not sort
      below, scanning from the end. */
  function InsertionPoint(key: SortKey, t: seq<HashRecord>, x: HashRecord): (k: nat)
    ensures k <= |t|
    ensures forall i :: k <= i < |t| ==> Before(key, x, t[i])
    ensures k > 0 ==> !Before(key, x, t[k - 1])
  {
    if |t| == 0 || !Before(key, x, t[|t| - 1]) then |t|
    else InsertionPoint(key, t[..|t| - 1], x)
  }

  function Insert(key: SortKey, t: seq<HashRecord>, x: HashRecord): seq<HashRecord> {
    var k := InsertionPoint(key, t, x);
    t[..k] + [x] + t[k..]
  }

  /** Inserting adds exactly `x`. */
  lemma InsertAdds(key: SortKey, t: seq<HashRecord>, x: HashRecord)
    ensures multiset(Insert(key, t, x)) == multiset(t) + multiset{x}
  {
    var k := InsertionPoint(key, t, x);
    assert t == t[..k] + t[k..];
  }

  /** Inserting into a sorted list keeps it sorted. */
  lemma InsertSorted(key: SortKey, t: seq<HashRecord>, x: HashRecord)
    requires Sorted(key, t)
    ensures Sorted(key, Insert(key, t, x))
  {
    var k := InsertionPoint(key, t, x);
    var u := Insert(key, t, x);
    assert |u| == |t| + 1;
    assert forall i :: 0 <= i < k ==> u[i] == t[i];
    assert u[k] == x;
    assert forall i :: k < i < |u| ==> u[i] == t[i - 1];
    if k > 0 {
      BeforeTotal(key, x, t[k - 1]);
      assert NotAfter(key, t[k - 1], x) by {
        if SameKey(key, x, t[k - 1]) {
          match key
          case ByParts =>
          case ByRelpath =>
        }
      }
      forall i | 0 <= i < k
        ensures NotAfter(key, t[i], x)
      {
        if i < k - 1 {
          NotAfterTransitive(key, t[i], t[k - 1], x);
        }
      }
    }
    forall i, j | 0 <= i < j < |u|
      ensures NotAfter(key, u[i], u[j])
    {
      if j < k {
        assert u[i] == t[i] && u[j] == t[j];
      } else if i > k {
        assert u[i] == t[i - 1] && u[j] == t[j - 1];
      } else if i == k {
        assert u[j] == t[j - 1];
      } else if j == k {
        assert u[i] == t[i];
      } else {
        assert u[i] == t[i] && u[j] == t[j - 1];
      }
    }
  }

  /** Inserting a record with a new key keeps the keys distinct. */
  lemma InsertUnique(key: SortKey, t: seq<HashRecord>, x: HashRecord)
    requires UniqueKeys(key, t)
    requires forall i :: 0 <= i < |t| ==> !SameKey(key, t[i], x)
    ensures UniqueKeys(key, Insert(key, t, x))
  {
    var k := InsertionPoint(key, t, x);
    var u := Insert(key, t, x);
    forall i, j | 0 <= i < j < |u|
      ensures !SameKey(key, u[i], u[j])
    {
      if i < k && j < k {
        assert u[i] == t[i] && u[j] == t[j];
      } else if i < k && j == k {
        assert u[i] == t[i];
      } else if i < k {
        assert u[i] == t[i] && u[j] == t[j - 1];
      } else if i == k {
        assert u[j] == t[j - 1];
        assert !SameKey(key, t[j - 1], x);
        match key
        case ByParts =>
        case ByRelpath =>
      } else {
        assert u[i] == t[i - 1] && u[j] == t[j - 1];
      }
    }
  }

  lemma InsertStep(key: SortKey, init: seq<HashRecord>, rest: seq<HashRecord>, x: HashRecord)
    requires multiset(rest) == multiset(init) && Sorted(key, rest)
    ensures multiset(Insert(key, rest, x)) == multiset(init + [x])
    ensures Sorted(key, Insert(key, rest, x))
  {
    InsertSorted(key, rest, x);
    InsertAdds(key, rest, x);
  }

  /** The records of `s` whose key is `y`'s, in the order `s` holds them. */
  function WithKeyOf(key: SortKey, s: seq<HashRecord>, y: HashRecord): (w: seq<HashRecord>)
    ensures |w| <= |s|
    ensures forall i | 0 <= i < |w| :: SameKey(key, w[i], y)
    decreases |s|
  {
    if |s| == 0 then []
    else KeyedOne(key, s[0], y) + WithKeyOf(key, s[1..], y)
  }

  /** `x` alone when it has `y`'s key, nothing otherwise. */
  function KeyedOne(key: SortKey, x: HashRecord, y: HashRecord): seq<HashRecord> {
    if SameKey(key, x, y) then [x] else []
  }

  lemma WithKeyCons(key: SortKey, s: seq<HashRecord>, y: HashRecord)
    requires |s| > 0
    ensures WithKeyOf(key, s, y) == KeyedOne(key, s[0], y) + WithKeyOf(key, s[1..], y)
  {
  }

  /** Selecting one key's records distributes over concatenation. */
  lemma {:induction false} WithKeyAppend(key: SortKey, a: seq<HashRecord>, b: seq<HashRecord>, y: HashRecord)
    ensures WithKeyOf(key, a + b, y) == WithKeyOf(key, a, y) + WithKeyOf(key, b, y)
    decreases |a|
  {
    if |a| == 0 {
      assert a + b == b;
    } else {
      assert (a + b)[0] == a[0] && (a + b)[1..] == a[1..] + b;
      WithKeyCons(key, a + b, y);
      WithKeyCons(key, a, y);
      WithKeyAppend(key, a[1..], b, y);
      SeqAssoc(KeyedOne(key, a[0], y), WithKeyOf(key, a[1..], y), WithKeyOf(key, b, y));
    }
  }

  lemma {:induction false} WithKeyNone(key: SortKey, t: seq<HashRecord>, y: HashRecord)
    requires forall i | 0 <= i < |t| :: !SameKey(key, t[i], y)
    ensures WithKeyOf(key, t, y) == []
    decreases |t|
  {
    if |t| > 0 {
      assert forall i | 0 <= i < |t[1..]| :: t[1..][i] == t[i + 1];
      WithKeyNone(key, t[1..], y);
    }
  }

  lemma SameKeyVia(key: SortKey, x: HashRecord, r: HashRecord, y: HashRecord)
    requires SameKey(key, x, y) && SameKey(key, r, y)
    ensures SameKey(key, x, r)
  {
    match key
    case ByParts =>
    case ByRelpath =>
  }

  lemma WithKeyOne(key: SortKey, x: HashRecord, y: HashRecord)
    ensures WithKeyOf(key, [x], y) == (if SameKey(key, x, y) then [x] else [])
  {
    assert [x][1..] == [];
  }

  /** Nothing after the insertion point shares the inserted record's key. */
  lemma AfterInsertionPoint(key: SortKey, t: seq<HashRecord>, x: HashRecord, y: HashRecord)
    requires SameKey(key, x, y)
    ensures WithKeyOf(key, t[InsertionPoint(key, t, x)..], y) == []
  {
    var k := InsertionPoint(key, t, x);
    var hi := t[k..];
    forall i | 0 <= i < |hi| ensures !SameKey(key, hi[i], y) {
      assert hi[i] == t[k + i];
      if SameKey(key, hi[i], y) {
        SameKeyVia(key, x, hi[i], y);
        BeforeIrreflexive(key, x, hi[i]);
      }
    }
    WithKeyNone(key, hi, y);
  }

  /** Stable insertion: `x` goes after every record with its key, so each
      key's records keep the order they would have with `x` appended. */
  lemma InsertStable(key: SortKey, t: seq<HashRecord>, x: HashRecord, y: HashRecord)
    ensures WithKeyOf(key, Insert(key, t, x), y) == WithKeyOf(key, t + [x], y)
  {
    var k := InsertionPoint(key, t, x);
    var lo, hi := t[..k], t[k..];
    var u, v := Insert(key, t, x), t + [x];
    assert u == lo + ([x] + hi);
    assert v == (lo + hi) + [x] by {
      assert t == lo + hi;
    }
    if SameKey(key, x, y) {
      AfterInsertionPoint(key, t, x, y);
    }
    StableSplice(key, lo, hi, x, y);
  }

  /** Putting `x` between `lo` and `hi` instead of after both changes no
      key's order when nothing in `hi` shares `x`'s key. */
  lemma StableSplice(key: SortKey, lo: seq<HashRecord>, hi: seq<HashRecord>, x: HashRecord, y: HashRecord)
    requires SameKey(key, x, y) ==> WithKeyOf(key, hi, y) == []
    ensures WithKeyOf(key, lo + ([x] + hi), y) == WithKeyOf(key, (lo + hi) + [x], y)
  {
    WithKeyAppend(key, lo, [x] + hi, y);
    WithKeyAppend(key, [x], hi, y);
    WithKeyAppend(key, lo, hi, y);
    WithKeyAppend(key, lo + hi, [x], y);
    WithKeyOne(key, x, y);
    SwapAroundEmpty(WithKeyOf(key, lo, y), WithKeyOf(key, [x], y), WithKeyOf(key, hi, y));
  }

  lemma SwapAroundEmpty<T>(a: seq<T>, b: seq<T>, c: seq<T>)
    requires b == [] || c == []
    ensures a + (b + c) == (a + c) + b
  {
    if b == [] {
      assert a + (b + c) == a + c;
    } else {
      assert a + (b + c) == a + b;
    }
  }

  lemma SortStep(key: SortKey, init: seq<HashRecord>, rest: seq<HashRecord>, x: HashRecord)
    requires forall y :: WithKeyOf(key, rest, y) == WithKeyOf(key, init, y)
    ensures forall y :: WithKeyOf(key, Insert(key, rest, x), y) == WithKeyOf(key, init + [x], y)
  {
    forall y ensures WithKeyOf(key, Insert(key, rest, x), y) == WithKeyOf(key, init + [x], y) {
      InsertStable(key, rest, x, y);
      WithKeyAppend(key, rest, [x], y);
      WithKeyAppend(key, init, [x], y);
    }
  }

  /** The stable sort under `key`: a sorted permutation of the input in
      which the records sharing a key keep their input order. */
  function SortBy(key: SortKey, s: seq<HashRecord>): (t: seq<HashRecord>)
    ensures multiset(t) == multiset(s)
    ensures Sorted(key, t)
    ensures forall y :: WithKeyOf(key, t, y) == WithKeyOf(key, s, y)
    decreases |s|
  {
    if |s| == 0 then []
    else
      var init, x := s[..|s| - 1], s[|s| - 1];
      var rest := SortBy(key, init);
      assert s == init + [x];
      InsertStep(key, init, rest, x);
      SortStep(key, init, rest, x);
      Insert(key, rest, x)
  }

  /** A stable sort is determined by its input: two sorted lists that are
      permutations of one another and hold each key's records in the same
      order are equal. So any stable sort of a listing gives `SortBy`'s
      result. */
  lemma {:induction false} StableSortUnique(key: SortKey, a: seq<HashRecord>, b: seq<HashRecord>)
    requires Sorted(key, a) && Sorted(key, b) && multiset(a) == multiset(b)
    requires forall y :: WithKeyOf(key, a, y) == WithKeyOf(key, b, y)
    ensures a == b
    decreases |a|
  {
    if |a| == 0 {
      assert |b| == |multiset(b)| == 0;
    } else {
      StableHeads(key, a, b);
      StableSortUnique(key, a[1..], b[1..]);
      HeadAndTail(a, b);
    }
  }

  /** The first step of `StableSortUnique`: the heads agree and the tails
      meet the lemma's requirements again. */
  lemma StableHeads(key: SortKey, a: seq<HashRecord>, b: seq<HashRecord>)
    requires Sorted(key, a) && Sorted(key, b) && multiset(a) == multiset(b)
    requires forall y :: WithKeyOf(key, a, y) == WithKeyOf(key, b, y)
    requires |a| > 0
    ensures |b| > 0 && a[0] == b[0]
    ensures Sorted(key, a[1..]) && Sorted(key, b[1..]) && multiset(a[1..]) == multiset(b[1..])
    ensures forall y :: WithKeyOf(key, a[1..], y) == WithKeyOf(key, b[1..], y)
  {
    SameKeyHeads(key, a, b);
    assert WithKeyOf(key, a, a[0])[0] == a[0] by {
      WithKeyCons(key, a, a[0]);
    }
    assert WithKeyOf(key, b, a[0])[0] == b[0] by {
      WithKeyCons(key, b, a[0]);
    }
    TailMultiset(a);
    TailMultiset(b);
    StableTails(key, a, b);
    SortedTail(key, a);
    SortedTail(key, b);
  }

  lemma HeadAndTail<T>(a: seq<T>, b: seq<T>)
    requires |a| > 0 && |b| > 0 && a[0] == b[0] && a[1..] == b[1..]
    ensures a == b
  {
    assert a == [a[0]] + a[1..] && b == [b[0]] + b[1..];
  }

  /** Lists with one head and the same records per key keep the same
      records per key once the head is dropped. */
  lemma StableTails(key: SortKey, a: seq<HashRecord>, b: seq<HashRecord>)
    requires |a| > 0 && |b| > 0 && a[0] == b[0]
    requires forall y :: WithKeyOf(key, a, y) == WithKeyOf(key, b, y)
    ensures forall y :: WithKeyOf(key, a[1..], y) == WithKeyOf(key, b[1..], y)
  {
    forall y ensures WithKeyOf(key, a[1..], y) == WithKeyOf(key, b[1..], y) {
      WithKeyCons(key, a, y);
      WithKeyCons(key, b, y);
      DropCommonHead(KeyedOne(key, a[0], y), WithKeyOf(key, a[1..], y), WithKeyOf(key, b[1..], y));
    }
  }

  lemma DropCommonHead<T>(h: seq<T>, p: seq<T>, q: seq<T>)
    requires h + p == h + q
    ensures p == q
  {
    assert p == (h + p)[|h|..];
  }

  /** The heads of two sorted permutations of one another share a key. */
  lemma SameKeyHeads(key: SortKey, a: seq<HashRecord>, b: seq<HashRecord>)
    requires Sorted(key, a) && Sorted(key, b) && multiset(a) == multiset(b) && |a| > 0
    ensures |b| > 0 && SameKey(key, a[0], b[0]) && SameKey(key, b[0], a[0])
  {
    assert a[0] in multiset(b);
    assert b[0] in multiset(a);
    var i :| 0 <= i < |a| && a[i] == b[0];
    var j :| 0 <= j < |b| && b[j] == a[0];
    assert NotAfter(key, a[0], b[0]) by {
      if i > 0 { assert NotAfter(key, a[0], a[i]); }
    }
    assert NotAfter(key, b[0], a[0]) by {
      if j > 0 { assert NotAfter(key, b[0], b[j]); }
    }
    if !SameKey(key, a[0], b[0]) {
      BeforeAsymmetric(key, a[0], b[0]);
      match key
      case ByParts =>
      case ByRelpath =>
    }
    match key
    case ByParts =>
    case ByRelpath =>
  }

  lemma SortedTail(key: SortKey, s: seq<HashRecord>)
    requires |s| > 0 && Sorted(key, s)
    ensures Sorted(key, s[1..])
  {
    forall i, j | 0 <= i < j < |s| - 1 ensures NotAfter(key, s[1..][i], s[1..][j]) {
      assert s[1..][i] == s[i + 1] && s[1..][j] == s[j + 1];
    }
  }

  /** Sorting a listing with distinct keys orders it strictly. */
  lemma {:induction false} SortStrict(key: SortKey, s: seq<HashRecord>)
    requires UniqueKeys(key, s)
    ensures UniqueKeys(key, SortBy(key, s))
    ensures StrictlySorted(key, SortBy(key, s))
    decreases |s|
  {
    if |s| > 0 {
      var init := s[..|s| - 1];
      var x := s[|s| - 1];
      SortStrict(key, init);
      var rest := SortBy(key, init);
      forall i | 0 <= i < |rest|
        ensures !SameKey(key, rest[i], x)
      {
        assert rest[i] in multiset(init);
        var m :| 0 <= m < |init| && init[m] == rest[i];
        assert s[m] == init[m];
      }
      InsertUnique(key, rest, x);
    }
    var t := SortBy(key, s);
    forall i, j | 0 <= i < j < |t|
      ensures Before(key, t[i], t[j])
    {
      assert NotAfter(key, t[i], t[j]);
    }
  }

  /** Two strictly sorted permutations of one another start alike. */
  lemma SameHead(key: SortKey, s: seq<HashRecord>, t: seq<HashRecord>)
    requires StrictlySorted(key, s) && StrictlySorted(key, t)
    requires multiset(s) == multiset(t) && |s| > 0
    ensures |t| > 0 && s[0] == t[0]
  {
    assert s[0] in multiset(t);
    assert t[0] in multiset(s);
    var a :| 0 <= a < |t| && t[a] == s[0];
    var b :| 0 <= b < |s| && s[b] == t[0];
    if a > 0 && b > 0 {
      BeforeAsymmetric(key, t[0], t[a]);
      assert false;
    }
  }

  /** Two strictly sorted permutations of one another are the same list:
      sorting is a normalisation that forgets the input order. */
  lemma {:induction false} StrictlySortedPermutationsEqual(key: SortKey, s: seq<HashRecord>, t: seq<HashRecord>)
    requires StrictlySorted(key, s) && StrictlySorted(key, t)
    requires multiset(s) == multiset(t)
    ensures s == t
    decreases |s|
  {
    assert |s| == |multiset(s)| == |t|;
    if |s| > 0 {
      SameHead(key, s, t);
      TailMultiset(s);
      TailMultiset(t);
      StrictlySortedTail(key, s);
      StrictlySortedTail(key, t);
      StrictlySortedPermutationsEqual(key, s[1..], t[1..]);
      assert s == [s[0]] + s[1..] && t == [t[0]] + t[1..];
    }
  }

  lemma TailMultiset(s: seq<HashRecord>)
    requires |s| > 0
    ensures multiset(s[1..]) == multiset(s) - multiset{s[0]}
  {
    assert s == [s[0]] + s[1..];
  }

  lemma StrictlySortedTail(key: SortKey, s: seq<HashRecord>)
    requires |s| > 0 && StrictlySorted(key, s)
    ensures StrictlySorted(key, s[1..])
  {
    forall i, j | 0 <= i < j < |s| - 1 ensures Before(key, s[1..][i], s[1..][j]) {
      assert s[1..][i] == s[i + 1] && s[1..][j] == s[j + 1];
    }
  }

  /** The sorted listing does not depend on the order of the input when the
      keys are distinct. */
  lemma SortForgetsOrder(key: SortKey, s: seq<HashRecord>, s': seq<HashRecord>)
    requires multiset(s) == multiset(s') && UniqueKeys(key, s) && UniqueKeys(key, s')
    ensures SortBy(key, s) == SortBy(key, s')
  {
    SortStrict(key, s);
    SortStrict(key, s');
    StrictlySortedPermutationsEqual(key, SortBy(key, s), SortBy(key, s'));
  }
}

=== FILE: wrappers.dfy ===
/** Failure-compatible result types used across the model: `Option` for Python's
    `Optional[...]` values and `Result` for operations that may raise. */
module Wrappers {

  datatype Option<+T> = None | Some(value: T)

  datatype Result<+R, +E> = Success(value: R) | Failure(error: E) {

    predicate IsFailure() {
      Failure?
    }

    function PropagateFailure<U>(): Result<U, E>
      requires Failure?
    {
      Failure(error)
    }

    function Extract(): R
      requires Success?
    {
      value
    }
  }
}
